=== FILE: README.md ===
# SystemInformationBundle services in Dafny

A model of the service layer of the Symfony bundle that renders a system
information dashboard. It covers:

- the log service, which reads Monolog-style log files into records and
  counts recent warnings and errors per file;
- the level filter and pagination of the log detail view;
- the cached error total;
- the monitor summary of the health checks;
- the dependency report, which compares installed composer packages with
  their latest releases, buckets them by state, filters them for display
  and merges in composer's update data;
- the `highlight` and environment-badge Twig filters;
- the dashboard teasers and the overall status flag of the information
  service.

PHP arrays are modelled as ordered association lists (`PhpArray`).
Assignment overwrites in place or appends, and `unset` removes. The file
system, the clock, the date parser, the cache pool, the composer process
and the environment variables are parameters of the operations.

Modules, one per file: `Wrappers` (Option/Result), `Seqs` (filter, count
and join helpers), `PhpInt` (the 64-bit range of PHP's integers),
`PhpArray`, `PhpStrings`, `LogLine`, `Sorting`,
`LogService`, `CheckService`, `DependencyService`, `Highlight`,
`Environment`, `Information`.

Points of the code that are easy to misread:

- A log message must NOT start with `[` or `{`: the message group of the
  pattern at src/Service/LogService.php:110 opens with the class
  `[^\[\{]`.
- There is no cap on the file size: `getLog` reads every line of the
  file (src/Service/LogService.php:104-124).
- There is no channel or search filter in the log detail view:
  src/Controller/Admin/SystemController.php:166 passes `$channel` and
  `$search`, but `filterLogEntryList` (src/Service/LogService.php:136)
  declares no such parameters, and PHP drops the extra arguments.
- A non-positive limit or page is not rejected. Page 0 shows the last
  `limit` records (`LogService.PageZeroShowsTail`).
- A page whose offset `($page - 1) * $limit` leaves PHP's 64-bit integers
  raises a `TypeError` (`LogService.FilterLogEntryList`).

## Model

| member | source | states |
|---|---|---|
| LogLine.MatchLine | src/Service/LogService.php:110 | when `preg_match` reports a match, its pieces meet the pattern's constraints (one-line date, word channel and level, message opening with neither `[` nor `{` and closing with `]` or `}`) and put back together give the line |
| LogLine.MatchLineIsFirst | src/Service/LogService.php:110 | whenever the pattern matches the line in any way, `preg_match` reports a match, and no match of the line comes before it in PCRE's backtracking order (leftmost `[`, then longest date, channel, level and message) |
| LogLine.ReadingsEqual | src/Service/LogService.php:110 | two matches of one line that neither comes before the other are the same, so the reported match is the single first one |
| LogLine.MatchMessageLongest | src/Service/LogService.php:110 | the greedy message group: whenever a message starts the text, one is read, at least as long as any other |
| LogLine.MatchLevelLongest | src/Service/LogService.php:110 | the level is the whole word before `": "`, and the message after it is the longest |
| LogLine.MatchTailFirst | src/Service/LogService.php:110 | after `"] "`, whenever channel, separator, level and message can be read, the reading found has the longest channel, then level, then message |
| LogLine.DateFirst | src/Service/LogService.php:110 | the greedy date group: whenever the text after `[` matches, the longest date that lets the rest match is chosen |
| LogLine.MatchLineCanonical | src/Service/LogService.php:110 | a line built from pieces with no `[` before the date, no `]` in the date, a non-word separator, no closer after the message and no `"] "` followed by a word character in or after the message is read back into exactly those pieces |
| LogLine.ParseLine | src/Service/LogService.php:104-122 | the falsy lines `""` and `"0"` give no record; any record has word-character channel and level and a message that does not open with `[`/`{`, holds no newline after its first character and ends with `]`/`}` |
| LogLine.ParseLineSkips | src/Service/LogService.php:104-113 | a line gives no record exactly when it is falsy or the pattern matches it in no way |
| LogLine.ParseLineCanonical | src/Service/LogService.php:110-120 | a line of that canonical kind yields the record of its parsed date, channel, level and message |
| LogService.ReadLog | src/Service/LogService.php:100-126 | at most one record per line |
| LogService.ReadLogAppend | src/Service/LogService.php:122-126 | records come out in reverse file order: reading `a + b` gives the records of `b` before those of `a` |
| LogService.ReadLogSingle | src/Service/LogService.php:106-122 | a line that does not parse is skipped; one that parses contributes exactly its record |
| LogService.ReadLogMembership | src/Service/LogService.php:103-122 | a record is in the result exactly when some line of the file parses to it |
| LogService.FindFile | src/Service/LogService.php:93-96 | looks the id up among the listed file names: finds a listed entry with that name, or reports that no listed entry has it (the `file_exists` test for a plain file name) |
| LogService.GetLog | src/Service/LogService.php:91-127 | looks the id up by listed name: `FileNotFound` exactly when the directory cannot be listed or no listed file has that name; otherwise the records read from that listed file |
| LogService.CountLogTypeByPeriod | src/Service/LogService.php:188-200 | the count never exceeds the number of records |
| LogService.CountIsLeadingRun | src/Service/LogService.php:190-198 | the count is the number of records of the wanted levels in the leading run of in-window records; it is 0 when the first record is older than the window |
| LogService.CountStopsAtOldRecord | src/Service/LogService.php:192-194 | nothing after the first out-of-window record is counted, whatever follows it |
| LogService.CountAtBoundary | src/Service/LogService.php:192 | a record dated exactly at the window start is still counted (the comparison is strict) |
| LogService.CountMonotone | src/Service/LogService.php:192 | widening the window never lowers the count |
| LogService.CountSortedIsExact | src/Service/LogService.php:188-200 | on a newest-first list the count is every in-window record of the wanted levels |
| LogService.LevelIndex | src/Service/LogService.php:29-38 | `array_search` in `LOG_LEVEL`: the level's position, or false exactly for names that are not levels |
| LogService.ArraySlice | src/Service/LogService.php:148 | `array_slice`: the length and elements for every sign of offset and length; empty past the end |
| LogService.PageOffsetBounds | src/Service/LogService.php:138 | from page 1 on the offset is non-negative and each page starts `limit` records after the previous one |
| LogService.PageSlice | src/Service/LogService.php:138-148 | for page >= 1 and limit >= 0: `min(limit, count - offset)` records (none past the end), taken consecutively from the offset |
| LogService.FilterLogEntryList | src/Service/LogService.php:136-154 | raises a `TypeError` exactly when `$page - 1` or the offset `($page - 1) * $limit` leaves 64 bits (the float offset reaches `array_slice`, and the file declares `strict_types`); otherwise `count` is the number of records that pass the level filter, counted before slicing, and `result` is the requested page of them |
| LogService.OverflowingPageRaises | src/Service/LogService.php:138-148 | page `PHP_INT_MIN`, and page `PHP_INT_MAX` with two records a page, raise; page `PHP_INT_MAX` with one record a page does not |
| LogService.MeetsKnownLevel | src/Service/LogService.php:141-144 | for known levels a record passes exactly when its level is at least as severe as the requested one |
| LogService.MeetsUnknownLevel | src/Service/LogService.php:143 | `false >= n` quirk: an unknown requested level keeps everything; a record with an unknown level passes only the `DEBUG` filter |
| LogService.NoLevelKeepsAll | src/Service/LogService.php:141 | without a truthy level every record is kept |
| LogService.PagesArePrefixes | src/Service/LogService.php:138-148 | reading pages 1 to n raises exactly when the offset of page n leaves 64 bits; otherwise the pages together are the filtered records before offset `n * limit`, in order |
| LogService.PageCount | src/Service/LogService.php:138-148 | the number of pages ceil(count / limit): the page after the last starts past the last record, and the last page is not empty |
| LogService.PagesCoverAll | src/Service/LogService.php:138-148 | for a list of at most `PHP_INT_MAX` records, no page up to `PageCount` raises, and together they are exactly the filtered records, with none lost or repeated |
| LogService.PageZeroShowsTail | src/Service/LogService.php:138-148 | page 0 does not raise; its offset is `-limit`, so it shows the last `limit` filtered records, with the full count |
| LogService.Summarize | src/Service/LogService.php:70-77 | a row carries the file's name and change date; it is unreadable exactly for `.gz` files; its counts are 0 unless the file changed inside the window |
| LogService.Summaries | src/Service/LogService.php:70-79 | one row per listed file, in listing order |
| LogService.SortByChangeDate | src/Service/LogService.php:81-83 | the rows sorted newest first, as a rearrangement of the input |
| LogService.SortIsStable | src/Service/LogService.php:81-83 | rows with the same change date keep their listing order |
| LogService.GetLogs | src/Service/LogService.php:65-85 | fails exactly when the directory cannot be listed; otherwise the summaries of every entry except `.`, `..` and `.DS_Store`, newest first |
| LogService.GetLogsRows | src/Service/LogService.php:69-78 | each row summarizes a listed file, and no row is for `.`, `..` or `.DS_Store` |
| LogService.TotalCountPermutation | src/Service/LogService.php:174-176 | the total of the warning and error counts does not depend on the row order |
| LogService.ErrorCount | src/Service/LogService.php:172-177 | the total fails exactly when the directory cannot be listed |
| LogService.ErrorCountInListingOrder | src/Service/LogService.php:172-177 | the total over the sorted rows equals the total over the files in listing order |
| LogService.StaleFilesCountNothing | src/Service/LogService.php:76-77 | when no file changed inside the window the total is 0 |
| LogService.GetErrorCount | src/Service/LogService.php:161-179 | a forced call drops the cached total first; a cached total is served as it is; otherwise the total is computed and stored; a failure stores nothing; other keys are untouched |
| LogService.CachedCountIsServed | src/Service/LogService.php:165-169 | after a successful call, an unforced call answers with the same total and pool, whatever the directory holds by then |
| Sorting.SortDesc | src/Service/LogService.php:81-83 | the sorted sequence is in descending key order and a permutation of the input |
| Sorting.SortStable | src/Service/LogService.php:81-83 | elements with equal keys keep their relative order |
| CheckService.MonitorCheckStatus | src/Service/CheckService.php:44-53 | the worst status: no status is larger, and it is 0 or one of the statuses |
| CheckService.MonitorCheckCount | src/Service/CheckService.php:59-68 | at most one per check |
| CheckService.CountIsFailingRows | src/Service/CheckService.php:59-68 | the count is the number of checks with a status above 0 |
| CheckService.StatusZeroIffNoneFailing | src/Service/CheckService.php:44-68 | the status is 0 exactly when the count is 0 |
| CheckService.StatusPermutation | src/Service/CheckService.php:44-53 | the status does not depend on the order of the report |
| CheckService.CountPermutation | src/Service/CheckService.php:59-68 | the count does not depend on the order of the report |
| DependencyService.AsKey | src/Service/DependencyService.php:138 | how a status value becomes a key of the distribution: integers as themselves, non-numeric strings as strings, arrays not at all |
| DependencyService.CompareParts | src/Service/DependencyService.php:271-276 | the result is one of the three comparison states; equal versions are up to date |
| DependencyService.CompareVersions | src/Service/DependencyService.php:267-290 | one of the three states, never insecure; equal version strings are up to date |
| DependencyService.CompareVersionParts | src/Service/DependencyService.php:271-276 | out of date exactly when major or minor differ (minor only when both have one); pinned exactly when only a present patch differs; up to date otherwise |
| DependencyService.CompareIgnoresRequired | src/Service/DependencyService.php:278-287 | the required constraint has no effect on the result |
| DependencyService.CompareSymmetric | src/Service/DependencyService.php:271-276 | swapping installed and latest version gives the same state |
| DependencyService.AppendTo | src/Service/DependencyService.php:138 | `$d[k][] = p` adds the package at the end of bucket k and touches no other bucket |
| DependencyService.Place | src/Service/DependencyService.php:137-142 | placing a package fails exactly when its status cannot be a key |
| DependencyService.PlaceBucket | src/Service/DependencyService.php:137-138 | a package with a status joins the end of its status's bucket and no other state bucket |
| DependencyService.PlaceRequired | src/Service/DependencyService.php:139-141 | a package joins the `required` bucket exactly when it has a status and a required version |
| DependencyService.Distribute | src/Service/DependencyService.php:136-143 | the loop fails exactly when some package's status cannot be a key |
| DependencyService.Precedence | src/Service/DependencyService.php:145-155 | insecure beats out of date, which beats pinned, which beats up to date, by bucket emptiness |
| DependencyService.GetDependencyApplicationStatus | src/Service/DependencyService.php:123-158 | fails exactly when some package's status cannot be a key |
| DependencyService.BucketContents | src/Service/DependencyService.php:136-143 | each state bucket holds exactly the packages with that status, in input order |
| DependencyService.RequiredBucketContents | src/Service/DependencyService.php:139-141 | the `required` bucket holds exactly the packages that have a status and a required version, in input order |
| DependencyService.StatusIsMostSevere | src/Service/DependencyService.php:125-157 | the overall status is the most severe state any package has, and up to date when none has one |
| DependencyService.NoDependenciesUpToDate | src/Service/DependencyService.php:125-134 | no packages gives up to date with the initial empty distribution |
| DependencyService.FilterDependencies | src/Service/DependencyService.php:85-117 | without a search and updatable filter the list comes back unchanged; under strict types an integer package key with a non-empty search raises |
| DependencyService.FilterKeepsExactly | src/Service/DependencyService.php:91-115 | a package is kept exactly when its name contains a non-empty search, it is not up to date when only updatable ones are asked for, and it has a required version when only required ones are asked for |
| DependencyService.StripField | src/Service/DependencyService.php:246 | `ltrim(v, 'v')` on one field: a non-string raises; the field loses its leading `v`s and nothing else changes |
| DependencyService.StripLatest | src/Service/DependencyService.php:247-249 | `latest` is stripped when present, raises when present but not a string, and nothing else changes |
| DependencyService.StripVersions | src/Service/DependencyService.php:246-249 | raises exactly when `version` is not a string or `latest` is present and not a string; afterwards both are stripped and other fields are unchanged |
| DependencyService.MergeOne | src/Service/DependencyService.php:243-251 | a package without update data leaves the list as it was |
| DependencyService.MergeComposerDataSpec | src/Service/DependencyService.php:241-254 | a package with update data leaves its old key and appears under its name as the merge of its data; a package without update data keeps its entry |
| DependencyService.MergeComposerDataKeys | src/Service/DependencyService.php:241-254 | nothing else is in the merged list: its keys are exactly the old keys of the packages without update data and the names of the packages with it |
| DependencyService.MergePackageFields | src/Service/DependencyService.php:245-249 | a merged package takes each other field from the update when it has it and from the installed data otherwise; `version` and `latest` are stripped, and `latest` is present when either side has it |
| DependencyService.Assess | src/Service/DependencyService.php:204-206 | fails with a TypeError exactly when `latest` is present and `version` or `latest` is not a string; otherwise a package with `latest` gets as `status` the comparison of its version with the latest one, with "required" meaning a `requiredVersion` is present, and that status is one of the three states; a package without `latest` is unchanged; no other field changes |
| DependencyService.CopyRequirement | src/Service/DependencyService.php:200-202 | a required package gets its constraint as `requiredVersion`, so it has one exactly when it had one or is required; every other field is untouched |
| DependencyService.AdvancePackage | src/Service/DependencyService.php:199-207 | fails exactly when the name cannot be an array key or `latest` is present with a non-string `version` or `latest`; otherwise a required package gets its constraint, a package with `latest` gets as `status` the comparison of its version with the latest one, "required" meaning it had or just got a `requiredVersion`, and no field but those two changes |
| DependencyService.AddAdvancedInformation | src/Service/DependencyService.php:195-209 | every package keeps its key and is advanced, and the list keeps its length |
| DependencyService.NeverInsecure | src/Service/DependencyService.php:23-26 | packages without a status to start with are never reported insecure, because the comparison never yields that state |
| Highlight.MarkAt | src/Twig/HighlightExtension.php:28-33 | the text before the position is kept, and the word in its tags follows it; an in-range word adds only the two tags' length |
| Highlight.HighlightAsWritten | src/Twig/HighlightExtension.php:24-38 | the filter as written: without a search word the string is unchanged; with one the result always holds a mark |
| Highlight.Highlight | src/Twig/HighlightExtension.php:24-38 | without a search word, or when the word is absent, the string is unchanged; otherwise it grows by exactly the two tags |
| Highlight.HighlightSplices | src/Twig/HighlightExtension.php:28-33 | the result is the text before the first occurrence, the marked word, and the text after the occurrence |
| Highlight.HighlightUntags | src/Twig/HighlightExtension.php:28-33 | deleting the two tags gives back the original string |
| Highlight.HighlightFirstOnly | src/Twig/HighlightExtension.php:27-33 | only the first occurrence is marked; the text after the mark is the original |
| Highlight.AsWrittenAgreesWhenFound | src/Twig/HighlightExtension.php:27-33 | where the word occurs, the filter as written agrees with the intended one |
| Highlight.AsWrittenWhenAbsent | src/Twig/HighlightExtension.php:27-33 | where the word is absent, the filter as written puts the marked word at the front in place of the first characters |
| Highlight.AsWrittenCounterexample | src/Twig/HighlightExtension.php:27 | searching "abc" for "z" yields "<mark>z</mark>bc" as written, but "abc" as intended |
| Environment.SelectEnvironment | src/Twig/EnvironmentExtension.php:51 | `SYMFONY_ENVIRONMENT` when set, `APP_ENV` otherwise |
| Environment.Classify | src/Twig/EnvironmentExtension.php:53-60 | the badge is hidden exactly for production names in any letter case; a shown badge has one of the three colours |
| Environment.BadgeHtml | src/Twig/EnvironmentExtension.php:62-66 | the markup's length: the fixed text, the name twice and the colour |
| Environment.GetEnvironmentTemplate | src/Twig/EnvironmentExtension.php:49-67 | a TypeError exactly when neither variable is set; otherwise empty exactly when the badge is hidden |
| Environment.ClassifyIgnoresCase | src/Twig/EnvironmentExtension.php:53 | names that agree after lower-casing are classified alike |
| Environment.ClassifyColors | src/Twig/EnvironmentExtension.php:19-22 | the development colour exactly for development names; the standby colour exactly for standby names; the default colour for every other non-production name, stage names included |
| Environment.ClassifyExamples | src/Twig/EnvironmentExtension.php:53-60 | "Prod" is hidden, "Stage" gets the default colour, "Dev" the development colour |
| Environment.BadgeShowsName | src/Twig/EnvironmentExtension.php:62-66 | the badge carries the name as given, not lower-cased, in the class and as the text, with the colour between them |
| Information.GetSystemInformation | src/Service/InformationService.php:69-186 | at most six items, a prefix of the assembled array in insertion order, all of them when there are fewer than six |
| Information.ChecksTeaser | src/Service/InformationService.php:77-85 | the checks item is shown exactly when some check failed, counting the failed checks, as an error |
| Information.LogsTeaser | src/Service/InformationService.php:87-95 | the logs item is shown exactly when the error total is not 0, as an error |
| Information.DependencyTeaser | src/Service/InformationService.php:97-117 | no dependency item when up to date; an error for insecure packages; a warning for pinned or outdated ones |
| Information.RequirementsTeaser | src/Service/InformationService.php:119-138 | recommendations, when there are any, replace the requirements error with a warning; otherwise missing requirements are an error |
| Information.VersionsShown | src/Service/InformationService.php:140-152 | the application and PHP versions are always shown |
| Information.OsShownIffNothingCut | src/Service/InformationService.php:178-185 | the operating system, added last, is shown exactly when at most six items were assembled |
| Information.EnvironmentTeasers | src/Service/InformationService.php:160-176 | each environment item is shown exactly when its variable is truthy and fewer than six items precede it |
| Information.BuildIsPieces | src/Service/InformationService.php:71-183 | the array built by the method is its items' pieces in order, each present or absent as its condition says |
| Information.CutGet | src/Service/InformationService.php:185 | `array_splice($a, 0, 6)` keeps an item exactly when fewer than six items come before it |
| Information.GetSystemStatus | src/Service/InformationService.php:246-254 | true exactly when some log file counts a warning or error in the window, or some check failed |
| Information.GetSystemStatusAsWritten | src/Service/InformationService.php:246-254 | as written the call returns only when the logs count a warning or error, and then returns true; otherwise it fails with a TypeError |
| Information.StatusAsWrittenDiffers | src/Service/InformationService.php:253 | the written status never answers false, agrees with the intended one where it answers, and ignores the check results, which decide the intended status exactly where the written one fails |
| Information.StatusAsWrittenCounterexample | src/Service/InformationService.php:253 | with no log files and one failing check the intended status is true and the written call fails |
| PhpStrings.Explode | src/Service/DependencyService.php:271-274 | `explode('.', s)`: at least one piece, none holding a dot, and joined with dots they give back `s` |
| PhpStrings.ExplodeImplode | src/Service/DependencyService.php:271-274 | splitting the dot-joined version parts gives the parts back |
| PhpStrings.IntegerKey | src/Service/DependencyService.php:138 | a string used as a key becomes an integer exactly when it is `"0"` or an optional `-` and digits without a leading zero whose value lies in PHP's 64-bit range; the integer is the value the digits spell |
| PhpStrings.IntegerKeyLimits | src/Service/DependencyService.php:138 | `"9223372036854775807"` and `"-9223372036854775808"` become integer keys; `"9223372036854775808"` stays a string |
| PhpStrings.TrimLeft | src/Service/DependencyService.php:246-248 | `ltrim(s, 'v')` removes exactly the leading run of `v`s |
| PhpStrings.TrimLeftIdempotent | src/Service/DependencyService.php:246-248 | trimming twice removes nothing more |
| PhpStrings.StrPos | src/Service/DependencyService.php:95 | the first occurrence of the needle, or false exactly when it occurs nowhere |
| PhpStrings.Lower | src/Twig/EnvironmentExtension.php:53 | every letter is lower-cased and the length is kept |
| PhpStrings.LowerIdempotent | src/Twig/EnvironmentExtension.php:53 | lower-casing twice changes nothing more |
| PhpArray.ArrayMergeStrKey | src/Service/DependencyService.php:245 | `array_merge`: a string key takes the second array's value when it has the key, the first array's otherwise |
| PhpArray.Unset | src/Service/DependencyService.php:250 | `unset`: the key is gone and every other key keeps its value |
| PhpArray.AssignWhereIsFilter | src/Service/DependencyService.php:112-114 | assigning the kept entries into an empty array under their own keys keeps them in order |

## Left out

- File system access: the log directory is a parameter holding its
  listing, each file's name, size, modification time and lines. Opening
  and reading the files is not modelled.
- The clock: the window start ("now minus one day") is an integer
  parameter.
- Date parsing: `DateTime::createFromFormat` is a parameter from the
  date text to an optional timestamp. An unparsable date compares as
  older than any window and stops the count.
- `formatBytes` (LogService.php:209-222) and the file-size column, because
  they use floating point.
- The cache pool's lifetime. An expired entry is modelled as an absent
  key. The cache key is a parameter, because `SystemInformationBundle::CACHE_KEY`
  is not defined in `src/SystemInformationBundle.php`. Reading it raises
  an `Error`; what that does is said below, on the lines for
  LogService.GetErrorCount and for Information.GetSystemInformation.
- `checkForUpdates` and `getComposerFileContent`
  (DependencyService.php:172-189, 215-234): they run the composer process
  and decode JSON files. Their results are inputs.
- `getDependencyInformation` and its cache, which only chain the modelled
  operations. As written it raises an `Error` at
  src/Service/DependencyService.php:53 (the undefined cache key).
- Translated labels, icons, routes and descriptions of the teasers. The
  other services' results that `getSystemInformation` reads are inputs.
- Running the health checks: the monitor report is an input.
- Unicode: strings are single-byte and lower-casing is ASCII only.
- Numeric strings: only runs of decimal digits are taken as numbers by
  loose `==` and by array-key conversion.
- Integer width: PHP's integers are 64-bit, and the model's are
  unbounded. The width is modelled where a request can reach it: the page
  offset of `LogService.FilterLogEntryList`, and the digit strings
  `PhpStrings.IntegerKey` reads as keys. Elsewhere it is not. Loose `==`
  (`PhpStrings.LooseEq`) compares digit strings past 64 bits by their
  exact values, where PHP falls back to comparing two such strings byte
  by byte, so the two can differ on leading zeros. Integers in decoded
  JSON are unbounded, where PHP decodes larger ones as floats. Counts and
  sums of records stay far below 2^63.
- Floats in decoded JSON values.
- The log-file removal, the database, mail, bundle and other services of
  the bundle. They are not part of this model.
- LogService.GetErrorCount: does not model the cache entry's expiry.
  An expired entry behaves as an absent key. It also models the intended
  behaviour, not the code as written: `src/SystemInformationBundle.php`
  defines only `BUNDLE_CONFIG_NAME`, so reading
  `SystemInformationBundle::CACHE_KEY` at src/Service/LogService.php:164
  raises an `Error` on every call, before any count. The model takes the
  cache key as a parameter and returns the count.
- Information.GetSystemInformation: models the intended behaviour. As
  written, `getDependencyInformation` reads the same undefined
  `CACHE_KEY` at src/Service/DependencyService.php:53 and raises an
  `Error`, so `getSystemInformation` never returns: it fails at
  src/Service/InformationService.php:74. The model takes the dependency
  status and the error count as inputs.
- LogService.FindFile: stands in for `file_exists($logDir . '/' . $id)`
  (src/Service/LogService.php:93-96) by looking the id up among the
  names the directory listing holds. The two agree for a plain file name
  in a directory that can be listed. They differ for the empty id (the
  path is then the log directory itself, which exists), for ids holding
  a `/` (a file in a sub-directory, or outside the directory through
  `..`), and for a directory that can be searched but not listed.
- LogService.GetLog: inherits the FindFile gap. For the empty id, an id
  holding a `/`, or a directory that can be searched but not listed, it
  reports `FileNotFound` where the source goes on to open the path and
  read it: for the empty id it opens the directory itself and reads no
  record, and for the other cases it reads the file at that path.
- LogService.ReadLog: its own contract only bounds the number of records.
  The order and content of the records are stated by
  LogService.ReadLogAppend, LogService.ReadLogSingle and
  LogService.ReadLogMembership.
- LogService.CountLogTypeByPeriod: its own contract only bounds the
  count. What is counted is stated by LogService.CountIsLeadingRun and the
  lemmas after it.
- CheckService.MonitorCheckCount: its own contract only bounds the
  count. CheckService.CountIsFailingRows states what is counted.
- DependencyService.CompareParts: its own contract gives only the range
  and the equal case. DependencyService.CompareVersionParts states the
  full comparison.
- DependencyService.CompareVersions: as above. The full comparison is in
  DependencyService.CompareVersionParts.
- DependencyService.MergeOne: its own contract covers only packages
  without update data. DependencyService.MergeComposerDataSpec states the
  whole merge, and DependencyService.MergeComposerDataKeys says which
  keys the result holds.
- DependencyService.MergeComposerDataKeys: says which keys the merged
  list holds, not in which order; PHP appends each re-keyed package at
  the end.
- Environment.BadgeHtml: its own contract gives only the length.
  Environment.BadgeShowsName states where the name and colour appear.

## Findings

| source | as written | input that shows it | evidently intended | confidence | as-written member | corrected member |
|---|---|---|---|---|---|---|
| src/Twig/HighlightExtension.php:27 | `(int)(mb_strpos($string, $searchWord)) !== false` compares an integer with `false` and always holds; when the word is absent the position becomes 0 | `highlightSearchWord("abc", "z")` gives `<mark>z</mark>bc` | leave the string unchanged when the search word does not occur | not executed | Highlight.HighlightAsWritten (counterexample Highlight.AsWrittenCounterexample) | Highlight.Highlight |
| src/Service/InformationService.php:253 | `getMonitorCheckStatus(array $checks)` receives `getLiipMonitorChecks()`, which returns the `ArrayReporter` object rather than its results array (compare `->getResults()` at src/Service/InformationService.php:73) | any log list whose warning and error counts sum to 0, for example no log files | when the logs count nothing, the status of the monitor results decides | not executed | Information.GetSystemStatusAsWritten (counterexample Information.StatusAsWrittenCounterexample) | Information.GetSystemStatus |

=== FILE: check_service.dfy ===
/** The monitor summary of the bundle (CheckService.php): the worst status
    among the health checks and the number of checks that did not pass.
    Running the checks is left to the monitor library; its results are
    the input here. */
module CheckService {
  import opened Seqs

  /** One row of the monitor report. `status` is what `(int)` makes of the
      row's status; 0 means the check passed and anything above 0 means
      it did not. */
  datatype Check = Check(status: int)

  /** `getMonitorCheckStatus($checks)`: the loop keeps the largest status
      seen, starting from 0. So the result is 0 or one of the statuses, and
      no status is larger. */
  function MonitorCheckStatus(checks: seq<Check>): (r: int)
    ensures r >= 0
    ensures forall i :: 0 <= i < |checks| ==> checks[i].status <= r
    ensures r == 0 || exists i :: 0 <= i < |checks| && checks[i].status == r
  {
    if checks == [] then 0
    else
      var before := MonitorCheckStatus(checks[..|checks| - 1]);
      var last := checks[|checks| - 1].status;
      assert forall i :: 0 <= i < |checks| - 1 ==> checks[..|checks| - 1][i] == checks[i];
      if last > before then last else before
  }

  /** Whether a check did not pass. */
  predicate Failing(c: Check)
  {
    c.status > 0
  }

  /** `getMonitorCheckCount($checks)`: one more for every row whose status
      is above 0, in report order. */
  function MonitorCheckCount(checks: seq<Check>): (n: nat)
    ensures n <= |checks|
  {
    if checks == [] then 0
    else MonitorCheckCount(checks[..|checks| - 1]) + (if Failing(checks[|checks| - 1]) then 1 else 0)
  }

  /** The count is the number of failing rows. */
  lemma {:induction false} CountIsFailingRows(checks: seq<Check>)
    ensures MonitorCheckCount(checks) == |Filter(checks, Failing)|
  {
    if checks != [] {
      var init := checks[..|checks| - 1];
      var last := checks[|checks| - 1];
      CountIsFailingRows(init);
      assert checks == init + [last];
      FilterConcat(init, [last], Failing);
      FilterSingle(last, Failing);
    }
  }

  /** The status is 0 exactly when no check failed, so the badge and the
      count agree. */
  lemma StatusZeroIffNoneFailing(checks: seq<Check>)
    ensures MonitorCheckStatus(checks) == 0 <==> MonitorCheckCount(checks) == 0
  {
    CountIsFailingRows(checks);
    if MonitorCheckStatus(checks) != 0 {
      var i :| 0 <= i < |checks| && checks[i].status == MonitorCheckStatus(checks);
      FilterIn(checks, Failing, checks[i]);
    }
    if MonitorCheckCount(checks) != 0 {
      var f := Filter(checks, Failing)[0];
      FilterIn(checks, Failing, f);
    }
  }

  /** The worst status does not depend on the order of the report. */
  lemma StatusPermutation(a: seq<Check>, b: seq<Check>)
    requires multiset(a) == multiset(b)
    ensures MonitorCheckStatus(a) == MonitorCheckStatus(b)
  {
    var ra, rb := MonitorCheckStatus(a), MonitorCheckStatus(b);
    StatusBound(a, b, ra);
    StatusBound(b, a, rb);
  }

  /** A status of `a` that is 0 or occurs in `a` bounds the status of any
      rearrangement from below. */
  lemma StatusBound(a: seq<Check>, b: seq<Check>, ra: int)
    requires multiset(a) == multiset(b)
    requires ra == MonitorCheckStatus(a)
    ensures ra <= MonitorCheckStatus(b)
  {
    if ra != 0 {
      var i :| 0 <= i < |a| && a[i].status == ra;
      assert a[i] in multiset(b);
      var j :| 0 <= j < |b| && b[j] == a[i];
    }
  }

  /** The count does not depend on the order of the report either. */
  lemma CountPermutation(a: seq<Check>, b: seq<Check>)
    requires multiset(a) == multiset(b)
    ensures MonitorCheckCount(a) == MonitorCheckCount(b)
  {
    CountIsFailingRows(a);
    CountIsFailingRows(b);
    FilterCountPermutation(a, b, Failing);
  }
}

=== FILE: dependency_service.dfy ===
/** The dependency report: installed composer packages compared with their
    latest releases, bucketed by state, filtered for display, and merged with
    the output of `composer show --latest`. Packages are PHP arrays of decoded
    JSON values; the composer process and the JSON files are inputs. */
module DependencyService {
  import opened Wrappers
  import opened Seqs
  import opened PhpArray
  import opened PhpStrings

  // ---------------------------------------------------------------------
  // States
  // ---------------------------------------------------------------------

  const UpToDate := 1
  const PinnedOutOfDate := 2
  const OutOfDate := 3
  /** Declared but never produced by the comparison. */
  const Insecure := 4

  // ---------------------------------------------------------------------
  // Values
  // ---------------------------------------------------------------------

  /** A decoded JSON value as PHP holds it (floats are not modelled). */
  datatype Value = Null | Bool(b: bool) | Int(i: int) | Str(s: string) | Arr(items: seq<Entry<Value>>)

  /** A package: the decoded JSON object of one composer package. */
  type Package = seq<Entry<Value>>

  /** What PHP raises. The file declares `strict_types=1`, so a built-in
      string function given a non-string raises `TypeError`; an array used
      as an array key raises `Illegal offset type`. */
  datatype DependencyError = TypeError | IllegalOffsetType

  /** The key PHP uses when a value indexes an array: `null` is `""`, a
      boolean is 0 or 1, a decimal integer string within 64 bits is that
      integer, and an array cannot be a key. */
  function AsKey(v: Value): (r: Option<Key>)
    ensures r.None? <==> v.Arr?
    ensures v.Int? ==> r == Some(IntKey(v.i))
    ensures v.Str? && IntegerKey(v.s).None? ==> r == Some(StrKey(v.s))
  {
    match v
    case Null => Some(StrKey(""))
    case Bool(b) => Some(IntKey(if b then 1 else 0))
    case Int(i) => Some(IntKey(i))
    case Str(s) =>
      (match IntegerKey(s)
       case Some(n) => Some(IntKey(n))
       case None => Some(StrKey(s)))
    case Arr(_) => None
  }

  /** `$package[name]`, where a missing field reads as `null`. */
  function Field(p: Package, name: string): Value
  {
    match Get(p, StrKey(name))
    case Some(v) => v
    case None => Null
  }

  // ---------------------------------------------------------------------
  // compareVersions
  // ---------------------------------------------------------------------

  /** The major and minor parts of two split versions differ: the majors
      differ, or both have a minor and the minors differ. */
  predicate MajorOrMinorDiffers(s: seq<string>, l: seq<string>)
    requires |s| >= 1 && |l| >= 1
  {
    !LooseEq(s[0], l[0]) || (|s| > 1 && |l| > 1 && !LooseEq(s[1], l[1]))
  }

  /** Both split versions have a patch part and the patches differ. */
  predicate PatchDiffers(s: seq<string>, l: seq<string>)
  {
    |s| > 2 && |l| > 2 && !LooseEq(s[2], l[2])
  }

  /** The state two split versions are in. */
  function CompareParts(s: seq<string>, l: seq<string>): (r: int)
    requires |s| >= 1 && |l| >= 1
    ensures r == UpToDate || r == PinnedOutOfDate || r == OutOfDate
    ensures s == l ==> r == UpToDate
  {
    if MajorOrMinorDiffers(s, l) then OutOfDate
    else if PatchDiffers(s, l) then PinnedOutOfDate
    else UpToDate
  }

  /** `compareVersions($stable, $latest, $required)`: splits both versions
      on `.` and compares them part by part with PHP's `!=`. The branch on
      `$required` has an empty body, so it takes any value and ignores it. */
  function CompareVersions(stable: string, latest: string, required: Value): (r: int)
    ensures r == UpToDate || r == PinnedOutOfDate || r == OutOfDate
    ensures stable == latest ==> r == UpToDate
  {
    CompareParts(Explode(stable, '.'), Explode(latest, '.'))
  }

  /** The comparison in terms of version parts: joining parts with `.` and
      comparing gives OUT_OF_DATE exactly when the major or both minors
      differ, PINNED_OUT_OF_DATE exactly when only both patches differ, and
      UP_TO_DATE otherwise. */
  lemma CompareVersionParts(s: seq<string>, l: seq<string>, required: Value)
    requires s != [] && l != []
    requires forall i :: 0 <= i < |s| ==> '.' !in s[i]
    requires forall i :: 0 <= i < |l| ==> '.' !in l[i]
    ensures var c := CompareVersions(Implode(s, '.'), Implode(l, '.'), required);
            && (c == OutOfDate <==> MajorOrMinorDiffers(s, l))
            && (c == PinnedOutOfDate <==> !MajorOrMinorDiffers(s, l) && PatchDiffers(s, l))
            && (c == UpToDate <==> !MajorOrMinorDiffers(s, l) && !PatchDiffers(s, l))
  {
    ExplodeImplode(s, '.');
    ExplodeImplode(l, '.');
  }

  /** `$required` never changes the outcome. */
  lemma CompareIgnoresRequired(stable: string, latest: string, a: Value, b: Value)
    ensures CompareVersions(stable, latest, a) == CompareVersions(stable, latest, b)
  {
  }

  /** Comparing is symmetric in the two versions. */
  lemma CompareSymmetric(stable: string, latest: string, required: Value)
    ensures CompareVersions(stable, latest, required) == CompareVersions(latest, stable, required)
  {
    PartsSymmetric(Explode(stable, '.'), Explode(latest, '.'));
  }

  lemma PartsSymmetric(s: seq<string>, l: seq<string>)
    requires |s| >= 1 && |l| >= 1
    ensures CompareParts(s, l) == CompareParts(l, s)
  {
    assert MajorOrMinorDiffers(s, l) == MajorOrMinorDiffers(l, s) by {
      LooseEqIsEquivalence(s[0], l[0], s[0]);
      if |s| > 1 && |l| > 1 {
        LooseEqIsEquivalence(s[1], l[1], s[1]);
      }
    }
    assert PatchDiffers(s, l) == PatchDiffers(l, s) by {
      if |s| > 2 && |l| > 2 {
        LooseEqIsEquivalence(s[2], l[2], s[2]);
      }
    }
  }

  // ---------------------------------------------------------------------
  // getDependencyApplicationStatus
  // ---------------------------------------------------------------------

  /** Buckets of packages keyed by state, plus the `required` bucket. */
  type Distribution = seq<Entry<seq<Package>>>

  datatype ApplicationStatus = ApplicationStatus(status: int, distribution: Distribution)

  const RequiredBucket := StrKey("required")

  /** The five empty buckets the distribution starts with. */
  const InitialDistribution: Distribution :=
    [Entry(IntKey(UpToDate), []), Entry(IntKey(PinnedOutOfDate), []), Entry(IntKey(OutOfDate), []),
     Entry(IntKey(Insecure), []), Entry(RequiredBucket, [])]

  /** The bucket under `k`, empty when there is none. */
  function Bucket(d: Distribution, k: Key): seq<Package>
  {
    match Get(d, k)
    case Some(b) => b
    case None => []
  }

  /** `$d[k][] = p`: appends to the bucket, creating it when missing. */
  function AppendTo(d: Distribution, k: Key, p: Package): (r: Distribution)
    ensures Bucket(r, k) == Bucket(d, k) + [p]
    ensures forall k' :: k' != k ==> Get(r, k') == Get(d, k')
  {
    SetGet(d, k, Bucket(d, k) + [p]);
    Set(d, k, Bucket(d, k) + [p])
  }

  /** The package has a `status` field. */
  predicate HasStatus(p: Package)
  {
    HasKey(p, StrKey("status"))
  }

  /** The package's `status` is an array, which cannot be a key. */
  predicate BadStatus(p: Package)
  {
    HasStatus(p) && Field(p, "status").Arr?
  }

  /** The package has a `status` that selects bucket `k`. */
  function InBucket(k: Key): Package -> bool
  {
    (p: Package) => HasStatus(p) && AsKey(Field(p, "status")) == Some(k)
  }

  /** The package has a `status` and a `requiredVersion`. */
  predicate IsRequired(p: Package)
  {
    HasStatus(p) && HasKey(p, StrKey("requiredVersion"))
  }

  /** One pass of the loop body: a package with a `status` goes to the
      bucket that status names and, when it has a `requiredVersion`, to the
      `required` bucket as well; a package without one is skipped. */
  function Place(d: Distribution, p: Package): (r: Result<Distribution, DependencyError>)
    ensures r.Success? <==> !BadStatus(p)
  {
    if !HasStatus(p) then Success(d)
    else
      match AsKey(Field(p, "status"))
      case None => Failure(IllegalOffsetType)
      case Some(k) =>
        var d1 := AppendTo(d, k, p);
        Success(if HasKey(p, StrKey("requiredVersion")) then AppendTo(d1, RequiredBucket, p) else d1)
  }

  /** Placing a package grows the bucket its status names by that package
      and leaves every other state bucket as it was. */
  lemma PlaceBucket(d: Distribution, p: Package, k: Key)
    requires Place(d, p).Success?
    requires k != RequiredBucket
    ensures Bucket(Place(d, p).value, k) == Bucket(d, k) + (if InBucket(k)(p) then [p] else [])
  {
  }

  /** Placing a package grows the `required` bucket by that package when
      it has a `status` and a `requiredVersion`. */
  lemma PlaceRequired(d: Distribution, p: Package)
    requires Place(d, p).Success?
    requires !InBucket(RequiredBucket)(p)
    ensures Bucket(Place(d, p).value, RequiredBucket) == Bucket(d, RequiredBucket) + (if IsRequired(p) then [p] else [])
  {
  }

  /** The loop that fills the buckets, one package at a time in input
      order, starting from the five empty buckets. */
  function Distribute(pkgs: seq<Package>): (r: Result<Distribution, DependencyError>)
    ensures r.Success? <==> forall i :: 0 <= i < |pkgs| ==> !BadStatus(pkgs[i])
  {
    if pkgs == [] then Success(InitialDistribution)
    else
      var init := pkgs[..|pkgs| - 1];
      assert forall i :: 0 <= i < |init| ==> init[i] == pkgs[i];
      match Distribute(init)
      case Failure(e) => Failure(e)
      case Success(d) => Place(d, pkgs[|pkgs| - 1])
  }

  /** The overall state from the bucket sizes: INSECURE over OUT_OF_DATE over
      PINNED_OUT_OF_DATE over UP_TO_DATE. */
  function Precedence(d: Distribution): (r: int)
    ensures r == Insecure <==> Bucket(d, IntKey(Insecure)) != []
    ensures r == OutOfDate <==> Bucket(d, IntKey(Insecure)) == [] && Bucket(d, IntKey(OutOfDate)) != []
    ensures r == PinnedOutOfDate <==> Bucket(d, IntKey(Insecure)) == [] && Bucket(d, IntKey(OutOfDate)) == []
                                       && Bucket(d, IntKey(PinnedOutOfDate)) != []
    ensures r == UpToDate <==> Bucket(d, IntKey(Insecure)) == [] && Bucket(d, IntKey(OutOfDate)) == []
                                && Bucket(d, IntKey(PinnedOutOfDate)) == []
  {
    var status := UpToDate;
    var status := if |Bucket(d, IntKey(PinnedOutOfDate))| > 0 then PinnedOutOfDate else status;
    var status := if |Bucket(d, IntKey(OutOfDate))| > 0 then OutOfDate else status;
    if |Bucket(d, IntKey(Insecure))| > 0 then Insecure else status
  }

  /** `getDependencyApplicationStatus($dependencies)`. */
  function GetDependencyApplicationStatus(deps: seq<Entry<Package>>): (r: Result<ApplicationStatus, DependencyError>)
    ensures r.Success? <==> forall i :: 0 <= i < |deps| ==> !BadStatus(deps[i].value)
  {
    var pkgs := Values(deps);
    match Distribute(pkgs)
    case Failure(e) => Failure(e)
    case Success(d) => Success(ApplicationStatus(Precedence(d), d))
  }

  /** Each state bucket holds exactly the packages whose `status` names it,
      in input order; packages without a `status` are in no bucket. */
  lemma {:induction false} BucketContents(pkgs: seq<Package>, k: Key)
    requires Distribute(pkgs).Success?
    requires k != RequiredBucket
    ensures Bucket(Distribute(pkgs).value, k) == Filter(pkgs, InBucket(k))
  {
    if pkgs != [] {
      var init := pkgs[..|pkgs| - 1];
      var p := pkgs[|pkgs| - 1];
      assert pkgs == init + [p];
      BucketContents(init, k);
      PlaceBucket(Distribute(init).value, p, k);
      FilterConcat(init, [p], InBucket(k));
      FilterSingle(p, InBucket(k));
    }
  }

  /** The `required` bucket holds the packages with a `status` and a
      `requiredVersion`, in input order, provided no `status` is itself the
      string `"required"` (which would put a package in that bucket twice). */
  lemma {:induction false} RequiredBucketContents(pkgs: seq<Package>)
    requires Distribute(pkgs).Success?
    requires forall i :: 0 <= i < |pkgs| ==> !InBucket(RequiredBucket)(pkgs[i])
    ensures Bucket(Distribute(pkgs).value, RequiredBucket) == Filter(pkgs, IsRequired)
  {
    if pkgs != [] {
      var init := pkgs[..|pkgs| - 1];
      var p := pkgs[|pkgs| - 1];
      assert pkgs == init + [p];
      assert forall i :: 0 <= i < |init| ==> init[i] == pkgs[i];
      RequiredBucketContents(init);
      PlaceRequired(Distribute(init).value, p);
      FilterConcat(init, [p], IsRequired);
      FilterSingle(p, IsRequired);
    }
  }

  /** The overall state is the most severe state some package has: INSECURE
      when some status names bucket 4, else OUT_OF_DATE when some names 3,
      else PINNED_OUT_OF_DATE when some names 2, else UP_TO_DATE. */
  lemma StatusIsMostSevere(deps: seq<Entry<Package>>)
    requires GetDependencyApplicationStatus(deps).Success?
    ensures var status := GetDependencyApplicationStatus(deps).value.status;
            var pkgs := Values(deps);
            && (status == Insecure <==> Any(pkgs, InBucket(IntKey(Insecure))))
            && (status == OutOfDate <==> !Any(pkgs, InBucket(IntKey(Insecure))) && Any(pkgs, InBucket(IntKey(OutOfDate))))
            && (status == PinnedOutOfDate <==> !Any(pkgs, InBucket(IntKey(Insecure))) && !Any(pkgs, InBucket(IntKey(OutOfDate)))
                                               && Any(pkgs, InBucket(IntKey(PinnedOutOfDate))))
            && (status == UpToDate <==> !Any(pkgs, InBucket(IntKey(Insecure))) && !Any(pkgs, InBucket(IntKey(OutOfDate)))
                                        && !Any(pkgs, InBucket(IntKey(PinnedOutOfDate))))
  {
    var pkgs := Values(deps);
    forall k | k in [IntKey(PinnedOutOfDate), IntKey(OutOfDate), IntKey(Insecure)]
      ensures Bucket(Distribute(pkgs).value, k) != [] <==> Any(pkgs, InBucket(k))
    {
      BucketContents(pkgs, k);
      FilterNonEmpty(pkgs, InBucket(k));
    }
  }

  /** No dependencies: every bucket is empty and the state is UP_TO_DATE. */
  lemma NoDependenciesUpToDate()
    ensures GetDependencyApplicationStatus([]) == Success(ApplicationStatus(UpToDate, InitialDistribution))
  {
  }

  // ---------------------------------------------------------------------
  // filterDependencies
  // ---------------------------------------------------------------------

  /** The search term takes part: it is given and not empty (`!= ''`). */
  predicate SearchApplies(search: Option<string>)
  {
    search.Some? && !LooseEq(search.value, "")
  }

  /** The name passes the search: the term takes no part, or the name holds
      it (`strpos(...) !== false`). */
  predicate NameMatches(name: Key, search: Option<string>)
  {
    !SearchApplies(search) || (name.StrKey? && StrPos(name.s, search.value).Some?)
  }

  /** The package is not marked `latest-status === 'up-to-date'`. */
  predicate Updatable(p: Package)
  {
    Field(p, "latest-status") != Str("up-to-date")
  }

  /** The condition under which a dependency stays in the filtered list. */
  function Kept(search: Option<string>, onlyUpdatable: bool, onlyRequired: bool): Entry<Package> -> bool
  {
    (e: Entry<Package>) =>
      NameMatches(e.key, search)
      && (onlyUpdatable ==> Updatable(e.value))
      && (onlyRequired ==> HasKey(e.value, StrKey("requiredVersion")))
  }

  /** `filterDependencies($dependencies, $search, $showOnlyUpdatable,
      $showOnlyRequired)`. With no search term and no updatable-only flag
      the input comes back as it is, whatever `$showOnlyRequired` says.
      Otherwise the loop assigns each kept dependency under its own key;
      with `strict_types=1`, `strpos` on an integer key raises `TypeError`,
      which ends the loop whichever element it reaches first. */
  function FilterDependencies(deps: seq<Entry<Package>>, search: Option<string>, onlyUpdatable: bool, onlyRequired: bool)
    : (r: Result<seq<Entry<Package>>, DependencyError>)
    ensures search.None? && !onlyUpdatable ==> r == Success(deps)
    ensures r.Failure? <==> SearchApplies(search) && exists i :: 0 <= i < |deps| && deps[i].key.IntKey?
  {
    if search.None? && !onlyUpdatable then Success(deps)
    else if SearchApplies(search) && exists i :: 0 <= i < |deps| && deps[i].key.IntKey? then Failure(TypeError)
    else Success(AssignWhere(deps, Kept(search, onlyUpdatable, onlyRequired)))
  }

  /** Outside the early return, a dependency is in the result exactly when
      it is in the input, its name holds the search term (if one is given
      and not empty), it is not up to date (if only updatable ones are
      asked for) and it has a `requiredVersion` (if only required ones are
      asked for). Keys and values come through unchanged. */
  lemma FilterKeepsExactly(deps: seq<Entry<Package>>, search: Option<string>, onlyUpdatable: bool, onlyRequired: bool,
                           e: Entry<Package>)
    requires DistinctKeys(deps)
    requires search.Some? || onlyUpdatable
    requires FilterDependencies(deps, search, onlyUpdatable, onlyRequired).Success?
    ensures e in FilterDependencies(deps, search, onlyUpdatable, onlyRequired).value
            <==> && e in deps
                 && (SearchApplies(search) ==> e.key.StrKey? && StrPos(e.key.s, search.value).Some?)
                 && (onlyUpdatable ==> Field(e.value, "latest-status") != Str("up-to-date"))
                 && (onlyRequired ==> HasKey(e.value, StrKey("requiredVersion")))
  {
    AssignWhereIsFilter(deps, Kept(search, onlyUpdatable, onlyRequired));
    FilterIn(deps, Kept(search, onlyUpdatable, onlyRequired), e);
  }

  // ---------------------------------------------------------------------
  // mergeComposerData
  // ---------------------------------------------------------------------

  /** The key `$item['name']` selects, when it can be a key at all. */
  function NameKey(p: Package): Option<Key>
  {
    AsKey(Field(p, "name"))
  }

  /** The update list has an entry for the package's name. */
  predicate Updated(p: Package, update: seq<Entry<Package>>)
  {
    NameKey(p).Some? && HasKey(update, NameKey(p).value)
  }

  /** A value that is a string without a leading `v`. */
  predicate Stripped(v: Value)
  {
    v.Str? && (v.s == [] || v.s[0] != 'v')
  }

  /** `$m[name] = ltrim($m[name], 'v')`. With `strict_types=1` a field
      that is not a string raises `TypeError`; a missing field reads as
      `null` and does too. */
  function StripField(m: Package, name: string): (r: Result<Package, DependencyError>)
    ensures r.Failure? <==> !Field(m, name).Str?
    ensures r.Success? ==> Field(r.value, name) == Str(TrimLeft(Field(m, name).s, 'v'))
    ensures r.Success? ==> Stripped(Field(r.value, name))
    ensures r.Success? ==> forall k :: k != StrKey(name) ==> Get(r.value, k) == Get(m, k)
  {
    var v := Field(m, name);
    if !v.Str? then Failure(TypeError)
    else
      SetGet(m, StrKey(name), Str(TrimLeft(v.s, 'v')));
      Success(Set(m, StrKey(name), Str(TrimLeft(v.s, 'v'))))
  }

  /** `ltrim` of `latest`, when the package has one. */
  function StripLatest(m: Package): (r: Result<Package, DependencyError>)
    ensures r.Failure? <==> HasKey(m, StrKey("latest")) && !Field(m, "latest").Str?
    ensures r.Success? ==> (HasKey(r.value, StrKey("latest")) <==> HasKey(m, StrKey("latest")))
    ensures r.Success? && HasKey(m, StrKey("latest")) ==> Stripped(Field(r.value, "latest"))
    ensures r.Success? ==> forall k :: k != StrKey("latest") ==> Get(r.value, k) == Get(m, k)
  {
    if !HasKey(m, StrKey("latest")) then Success(m)
    else
      var r := StripField(m, "latest");
      assert r.Success? ==> Get(r.value, StrKey("latest")).Some?;
      r
  }

  /** `ltrim` of `version`, then of `latest` when the merged package has
      one. */
  function StripVersions(m: Package): (r: Result<Package, DependencyError>)
    ensures r.Failure? <==> !Field(m, "version").Str? || (HasKey(m, StrKey("latest")) && !Field(m, "latest").Str?)
    ensures r.Success? ==> Stripped(Field(r.value, "version"))
    ensures r.Success? ==> (HasKey(r.value, StrKey("latest")) <==> HasKey(m, StrKey("latest")))
    ensures r.Success? && HasKey(m, StrKey("latest")) ==> Stripped(Field(r.value, "latest"))
    ensures r.Success? ==> forall k :: k != StrKey("version") && k != StrKey("latest") ==> Get(r.value, k) == Get(m, k)
  {
    match StripField(m, "version")
    case Failure(e) => Failure(e)
    case Success(m1) =>
      StripLatestAfterVersion(m, m1);
      StripLatestKeepsVersion(m, m1);
      StripLatest(m1)
  }

  /** The second step of `StripVersions`, after `version` was stripped
      from `m` into `m1`: what happens to `latest`. */
  lemma StripLatestAfterVersion(m: Package, m1: Package)
    requires StripField(m, "version") == Success(m1)
    ensures var r := StripLatest(m1);
            && (r.Failure? <==> HasKey(m, StrKey("latest")) && !Field(m, "latest").Str?)
            && (r.Success? ==> (HasKey(r.value, StrKey("latest")) <==> HasKey(m, StrKey("latest"))))
            && (r.Success? && HasKey(m, StrKey("latest")) ==> Stripped(Field(r.value, "latest")))
  {
    assert Get(m1, StrKey("latest")) == Get(m, StrKey("latest"));
    assert Field(m1, "latest") == Field(m, "latest");
  }

  /** ... and what happens to every other key. */
  lemma StripLatestKeepsVersion(m: Package, m1: Package)
    requires StripField(m, "version") == Success(m1)
    ensures var r := StripLatest(m1);
            && (r.Success? ==> Stripped(Field(r.value, "version")))
            && (r.Success? ==> forall k :: k != StrKey("version") && k != StrKey("latest") ==> Get(r.value, k) == Get(m, k))
  {
    var r := StripLatest(m1);
    if r.Success? {
      assert Get(r.value, StrKey("version")) == Get(m1, StrKey("version"));
    }
  }

  /** The new entry for a package found in the update list: the update's
      fields merged over the package's, then the versions stripped. */
  function MergePackage(item: Package, upd: Package): Result<Package, DependencyError>
  {
    StripVersions(ArrayMerge(item, upd))
  }

  /** One pass of the loop of `mergeComposerData` over entry `e` of the
      original array: a package whose name the update list has is stored
      under its name and removed from under its old key. */
  function MergeOne(acc: seq<Entry<Package>>, e: Entry<Package>, update: seq<Entry<Package>>)
    : (r: Result<seq<Entry<Package>>, DependencyError>)
    ensures r.Success? && !Updated(e.value, update) ==> r.value == acc
  {
    match NameKey(e.value)
    case None => Failure(TypeError)
    case Some(nk) =>
      if !HasKey(update, nk) then Success(acc)
      else
        match MergePackage(e.value, Get(update, nk).value)
        case Failure(err) => Failure(err)
        case Success(m) => Success(Unset(Set(acc, nk, m), e.key))
  }

  /** The loop over the entries `es` of the original array (PHP iterates
      over a copy, so the writes do not disturb it). */
  function MergeFrom(acc: seq<Entry<Package>>, es: seq<Entry<Package>>, update: seq<Entry<Package>>)
    : Result<seq<Entry<Package>>, DependencyError>
    decreases |es|
  {
    if es == [] then Success(acc)
    else
      match MergeOne(acc, es[0], update)
      case Failure(err) => Failure(err)
      case Success(acc') => MergeFrom(acc', es[1..], update)
  }

  /** `mergeComposerData($composerLock, $composerUpdate)`. */
  function MergeComposerData(lock: seq<Entry<Package>>, update: seq<Entry<Package>>)
    : Result<seq<Entry<Package>>, DependencyError>
  {
    MergeFrom(lock, lock, update)
  }

  /** The shape `composer.lock` gives its `packages`: a list (integer keys),
      every name a string that is not an integer, no name twice. */
  predicate PackageList(lock: seq<Entry<Package>>)
  {
    && DistinctKeys(lock)
    && (forall i :: 0 <= i < |lock| ==> lock[i].key.IntKey?)
    && (forall i :: 0 <= i < |lock| ==> NameKey(lock[i].value).Some? && NameKey(lock[i].value).value.StrKey?)
    && (forall i, j :: 0 <= i < j < |lock| ==> NameKey(lock[i].value) != NameKey(lock[j].value))
  }

  /** A package list without its first entry is still one. */
  lemma PackageListTail(es: seq<Entry<Package>>)
    requires PackageList(es) && es != []
    ensures PackageList(es[1..])
  {
    assert forall i :: 0 <= i < |es[1..]| ==> es[1..][i] == es[i + 1];
  }

  /** One pass writes only under the entry's name and old key. */
  lemma MergeOneFrame(acc: seq<Entry<Package>>, e: Entry<Package>, update: seq<Entry<Package>>, k: Key)
    requires MergeOne(acc, e, update).Success?
    requires e.key != k && NameKey(e.value) != Some(k)
    ensures Get(MergeOne(acc, e, update).value, k) == Get(acc, k)
  {
    var nk := NameKey(e.value).value;
    if HasKey(update, nk) {
      SetGet(acc, nk, MergePackage(e.value, Get(update, nk).value).value);
    }
  }

  /** A successful loop is one successful pass followed by the rest of
      the loop. */
  lemma MergeFromStep(acc: seq<Entry<Package>>, es: seq<Entry<Package>>, update: seq<Entry<Package>>)
    requires es != [] && MergeFrom(acc, es, update).Success?
    ensures MergeOne(acc, es[0], update).Success?
    ensures MergeFrom(acc, es, update) == MergeFrom(MergeOne(acc, es[0], update).value, es[1..], update)
  {
  }

  /** One pass over an updated package stores the merged package under its
      name and leaves nothing under its old key. */
  lemma MergeOneUpdated(acc: seq<Entry<Package>>, e: Entry<Package>, update: seq<Entry<Package>>)
    requires MergeOne(acc, e, update).Success?
    requires Updated(e.value, update) && NameKey(e.value).value != e.key
    ensures var r := MergeOne(acc, e, update).value;
            var nk := NameKey(e.value).value;
            && Get(r, e.key) == None
            && Get(r, nk).Some?
            && MergePackage(e.value, Get(update, nk).value) == Success(Get(r, nk).value)
  {
    var nk := NameKey(e.value).value;
    SetGet(acc, nk, MergePackage(e.value, Get(update, nk).value).value);
  }

  /** The loop only writes under the names and old keys of the entries it
      visits; every other key keeps its value. */
  lemma {:induction false} MergeFrame(acc: seq<Entry<Package>>, es: seq<Entry<Package>>, update: seq<Entry<Package>>, k: Key)
    requires MergeFrom(acc, es, update).Success?
    requires forall i :: 0 <= i < |es| ==> es[i].key != k && NameKey(es[i].value) != Some(k)
    ensures Get(MergeFrom(acc, es, update).value, k) == Get(acc, k)
    decreases |es|
  {
    if es != [] {
      MergeOneFrame(acc, es[0], update, k);
      var acc' := MergeOne(acc, es[0], update).value;
      assert forall i :: 0 <= i < |es[1..]| ==> es[1..][i] == es[i + 1];
      MergeFrame(acc', es[1..], update, k);
    }
  }

  /** In a package list, no later entry shares the first entry's key or
      name, and no name is a list key. */
  lemma PackageListFirst(es: seq<Entry<Package>>)
    requires PackageList(es) && es != []
    ensures NameKey(es[0].value).Some? && NameKey(es[0].value).value != es[0].key
    ensures forall j :: 1 <= j < |es| ==>
              && es[j].key != es[0].key && es[j].key != NameKey(es[0].value).value
              && NameKey(es[j].value) != Some(es[0].key) && NameKey(es[j].value) != NameKey(es[0].value)
  {
  }

  /** The first package of the loop, when the update list has it, ends up
      under its name with the merged content, and is gone from its old
      key. */
  lemma MergeFromUpdatedFirst(acc: seq<Entry<Package>>, es: seq<Entry<Package>>, update: seq<Entry<Package>>)
    requires PackageList(es)
    requires MergeFrom(acc, es, update).Success?
    requires es != [] && Updated(es[0].value, update)
    ensures var r := MergeFrom(acc, es, update).value;
            var nk := NameKey(es[0].value).value;
            && Get(r, es[0].key) == None
            && Get(r, nk).Some?
            && MergePackage(es[0].value, Get(update, nk).value) == Success(Get(r, nk).value)
  {
    PackageListFirst(es);
    var e, rest := es[0], es[1..];
    MergeFromStep(acc, es, update);
    var acc' := MergeOne(acc, e, update).value;
    var nk := NameKey(e.value).value;
    MergeOneUpdated(acc, e, update);
    forall j | 0 <= j < |rest|
      ensures rest[j].key != e.key && NameKey(rest[j].value) != Some(e.key)
    {
      assert rest[j] == es[j + 1];
    }
    MergeFrame(acc', rest, update, e.key);
    forall j | 0 <= j < |rest|
      ensures rest[j].key != nk && NameKey(rest[j].value) != Some(nk)
    {
      assert rest[j] == es[j + 1];
    }
    MergeFrame(acc', rest, update, nk);
  }

  /** A visited package that the update list has ends up under its name
      with the merged content, and is gone from its old key. */
  lemma {:induction false} MergeFromUpdated(acc: seq<Entry<Package>>, es: seq<Entry<Package>>, update: seq<Entry<Package>>,
                                            i: nat, e: Entry<Package>)
    requires PackageList(es)
    requires MergeFrom(acc, es, update).Success?
    requires i < |es| && es[i] == e && Updated(e.value, update)
    ensures var r := MergeFrom(acc, es, update).value;
            var nk := NameKey(e.value).value;
            && Get(r, e.key) == None
            && Get(r, nk).Some?
            && MergePackage(e.value, Get(update, nk).value) == Success(Get(r, nk).value)
    decreases |es|
  {
    if i == 0 {
      MergeFromUpdatedFirst(acc, es, update);
    } else {
      MergeFromStep(acc, es, update);
      PackageListTail(es);
      assert es[1..][i - 1] == e;
      MergeFromUpdated(MergeOne(acc, es[0], update).value, es[1..], update, i - 1, e);
    }
  }

  /** A visited package that the update list does not have keeps, under its
      old key, the value that key held before the loop. */
  lemma {:induction false} MergeFromKept(acc: seq<Entry<Package>>, es: seq<Entry<Package>>, update: seq<Entry<Package>>, i: nat)
    requires PackageList(es)
    requires MergeFrom(acc, es, update).Success?
    requires i < |es| && !Updated(es[i].value, update)
    ensures Get(MergeFrom(acc, es, update).value, es[i].key) == Get(acc, es[i].key)
    decreases |es|
  {
    var e := es[0];
    var rest := es[1..];
    var acc' := MergeOne(acc, e, update).value;
    PackageListTail(es);
    assert forall j :: 0 <= j < |rest| ==> rest[j] == es[j + 1];
    if i == 0 {
      MergeFrame(acc', rest, update, e.key);
    } else {
      MergeFromKept(acc', rest, update, i - 1);
      MergeOneFrame(acc, e, update, es[i].key);
    }
  }

  /** `mergeComposerData` on a package list: a package whose name the
      update list has is re-keyed by its name, holds the update's fields
      over its own with `version` and `latest` stripped of leading `v`s, and
      is no longer under its old key; every other package stays under its
      old key with its content unchanged. */
  lemma MergeComposerDataSpec(lock: seq<Entry<Package>>, update: seq<Entry<Package>>, i: nat)
    requires PackageList(lock)
    requires MergeComposerData(lock, update).Success?
    requires i < |lock|
    ensures var r := MergeComposerData(lock, update).value;
            var p := lock[i].value;
            if Updated(p, update) then
              && Get(r, lock[i].key) == None
              && Get(r, NameKey(p).value).Some?
              && MergePackage(p, Get(update, NameKey(p).value).value) == Success(Get(r, NameKey(p).value).value)
            else Get(r, lock[i].key) == Some(p)
  {
    if Updated(lock[i].value, update) {
      MergeFromUpdated(lock, lock, update, i, lock[i]);
    } else {
      MergeFromKept(lock, lock, update, i);
      GetAt(lock, i);
    }
  }

  /** A pass adds no key but the name of the package it re-keys. */
  lemma MergeOneKeys(acc: seq<Entry<Package>>, e: Entry<Package>, update: seq<Entry<Package>>, k: Key)
    requires MergeOne(acc, e, update).Success?
    requires HasKey(MergeOne(acc, e, update).value, k)
    ensures HasKey(acc, k) || (Updated(e.value, update) && NameKey(e.value) == Some(k))
  {
    if Updated(e.value, update) && NameKey(e.value) != Some(k) {
      MergeOneFrame(acc, e, update, k);
    }
  }

  /** The loop adds no key but the names of the packages it re-keys. */
  lemma {:induction false} MergeFromKeys(acc: seq<Entry<Package>>, es: seq<Entry<Package>>, update: seq<Entry<Package>>, k: Key)
    requires MergeFrom(acc, es, update).Success?
    requires HasKey(MergeFrom(acc, es, update).value, k)
    ensures HasKey(acc, k) || exists j :: 0 <= j < |es| && Updated(es[j].value, update) && NameKey(es[j].value) == Some(k)
    decreases |es|
  {
    if es != [] {
      MergeFromStep(acc, es, update);
      var acc' := MergeOne(acc, es[0], update).value;
      MergeFromKeys(acc', es[1..], update, k);
      if HasKey(acc', k) {
        MergeOneKeys(acc, es[0], update, k);
      } else {
        var j :| 0 <= j < |es[1..]| && Updated(es[1..][j].value, update) && NameKey(es[1..][j].value) == Some(k);
        assert es[1..][j] == es[j + 1];
      }
    }
  }

  /** The keys of the merged list are exactly the old keys of the packages
      the update list lacks and the names of those it has. */
  lemma MergeComposerDataKeys(lock: seq<Entry<Package>>, update: seq<Entry<Package>>, k: Key)
    requires PackageList(lock)
    requires MergeComposerData(lock, update).Success?
    ensures HasKey(MergeComposerData(lock, update).value, k) <==>
              exists i :: 0 <= i < |lock| &&
                if Updated(lock[i].value, update) then NameKey(lock[i].value) == Some(k) else lock[i].key == k
  {
    var r := MergeComposerData(lock, update).value;
    if HasKey(r, k) {
      MergeFromKeys(lock, lock, update, k);
      if HasKey(lock, k) && !exists j :: 0 <= j < |lock| && Updated(lock[j].value, update) && NameKey(lock[j].value) == Some(k) {
        var i :| 0 <= i < |lock| && lock[i].key == k;
        MergeComposerDataSpec(lock, update, i);
      }
    }
    if exists i :: 0 <= i < |lock| && if Updated(lock[i].value, update) then NameKey(lock[i].value) == Some(k) else lock[i].key == k {
      var i :| 0 <= i < |lock| && if Updated(lock[i].value, update) then NameKey(lock[i].value) == Some(k) else lock[i].key == k;
      MergeComposerDataSpec(lock, update, i);
    }
  }

  /** The merged package: every field other than the versions comes from
      the update when the update has it and from the package otherwise;
      `version` (and `latest`, when either side has it) is the merged string
      without its leading `v`s. */
  lemma MergePackageFields(item: Package, upd: Package, m: Package, name: string)
    requires DistinctKeys(item) && DistinctKeys(upd)
    requires MergePackage(item, upd) == Success(m)
    ensures name != "version" && name != "latest" ==>
              Get(m, StrKey(name)) == if HasKey(upd, StrKey(name)) then Get(upd, StrKey(name)) else Get(item, StrKey(name))
    ensures Stripped(Field(m, "version"))
    ensures HasKey(m, StrKey("latest")) <==> HasKey(upd, StrKey("latest")) || HasKey(item, StrKey("latest"))
    ensures HasKey(m, StrKey("latest")) ==> Stripped(Field(m, "latest"))
  {
    var a := ArrayMerge(item, upd);
    assert StripVersions(a) == Success(m);
    ArrayMergeStrKey(item, upd, name);
    ArrayMergeStrKey(item, upd, "latest");
    assert HasKey(a, StrKey("latest")) <==> HasKey(upd, StrKey("latest")) || HasKey(item, StrKey("latest"));
  }

  // ---------------------------------------------------------------------
  // addAdvancedInformation
  // ---------------------------------------------------------------------

  /** The second half of the loop body of `addAdvancedInformation`: when a
      `latest` is known, store the comparison as `status`. The third
      argument of the comparison is `array_key_exists(...) ?? ...`, which is
      always a boolean. With `strict_types=1`, `explode` on a version that
      is not a string raises `TypeError`. */
  function Assess(p: Package): (r: Result<Package, DependencyError>)
    ensures r.Failure? <==> HasKey(p, StrKey("latest")) && (!Field(p, "version").Str? || !Field(p, "latest").Str?)
    ensures r.Success? && HasKey(p, StrKey("latest")) ==>
              Field(r.value, "status")
              == Int(CompareVersions(Field(p, "version").s, Field(p, "latest").s, Bool(HasKey(p, StrKey("requiredVersion")))))
    ensures r.Success? ==> (HasStatus(r.value) <==> HasStatus(p) || HasKey(p, StrKey("latest")))
    ensures r.Success? && HasKey(p, StrKey("latest")) ==>
              Field(r.value, "status") in {Int(UpToDate), Int(PinnedOutOfDate), Int(OutOfDate)}
    ensures r.Success? ==> forall k :: k != StrKey("status") ==> Get(r.value, k) == Get(p, k)
    ensures r.Success? && !HasKey(p, StrKey("latest")) ==> r.value == p
  {
    if !HasKey(p, StrKey("latest")) then Success(p)
    else
      var version := Field(p, "version");
      var latest := Field(p, "latest");
      if !version.Str? || !latest.Str? then Failure(TypeError)
      else
        var state := CompareVersions(version.s, latest.s, Bool(HasKey(p, StrKey("requiredVersion"))));
        SetGet(p, StrKey("status"), Int(state));
        Success(Set(p, StrKey("status"), Int(state)))
  }

  /** The loop body of `addAdvancedInformation` for one package: copy the
      constraint from `composer.json`'s `require` when the name is there,
      then assess the package. */
  function AdvancePackage(p: Package, required: seq<Entry<Value>>): (r: Result<Package, DependencyError>)
    ensures r.Failure? <==> NameKey(p).None? || (HasKey(p, StrKey("latest")) && (!Field(p, "version").Str? || !Field(p, "latest").Str?))
    ensures r.Success? && HasKey(p, StrKey("latest")) ==>
              var isRequired := HasKey(p, StrKey("requiredVersion")) || HasKey(required, NameKey(p).value);
              Field(r.value, "status") == Int(CompareVersions(Field(p, "version").s, Field(p, "latest").s, Bool(isRequired)))
    ensures r.Success? ==> forall k :: k != StrKey("status") && k != StrKey("requiredVersion") ==> Get(r.value, k) == Get(p, k)
    ensures r.Success? && HasKey(required, NameKey(p).value) ==>
              Get(r.value, StrKey("requiredVersion")) == Get(required, NameKey(p).value)
    ensures r.Success? ==> (HasStatus(r.value) <==> HasStatus(p) || HasKey(p, StrKey("latest")))
    ensures r.Success? && HasKey(p, StrKey("latest")) ==>
              Field(r.value, "status") in {Int(UpToDate), Int(PinnedOutOfDate), Int(OutOfDate)}
  {
    match NameKey(p)
    case None => Failure(TypeError)
    case Some(nk) =>
      var c := CopyRequirement(p, required, nk);
      assert Get(c, StrKey("latest")) == Get(p, StrKey("latest"));
      assert Get(c, StrKey("version")) == Get(p, StrKey("version"));
      assert Get(c, StrKey("status")) == Get(p, StrKey("status"));
      Assess(c)
  }

  /** `$package['requiredVersion'] = $requiredPackages[name]` when the name
      is required; no other field changes. */
  function CopyRequirement(p: Package, required: seq<Entry<Value>>, nk: Key): (r: Package)
    ensures HasKey(required, nk) ==> Get(r, StrKey("requiredVersion")) == Get(required, nk)
    ensures HasKey(r, StrKey("requiredVersion")) <==> HasKey(p, StrKey("requiredVersion")) || HasKey(required, nk)
    ensures forall k :: k != StrKey("requiredVersion") ==> Get(r, k) == Get(p, k)
  {
    if HasKey(required, nk) then
      var r := Set(p, StrKey("requiredVersion"), Get(required, nk).value);
      SetGet(p, StrKey("requiredVersion"), Get(required, nk).value);
      assert Get(r, StrKey("latest")) == Get(p, StrKey("latest"));
      assert Get(r, StrKey("status")) == Get(p, StrKey("status"));
      r
    else p
  }

  /** `addAdvancedInformation($composerContent)` with the `require` section
      of `composer.json` as a parameter: every package is updated in place,
      keys and order unchanged. */
  function AddAdvancedInformation(content: seq<Entry<Package>>, required: seq<Entry<Value>>)
    : (r: Result<seq<Entry<Package>>, DependencyError>)
    ensures r.Success? ==> |r.value| == |content|
    ensures r.Success? ==> forall i :: 0 <= i < |content| ==>
              r.value[i].key == content[i].key && AdvancePackage(content[i].value, required) == Success(r.value[i].value)
  {
    MapValues(content, (p: Package) => AdvancePackage(p, required))
  }

  /** The state INSECURE is never reached from composer data: packages get
      their `status` only from the comparison, which never answers 4, so
      bucketing them cannot fail and never yields INSECURE. */
  lemma NeverInsecure(content: seq<Entry<Package>>, required: seq<Entry<Value>>)
    requires AddAdvancedInformation(content, required).Success?
    requires forall i :: 0 <= i < |content| ==> !HasStatus(content[i].value)
    ensures GetDependencyApplicationStatus(AddAdvancedInformation(content, required).value).Success?
    ensures GetDependencyApplicationStatus(AddAdvancedInformation(content, required).value).value.status != Insecure
  {
    var deps := AddAdvancedInformation(content, required).value;
    var pkgs := Values(deps);
    forall i | 0 <= i < |deps|
      ensures !BadStatus(deps[i].value) && !InBucket(IntKey(Insecure))(deps[i].value)
    {
      assert AdvancePackage(content[i].value, required) == Success(deps[i].value);
    }
    assert !Any(pkgs, InBucket(IntKey(Insecure)));
    StatusIsMostSevere(deps);
  }
}

=== FILE: environment.dfy ===
/** The environment badge (EnvironmentExtension.php): the page header shows
    the running environment's name in a coloured list item, except in
    production. The environment variables are parameters. */
module Environment {
  import opened Wrappers
  import opened PhpStrings

  const DevNames := ["dev", "development"]
  /** Declared next to the others, but the classification never reads it. */
  const StageNames := ["stage", "staging"]
  const StandbyNames := ["standby"]
  const ProdNames := ["prod", "production"]

  const DefaultColor := "#F39C12"
  const DevColor := "#F75C4C"
  const StandbyColor := "#22A7F0"

  /** The badge: not shown, or shown in a colour. */
  datatype Badge = Hidden | Shown(color: string)

  /** With `strict_types=1`, `mb_strtolower(null)` raises `TypeError` when
      neither variable is set. */
  datatype EnvironmentError = TypeError

  /** `$_ENV['SYMFONY_ENVIRONMENT'] ?? $_ENV['APP_ENV']`. */
  function SelectEnvironment(symfonyEnvironment: Option<string>, appEnvironment: Option<string>): (r: Option<string>)
    ensures symfonyEnvironment.Some? ==> r == symfonyEnvironment
    ensures symfonyEnvironment.None? ==> r == appEnvironment
  {
    if symfonyEnvironment.Some? then symfonyEnvironment else appEnvironment
  }

  /** The classification on the lower-cased name (`in_array`, whose loose
      comparison is plain equality for these non-numeric names): production
      names hide the badge, development and standby names have their own
      colour, everything else has the default one. */
  function Classify(environment: string): (b: Badge)
    ensures b.Hidden? <==> Lower(environment) in ProdNames
    ensures b.Shown? ==> b.color in {DefaultColor, DevColor, StandbyColor}
  {
    var name := Lower(environment);
    if name in ProdNames then Hidden
    else if name in DevNames then Shown(DevColor)
    else if name in StandbyNames then Shown(StandbyColor)
    else Shown(DefaultColor)
  }

  const BadgeHead := "\n            <li class=\"app-environment app-environment-"
  const BadgeStyle := "\" style=\" line-height: 20px;position: relative;display: block;padding: 15px;color: white; background-color:"
  const BadgeTitle := "\" title=\"This is the environment indicator and will not be displayed in production context\">\n                "
  const BadgeTail := "\n            </li>\n            "

  /** The list item, with the name as given (not lower-cased) in the class
      and as the text. */
  function BadgeHtml(environment: string, color: string): (r: string)
    ensures |r| == |BadgeHead| + |BadgeStyle| + |BadgeTitle| + |BadgeTail| + 2 * |environment| + |color|
  {
    BadgeHead + environment + BadgeStyle + color + BadgeTitle + environment + BadgeTail
  }

  /** `getEnvironmentTemplate()`. */
  function GetEnvironmentTemplate(symfonyEnvironment: Option<string>, appEnvironment: Option<string>)
    : (r: Result<string, EnvironmentError>)
    ensures r.Failure? <==> symfonyEnvironment.None? && appEnvironment.None?
    ensures r.Success? ==> (r.value == [] <==> Classify(SelectEnvironment(symfonyEnvironment, appEnvironment).value).Hidden?)
  {
    match SelectEnvironment(symfonyEnvironment, appEnvironment)
    case None => Failure(TypeError)
    case Some(environment) =>
      match Classify(environment)
      case Hidden => Success([])
      case Shown(color) => Success(BadgeHtml(environment, color))
  }

  /** The classification ignores letter case. */
  lemma ClassifyIgnoresCase(a: string, b: string)
    requires Lower(a) == Lower(b)
    ensures Classify(a) == Classify(b)
  {
  }

  /** Each colour is reached exactly by its names, in any letter case; the
      stage names are not consulted and get the default colour. */
  lemma ClassifyColors(environment: string)
    ensures Classify(environment) == Shown(DevColor) <==> Lower(environment) in DevNames
    ensures Classify(environment) == Shown(StandbyColor) <==> Lower(environment) in StandbyNames
    ensures Classify(environment) == Shown(DefaultColor)
            <==> Lower(environment) !in ProdNames + DevNames + StandbyNames
  {
  }

  /** Concrete cases: "Prod" hides the badge, "Stage" gets the default
      colour, "Dev" the development colour. */
  lemma ClassifyExamples()
    ensures Classify("Prod") == Hidden
    ensures Classify("Stage") == Shown(DefaultColor)
    ensures Classify("Dev") == Shown(DevColor)
  {
    LowerIs("Prod", "prod");
    LowerIs("Stage", "stage");
    LowerIs("Dev", "dev");
  }

  /** `t` is the lower-cased `s` when it agrees with it character by
      character. */
  lemma LowerIs(s: string, t: string)
    requires |s| == |t| && forall i :: 0 <= i < |s| ==> LowerChar(s[i]) == t[i]
    ensures Lower(s) == t
  {
  }

  /** The middle piece of a three-piece string. */
  lemma Middle(a: string, b: string, c: string)
    ensures (a + b + c)[|a|..|a| + |b|] == b
  {
  }

  /** The name, colour and name slots of a string joined like the badge. */
  lemma {:induction false} BadgeSlots(head: string, env: string, style: string, color: string, title: string, tail: string)
    ensures var r := head + env + style + color + title + env + tail;
            var i := |head|;
            var j := i + |env| + |style|;
            var k := j + |color| + |title|;
            && r[i..i + |env|] == env
            && r[j..j + |color|] == color
            && r[k..k + |env|] == env
  {
    var r := head + env + style + color + title + env + tail;
    var head2 := head + env + style;
    var head3 := head2 + color + title;
    assert r == head + env + (style + color + title + env + tail);
    Middle(head, env, style + color + title + env + tail);
    assert r == head2 + color + (title + env + tail);
    Middle(head2, color, title + env + tail);
    assert r == head3 + env + tail;
    Middle(head3, env, tail);
  }

  /** A shown badge carries the environment's name exactly as given, once
      in the class attribute and once as the text, and its colour between
      them. */
  lemma BadgeShowsName(environment: string, color: string)
    ensures var r := BadgeHtml(environment, color);
            var i := |BadgeHead|;
            var j := i + |environment| + |BadgeStyle|;
            var k := j + |color| + |BadgeTitle|;
            && r[i..i + |environment|] == environment
            && r[j..j + |color|] == color
            && r[k..k + |environment|] == environment
  {
    BadgeSlots(BadgeHead, environment, BadgeStyle, color, BadgeTitle, BadgeTail);
  }
}

=== FILE: highlight.dfy ===
/** The `highlight` Twig filter (HighlightExtension.php): wraps the first
    occurrence of the search word in `<mark>` tags. Strings are single-byte,
    so `mb_strpos`/`mb_strlen` agree with `substr`'s byte positions. */
module Highlight {
  import opened Wrappers
  import opened PhpStrings

  const OpenTag := "<mark>"
  const CloseTag := "</mark>"

  /** The search word takes part: `$searchWord != null` is false for `null`
      and for `""` only (`"0"` is not loosely equal to `null`). */
  predicate Searching(w: Option<string>)
  {
    w.Some? && w.value != []
  }

  /** The three pieces the filter joins: the text before position `p`, the
      marked word, and the text from `p + |w|` on (`substr` past the end is
      empty). */
  function MarkAt(s: string, w: string, p: nat): (r: string)
    requires p <= |s|
    ensures |r| >= p + |OpenTag| + |w| + |CloseTag|
    ensures r[..p] == s[..p]
    ensures p + |w| <= |s| ==> |r| == |s| + |OpenTag| + |CloseTag|
  {
    var rest := if p + |w| <= |s| then s[p + |w|..] else [];
    s[..p] + OpenTag + w + CloseTag + rest
  }

  /** `highlightSearchWord($string, $searchWord)` as written. The test
      `(int)(mb_strpos(...)) !== false` compares an integer with `false`
      and so always holds; when the word is absent, `(int)false` is 0 and
      the word is spliced in at the front in place of the first `|w|`
      characters. */
  function HighlightAsWritten(s: string, w: Option<string>): (r: string)
    ensures !Searching(w) ==> r == s
    ensures Searching(w) ==> |r| >= |OpenTag| + |w.value| + |CloseTag|
  {
    if !Searching(w) then s
    else
      var p := match StrPos(s, w.value) case Some(i) => i case None => 0;
      MarkAt(s, w.value, p)
  }

  /** The filter as evidently intended: the word is marked only where it
      occurs; a string without it comes back unchanged. */
  function Highlight(s: string, w: Option<string>): (r: string)
    ensures !Searching(w) ==> r == s
    ensures Searching(w) && !Contains(s, w.value) ==> r == s
    ensures Searching(w) && Contains(s, w.value) ==> |r| == |s| + |OpenTag| + |CloseTag|
  {
    StrPosContains(s, if w.Some? then w.value else []);
    if !Searching(w) then s
    else
      match StrPos(s, w.value)
      case None => s
      case Some(p) => MarkAt(s, w.value, p)
  }

  /** Where the word first occurs at `p`, the result is the text before
      `p`, the marked word, and the text after the occurrence. */
  lemma HighlightSplices(s: string, w: string, p: nat)
    requires w != []
    requires StrPos(s, w) == Some(p)
    ensures p + |w| <= |s|
    ensures Highlight(s, Some(w)) == s[..p] + OpenTag + w + CloseTag + s[p + |w|..]
  {
  }

  /** Deleting the two inserted tags gives back the original string. */
  lemma HighlightUntags(s: string, w: string, p: nat)
    requires w != []
    requires StrPos(s, w) == Some(p)
    ensures var r := Highlight(s, Some(w));
            && r[p..p + |OpenTag|] == OpenTag
            && r[p + |OpenTag| + |w|..p + |OpenTag| + |w| + |CloseTag|] == CloseTag
            && r[..p] + r[p + |OpenTag|..p + |OpenTag| + |w|] + r[p + |OpenTag| + |w| + |CloseTag|..] == s
  {
    var r := Highlight(s, Some(w));
    HighlightSplices(s, w, p);
    Pieces(s[..p], OpenTag, w, CloseTag, s[p + |w|..]);
    assert s == s[..p] + w + s[p + |w|..] by {
      assert s[p..p + |w|] == w;
    }
  }

  /** The slices of a string joined from five pieces. */
  lemma Pieces(a: string, b: string, c: string, d: string, e: string)
    ensures var r := a + b + c + d + e;
            var i, j, k, l := |a|, |a| + |b|, |a| + |b| + |c|, |a| + |b| + |c| + |d|;
            && r[..i] == a && r[i..j] == b && r[j..k] == c && r[k..l] == d && r[l..] == e
  {
  }

  /** Only the first occurrence is marked: no occurrence lies wholly before
      the mark, and everything after the closing tag is the original text
      after the occurrence, untouched. */
  lemma HighlightFirstOnly(s: string, w: string, p: nat)
    requires w != []
    requires StrPos(s, w) == Some(p)
    ensures var r := Highlight(s, Some(w));
            && (forall i :: 0 <= i && i + |w| <= p ==> !OccursAt(r, w, i))
            && r[p + |OpenTag| + |w| + |CloseTag|..] == s[p + |w|..]
  {
    var r := Highlight(s, Some(w));
    assert r == s[..p] + OpenTag + w + CloseTag + s[p + |w|..];
    forall i | 0 <= i && i + |w| <= p
      ensures !OccursAt(r, w, i)
    {
      assert r[i..i + |w|] == s[i..i + |w|];
      assert !OccursAt(s, w, i);
    }
  }

  /** Where the word occurs, the filter as written does what was intended. */
  lemma AsWrittenAgreesWhenFound(s: string, w: Option<string>)
    requires !Searching(w) || Contains(s, w.value)
    ensures HighlightAsWritten(s, w) == Highlight(s, w)
  {
    if Searching(w) {
      StrPosContains(s, w.value);
    }
  }

  /** Where the word is absent, the filter as written puts it at the front
      in place of the first `|w|` characters. */
  lemma AsWrittenWhenAbsent(s: string, w: string)
    requires w != [] && !Contains(s, w)
    ensures HighlightAsWritten(s, Some(w)) == OpenTag + w + CloseTag + (if |w| <= |s| then s[|w|..] else [])
  {
    StrPosContains(s, w);
  }

  /** A concrete case: searching "abc" for "z" yields "<mark>z</mark>bc"
      as written, where the intended filter leaves "abc" alone. */
  lemma AsWrittenCounterexample()
    ensures HighlightAsWritten("abc", Some("z")) == "<mark>z</mark>bc"
    ensures Highlight("abc", Some("z")) == "abc"
  {
    assert "abc"[0..1] == "a" && "abc"[1..2] == "b" && "abc"[2..3] == "c";
    assert FindFrom("abc", "z", 0) == None;
  }
}

=== FILE: information.dfy ===
/** The dashboard teasers of the bundle (InformationService.php): which
    items `getSystemInformation` shows, with which count and colour, and the
    overall `getSystemStatus` flag. What the other services report is the
    input; translated labels, icons and routes are left out. */
module Information {
  import opened Wrappers
  import opened Seqs
  import opened PhpArray
  import opened CheckService
  import LogService
  import DependencyService

  /** The `value` of a teaser: a count (shown followed by a translated
      label) or a text passed through as it is. */
  datatype TeaserValue = Count(n: nat) | Text(text: string)

  /** The `class` of a teaser; the version and environment items have none. */
  datatype TeaserClass = NoClass | ColorError | ColorWarning

  datatype Teaser = Teaser(value: TeaserValue, cls: TeaserClass)

  /** What the other services and getters report when the teasers are
      built. `appEnvironment` is `$_ENV['SYMFONY_ENVIRONMENT']` and
      `symfonyEnvironment` is `$_ENV['APP_ENV']`, as the getters read them;
      `None` is an unset variable. */
  datatype Inputs = Inputs(
    checks: seq<Check>,
    errorCount: nat,
    dependency: DependencyService.ApplicationStatus,
    requirements: nat,
    recommendations: nat,
    appVersion: string,
    phpVersion: string,
    symfonyVersion: string,
    appEnvironment: Option<string>,
    symfonyEnvironment: Option<string>,
    os: string)

  /** The number of items. */
  const Items := 10

  /** How many items `array_splice($information, 0, 6)` hands back. */
  const MaxTeasers := 6

  /** The key of item `n`, in the order the method assigns them. */
  function KeyOf(n: nat): Key
    requires n < Items
  {
    if n == 0 then StrKey("checks") else if n == 1 then StrKey("logs") else if n == 2 then StrKey("dependency")
    else if n == 3 then StrKey("requirements") else if n == 4 then StrKey("appVersion") else if n == 5 then StrKey("phpVersion")
    else if n == 6 then StrKey("symfonyVersion") else if n == 7 then StrKey("appEnvironment") else if n == 8 then StrKey("symfonyEnvironment")
    else StrKey("os")
  }

  lemma NamesDistinct()
    ensures forall i, j :: 0 <= i < j < Items ==> KeyOf(i) != KeyOf(j)
  {
  }

  /** The dependency item for pinned or outdated packages: their number, as
      a warning. */
  function DependencyWarning(d: DependencyService.ApplicationStatus): Teaser
  {
    Teaser(Count(|DependencyService.Bucket(d.distribution, IntKey(DependencyService.PinnedOutOfDate))|
                 + |DependencyService.Bucket(d.distribution, IntKey(DependencyService.OutOfDate))|), ColorWarning)
  }

  /** The dependency item for insecure packages: their number, as an error. */
  function DependencyError(d: DependencyService.ApplicationStatus): Teaser
  {
    Teaser(Count(|DependencyService.Bucket(d.distribution, IntKey(DependencyService.Insecure))|), ColorError)
  }

  // ---------------------------------------------------------------------
  // The method as written: one block of assignments per item
  // ---------------------------------------------------------------------

  /** The checks block: an error counting the failed checks, when the
      worst check status is not 0. */
  function ChecksBlock(src: Inputs, a: seq<Entry<Teaser>>): seq<Entry<Teaser>>
  {
    if MonitorCheckStatus(src.checks) != 0 then Set(a, StrKey("checks"), Teaser(Count(MonitorCheckCount(src.checks)), ColorError)) else a
  }

  /** The logs block: an error counting the log warnings and errors, when
      there are any. */
  function LogsBlock(src: Inputs, a: seq<Entry<Teaser>>): seq<Entry<Teaser>>
  {
    if src.errorCount != 0 then Set(a, StrKey("logs"), Teaser(Count(src.errorCount), ColorError)) else a
  }

  /** The two dependency blocks: a warning for a status other than up to
      date and insecure (strict `!==`), then an error for insecure (loose
      `==`, the same on integers). */
  function DependencyBlock(src: Inputs, a: seq<Entry<Teaser>>): seq<Entry<Teaser>>
  {
    var status := src.dependency.status;
    var a := if status != DependencyService.UpToDate && status != DependencyService.Insecure
             then Set(a, StrKey("dependency"), DependencyWarning(src.dependency)) else a;
    if status == DependencyService.Insecure then Set(a, StrKey("dependency"), DependencyError(src.dependency)) else a
  }

  /** The requirements block: when either count is nonzero, an error for
      missing requirements, then a warning for recommendations assigned
      over it. */
  function RequirementsBlock(src: Inputs, a: seq<Entry<Teaser>>): seq<Entry<Teaser>>
  {
    if src.requirements != 0 || src.recommendations != 0 then
      var a := if src.requirements != 0 then Set(a, StrKey("requirements"), Teaser(Count(src.requirements), ColorError)) else a;
      if src.recommendations != 0 then Set(a, StrKey("requirements"), Teaser(Count(src.recommendations), ColorWarning)) else a
    else a
  }

  /** An environment block: the variable's value, when it is truthy. */
  function EnvironmentBlock(a: seq<Entry<Teaser>>, key: Key, value: Option<string>): seq<Entry<Teaser>>
  {
    if LogService.IsTruthy(value) then Set(a, key, Teaser(Text(value.value), NoClass)) else a
  }

  /** The blocks of the method, in order: checks, logs, dependency,
      requirements, the three versions, the two environments, os. */
  function Blocks(src: Inputs): (bs: seq<seq<Entry<Teaser>> -> seq<Entry<Teaser>>>)
    ensures |bs| == Items
  {
    [ a => ChecksBlock(src, a),
      a => LogsBlock(src, a),
      a => DependencyBlock(src, a),
      a => RequirementsBlock(src, a),
      a => Set(a, StrKey("appVersion"), Teaser(Text(src.appVersion), NoClass)),
      a => Set(a, StrKey("phpVersion"), Teaser(Text(src.phpVersion), NoClass)),
      a => Set(a, StrKey("symfonyVersion"), Teaser(Text(src.symfonyVersion), NoClass)),
      a => EnvironmentBlock(a, StrKey("appEnvironment"), src.appEnvironment),
      a => EnvironmentBlock(a, StrKey("symfonyEnvironment"), src.symfonyEnvironment),
      a => Set(a, StrKey("os"), Teaser(Text(src.os), NoClass)) ]
  }

  /** `$information` after the first `n` blocks, starting from `[]`. */
  function Build(src: Inputs, n: nat): seq<Entry<Teaser>>
    requires n <= Items
  {
    if n == 0 then [] else Blocks(src)[n - 1](Build(src, n - 1))
  }

  /** `$information` before it is cut. */
  function Assembled(src: Inputs): seq<Entry<Teaser>>
  {
    Build(src, Items)
  }

  /** `getSystemInformation()`: the first six items in insertion order
      (`array_splice` keeps string keys), or all of them when there are
      fewer. */
  function GetSystemInformation(src: Inputs): (r: seq<Entry<Teaser>>)
    ensures |r| <= MaxTeasers
    ensures r <= Assembled(src)
    ensures |r| < MaxTeasers ==> r == Assembled(src)
  {
    var a := Assembled(src);
    a[..if |a| < MaxTeasers then |a| else MaxTeasers]
  }

  // ---------------------------------------------------------------------
  // The reference layout: one optional piece per item
  // ---------------------------------------------------------------------

  /** The value item `n` ends up with, if any: the later dependency
      assignment and the recommendations overwrite take precedence. */
  function ItemValue(src: Inputs, n: nat): Option<Teaser>
    requires n < Items
  {
    var status := src.dependency.status;
    if n == 0 then (if MonitorCheckStatus(src.checks) != 0 then Some(Teaser(Count(MonitorCheckCount(src.checks)), ColorError)) else None)
    else if n == 1 then (if src.errorCount != 0 then Some(Teaser(Count(src.errorCount), ColorError)) else None)
    else if n == 2 then
      (if status == DependencyService.Insecure then Some(DependencyError(src.dependency))
       else if status != DependencyService.UpToDate then Some(DependencyWarning(src.dependency))
       else None)
    else if n == 3 then
      (if src.recommendations != 0 then Some(Teaser(Count(src.recommendations), ColorWarning))
       else if src.requirements != 0 then Some(Teaser(Count(src.requirements), ColorError))
       else None)
    else if n == 4 then Some(Teaser(Text(src.appVersion), NoClass))
    else if n == 5 then Some(Teaser(Text(src.phpVersion), NoClass))
    else if n == 6 then Some(Teaser(Text(src.symfonyVersion), NoClass))
    else if n == 7 then (if LogService.IsTruthy(src.appEnvironment) then Some(Teaser(Text(src.appEnvironment.value), NoClass)) else None)
    else if n == 8 then (if LogService.IsTruthy(src.symfonyEnvironment) then Some(Teaser(Text(src.symfonyEnvironment.value), NoClass)) else None)
    else Some(Teaser(Text(src.os), NoClass))
  }

  /** What item `n` contributes to the layout: nothing, or one entry under
      its key. */
  function Piece(src: Inputs, n: nat): (r: seq<Entry<Teaser>>)
    requires n < Items
    ensures |r| <= 1
    ensures forall i :: 0 <= i < |r| ==> r[i].key == KeyOf(n)
  {
    match ItemValue(src, n)
    case None => []
    case Some(v) => [Entry(KeyOf(n), v)]
  }

  /** Looking the item's key up in its piece gives the item's value. */
  lemma PieceGet(src: Inputs, n: nat)
    requires n < Items
    ensures Get(Piece(src, n), KeyOf(n)) == ItemValue(src, n)
  {
  }

  /** Item `n`'s piece, for any `n`; empty past the last item. */
  function PieceAt(src: Inputs): nat -> seq<Entry<Teaser>>
  {
    (n: nat) => if n < Items then Piece(src, n) else []
  }

  /** The pieces of items `lo` to `hi - 1`, joined in order. */
  function Pieces(src: Inputs, lo: nat, hi: nat): seq<Entry<Teaser>>
  {
    Join(PieceAt(src), lo, hi)
  }

  /** All the pieces. */
  function Layout(src: Inputs): seq<Entry<Teaser>>
  {
    Pieces(src, 0, Items)
  }

  /** No piece holds another item's key. */
  lemma PieceOtherKey(src: Inputs, m: nat, n: nat)
    requires m != n && n < Items
    ensures !HasKey(PieceAt(src)(m), KeyOf(n))
  {
    NamesDistinct();
    if m < Items && Piece(src, m) != [] {
      assert Piece(src, m)[0].key == KeyOf(m);
    }
  }

  /** The pieces of a range hold no key from outside it. */
  lemma PiecesMissing(src: Inputs, lo: nat, hi: nat, n: nat)
    requires n < Items
    requires n < lo || hi <= n
    ensures !HasKey(Pieces(src, lo, hi), KeyOf(n))
  {
    forall m | lo <= m < hi
      ensures !HasKey(PieceAt(src)(m), KeyOf(n))
    {
      PieceOtherKey(src, m, n);
    }
    JoinMissing(PieceAt(src), lo, hi, KeyOf(n));
  }

  /** At most one entry per item. */
  lemma PiecesLength(src: Inputs, lo: nat, hi: nat)
    requires lo <= hi
    ensures |Pieces(src, lo, hi)| <= hi - lo
  {
    JoinLength(PieceAt(src), lo, hi);
  }

  /** The layout up to item `n`, followed by item `n`'s piece, is the
      layout up to item `n + 1`. */
  lemma Next(src: Inputs, n: nat)
    requires n < Items
    ensures Pieces(src, 0, n) + Piece(src, n) == Pieces(src, 0, n + 1)
  {
    JoinSplit(PieceAt(src), 0, n, n + 1);
    assert Pieces(src, n, n + 1) == Piece(src, n) + Join(PieceAt(src), n + 1, n + 1);
  }

  /** Each block, run where its key is still absent, appends exactly its
      item's piece: a first assignment to a key appends, and the second
      assignment of the requirements block overwrites the entry the first
      one appended. */
  lemma ChecksAppends(src: Inputs, a: seq<Entry<Teaser>>)
    requires !HasKey(a, KeyOf(0))
    ensures Blocks(src)[0](a) == a + Piece(src, 0)
  {
    if MonitorCheckStatus(src.checks) != 0 {
      SetNew(a, KeyOf(0), Teaser(Count(MonitorCheckCount(src.checks)), ColorError));
    }
  }

  lemma LogsAppends(src: Inputs, a: seq<Entry<Teaser>>)
    requires !HasKey(a, KeyOf(1))
    ensures Blocks(src)[1](a) == a + Piece(src, 1)
  {
    if src.errorCount != 0 {
      SetNew(a, KeyOf(1), Teaser(Count(src.errorCount), ColorError));
    }
  }

  lemma DependencyAppends(src: Inputs, a: seq<Entry<Teaser>>)
    requires !HasKey(a, KeyOf(2))
    ensures Blocks(src)[2](a) == a + Piece(src, 2)
  {
    var v := ItemValue(src, 2);
    if v.Some? {
      SetNew(a, KeyOf(2), v.value);
    }
  }

  lemma RequirementsAppends(src: Inputs, a: seq<Entry<Teaser>>)
    requires !HasKey(a, KeyOf(3))
    ensures Blocks(src)[3](a) == a + Piece(src, 3)
  {
    var k := KeyOf(3);
    var e, w := Teaser(Count(src.requirements), ColorError), Teaser(Count(src.recommendations), ColorWarning);
    if src.requirements != 0 {
      SetNew(a, k, e);
      if src.recommendations != 0 {
        SetLast(a, k, e, w);
      }
    } else if src.recommendations != 0 {
      SetNew(a, k, w);
    }
  }

  /** An unconditional assignment appends item `n`. */
  lemma AssignAppends(src: Inputs, a: seq<Entry<Teaser>>, n: nat)
    requires 4 <= n < Items && n != 7 && n != 8
    requires !HasKey(a, KeyOf(n))
    ensures Blocks(src)[n](a) == a + Piece(src, n)
  {
    SetNew(a, KeyOf(n), ItemValue(src, n).value);
  }

  lemma EnvironmentAppends(src: Inputs, a: seq<Entry<Teaser>>, n: nat)
    requires n == 7 || n == 8
    requires !HasKey(a, KeyOf(n))
    ensures Blocks(src)[n](a) == a + Piece(src, n)
  {
    var v := ItemValue(src, n);
    if v.Some? {
      SetNew(a, KeyOf(n), v.value);
    }
  }

  /** Block `n` run on the layout of the items before it gives the layout
      up to item `n + 1`. */
  lemma StepAppends(src: Inputs, n: nat)
    requires n < Items
    ensures Blocks(src)[n](Pieces(src, 0, n)) == Pieces(src, 0, n + 1)
  {
    if n < 4 {
      ConditionalStep(src, n);
    } else {
      AssignStep(src, n);
    }
  }

  /** `StepAppends` for the four conditional blocks. */
  lemma ConditionalStep(src: Inputs, n: nat)
    requires n < 4
    ensures Blocks(src)[n](Pieces(src, 0, n)) == Pieces(src, 0, n + 1)
  {
    var a := Pieces(src, 0, n);
    PiecesMissing(src, 0, n, n);
    Next(src, n);
    if n == 0 {
      ChecksAppends(src, a);
    } else if n == 1 {
      LogsAppends(src, a);
    } else if n == 2 {
      DependencyAppends(src, a);
    } else {
      RequirementsAppends(src, a);
    }
  }

  /** `StepAppends` for the version, environment and os blocks. */
  lemma AssignStep(src: Inputs, n: nat)
    requires 4 <= n < Items
    ensures Blocks(src)[n](Pieces(src, 0, n)) == Pieces(src, 0, n + 1)
  {
    var a := Pieces(src, 0, n);
    PiecesMissing(src, 0, n, n);
    Next(src, n);
    if n == 7 || n == 8 {
      EnvironmentAppends(src, a, n);
    } else {
      AssignAppends(src, a, n);
    }
  }

  /** The blocks build the reference layout. */
  lemma {:induction false} BuildIsPieces(src: Inputs, n: nat)
    requires n <= Items
    ensures Build(src, n) == Pieces(src, 0, n)
  {
    if n > 0 {
      BuildIsPieces(src, n - 1);
      StepAppends(src, n - 1);
    }
  }

  /** `$information` before the cut is the layout: every item whose
      condition holds, once, in the fixed order checks, logs, dependency,
      requirements, appVersion, phpVersion, symfonyVersion, appEnvironment,
      symfonyEnvironment, os. */
  lemma AssembledIsLayout(src: Inputs)
    ensures Assembled(src) == Layout(src)
  {
    BuildIsPieces(src, Items);
  }

  // ---------------------------------------------------------------------
  // What survives the cut
  // ---------------------------------------------------------------------

  /** A prefix has no key the whole array lacks. */
  lemma PrefixMissing<V>(a: seq<Entry<V>>, m: nat, k: Key)
    requires m <= |a| && !HasKey(a, k)
    ensures !HasKey(a[..m], k)
  {
    forall i | 0 <= i < m
      ensures a[..m][i].key != k
    {
      assert a[..m][i] == a[i];
    }
  }

  /** A prefix of `A + P + B` that reaches past `P` finds under `k` what
      `P` holds, when neither `A` nor `B` has `k`. */
  lemma PrefixPastMiddle<V>(A: seq<Entry<V>>, P: seq<Entry<V>>, B: seq<Entry<V>>, k: Key, m: nat)
    requires !HasKey(A, k) && !HasKey(B, k)
    requires |A| + |P| <= m <= |A| + |P| + |B|
    ensures Get((A + P + B)[..m], k) == Get(P, k)
  {
    var B' := B[..m - |A| - |P|];
    assert (A + P + B)[..m] == A + (P + B');
    GetConcat(A, P + B', k);
    PrefixMissing(B, m - |A| - |P|, k);
    GetConcat(P, B', k);
  }

  /** Cutting `A + P + B` after six entries keeps what `P` holds under a
      key of its own exactly when `A` is shorter than six. */
  lemma CutGet<V>(A: seq<Entry<V>>, P: seq<Entry<V>>, B: seq<Entry<V>>, k: Key)
    requires !HasKey(A, k) && !HasKey(B, k)
    requires |P| <= 1
    ensures var L := A + P + B;
            Get(L[..if |L| < MaxTeasers then |L| else MaxTeasers], k)
            == if |A| < MaxTeasers then Get(P, k) else None
  {
    var L := A + P + B;
    var m := if |L| < MaxTeasers then |L| else MaxTeasers;
    if |A| < MaxTeasers {
      PrefixPastMiddle(A, P, B, k, m);
    } else {
      assert L[..m] == A[..m];
      PrefixMissing(A, m, k);
    }
  }

  /** Item `n` is in the result exactly when its condition holds and fewer
      than six items come before it; it then has the value its block
      assigned last. */
  lemma Survives(src: Inputs, n: nat)
    requires n < Items
    ensures Get(GetSystemInformation(src), KeyOf(n))
            == if |Pieces(src, 0, n)| < MaxTeasers then ItemValue(src, n) else None
  {
    var A, P, B := Pieces(src, 0, n), Piece(src, n), Pieces(src, n + 1, Items);
    AssembledIsLayout(src);
    JoinAround(PieceAt(src), 0, n, Items);
    PiecesMissing(src, 0, n, n);
    PiecesMissing(src, n + 1, Items, n);
    CutGet(A, P, B, KeyOf(n));
    PieceGet(src, n);
  }

  /** An item among the first six is never cut. */
  lemma EarlyItem(src: Inputs, n: nat)
    requires n < MaxTeasers
    ensures Get(GetSystemInformation(src), KeyOf(n)) == ItemValue(src, n)
  {
    Survives(src, n);
    PiecesLength(src, 0, n);
  }

  /** The checks item is shown exactly when a check failed, with the number
      of failed checks, as an error. */
  lemma ChecksTeaser(src: Inputs)
    ensures Get(GetSystemInformation(src), StrKey("checks"))
            == if MonitorCheckCount(src.checks) != 0 then Some(Teaser(Count(MonitorCheckCount(src.checks)), ColorError)) else None
  {
    EarlyItem(src, 0);
    StatusZeroIffNoneFailing(src.checks);
  }

  /** The logs item is shown exactly when the error count is not 0. */
  lemma LogsTeaser(src: Inputs)
    ensures Get(GetSystemInformation(src), StrKey("logs"))
            == if src.errorCount != 0 then Some(Teaser(Count(src.errorCount), ColorError)) else None
  {
    EarlyItem(src, 1);
  }

  /** The dependency item: absent when everything is up to date; for
      insecure packages an error counting them; otherwise a warning
      counting the pinned and the outdated packages. */
  lemma DependencyTeaser(src: Inputs)
    ensures var status := src.dependency.status;
            Get(GetSystemInformation(src), StrKey("dependency"))
            == if status == DependencyService.UpToDate then None
               else if status == DependencyService.Insecure then Some(DependencyError(src.dependency))
               else Some(DependencyWarning(src.dependency))
  {
    EarlyItem(src, 2);
  }

  /** The requirements item: a nonzero recommendations count wins, as a
      warning; an error appears only for missing requirements without
      recommendations. */
  lemma RequirementsTeaser(src: Inputs)
    ensures Get(GetSystemInformation(src), StrKey("requirements"))
            == if src.recommendations != 0 then Some(Teaser(Count(src.recommendations), ColorWarning))
               else if src.requirements != 0 then Some(Teaser(Count(src.requirements), ColorError))
               else None
  {
    EarlyItem(src, 3);
  }

  /** The application and PHP versions are always shown. */
  lemma VersionsShown(src: Inputs)
    ensures Get(GetSystemInformation(src), StrKey("appVersion")) == Some(Teaser(Text(src.appVersion), NoClass))
    ensures Get(GetSystemInformation(src), StrKey("phpVersion")) == Some(Teaser(Text(src.phpVersion), NoClass))
  {
    EarlyItem(src, 4);
    EarlyItem(src, 5);
  }

  /** The operating system, inserted last, is shown exactly when nothing
      was cut. */
  lemma OsShownIffNothingCut(src: Inputs)
    ensures HasKey(GetSystemInformation(src), StrKey("os")) <==> |Assembled(src)| <= MaxTeasers
  {
    var r := GetSystemInformation(src);
    assert KeyOf(9) == StrKey("os");
    assert ItemValue(src, 9).Some?;
    Survives(src, 9);
    assert HasKey(r, StrKey("os")) <==> |Pieces(src, 0, 9)| < MaxTeasers;
    AssembledIsLayout(src);
    Next(src, 9);
    assert |Piece(src, 9)| == 1;
  }

  /** An environment item is shown exactly when its variable is set to a
      truthy value and fewer than six items precede it. */
  lemma EnvironmentTeasers(src: Inputs)
    ensures Get(GetSystemInformation(src), StrKey("appEnvironment"))
            == if LogService.IsTruthy(src.appEnvironment) && |Pieces(src, 0, 7)| < MaxTeasers
               then Some(Teaser(Text(src.appEnvironment.value), NoClass)) else None
    ensures Get(GetSystemInformation(src), StrKey("symfonyEnvironment"))
            == if LogService.IsTruthy(src.symfonyEnvironment) && |Pieces(src, 0, 8)| < MaxTeasers
               then Some(Teaser(Text(src.symfonyEnvironment.value), NoClass)) else None
  {
    Survives(src, 7);
    Survives(src, 8);
  }

  // ---------------------------------------------------------------------
  // getSystemStatus
  // ---------------------------------------------------------------------

  /** `getSystemStatus()`: true when the log files hold warnings or errors
      in the window, or a check failed. */
  function GetSystemStatus(logs: seq<LogService.LogFileSummary>, checks: seq<Check>): (b: bool)
    ensures b <==> (exists i :: 0 <= i < |logs| && logs[i].warningCountByPeriod + logs[i].errorCountByPeriod > 0)
                   || (exists i :: 0 <= i < |checks| && Failing(checks[i]))
  {
    SumZero(logs, (f: LogService.LogFileSummary) => f.warningCountByPeriod + f.errorCountByPeriod);
    LogService.TotalCount(logs) != 0 || MonitorCheckStatus(checks) != 0
  }

  /** How `getSystemStatus()` as written fails: PHP's TypeError. */
  datatype StatusError = ReporterNotArray

  /** `getSystemStatus()` as written. When the logs count nothing, `||`
      evaluates its right side, which hands the monitor reporter object
      itself, not its results, to `getMonitorCheckStatus(array $checks)`;
      PHP refuses an object for an `array` parameter. So the call only
      returns when the logs count something, and then returns true; the
      check results never matter. */
  function GetSystemStatusAsWritten(logs: seq<LogService.LogFileSummary>, checks: seq<Check>): (r: Result<bool, StatusError>)
    ensures r.Success? <==> exists i :: 0 <= i < |logs| && logs[i].warningCountByPeriod + logs[i].errorCountByPeriod > 0
    ensures r.Success? ==> r.value
  {
    SumZero(logs, (f: LogService.LogFileSummary) => f.warningCountByPeriod + f.errorCountByPeriod);
    if LogService.TotalCount(logs) != 0 then Success(true) else Failure(ReporterNotArray)
  }

  /** Where the written status answers it agrees with the intended one and
      it never answers false. The check results never change it, while
      the intended status is decided by them exactly where it fails. */
  lemma StatusAsWrittenDiffers(logs: seq<LogService.LogFileSummary>, checks: seq<Check>)
    ensures GetSystemStatusAsWritten(logs, checks).Success? ==> GetSystemStatusAsWritten(logs, checks).value == GetSystemStatus(logs, checks)
    ensures GetSystemStatusAsWritten(logs, checks) != Success(false)
    ensures GetSystemStatusAsWritten(logs, checks) == GetSystemStatusAsWritten(logs, [])
    ensures GetSystemStatusAsWritten(logs, checks).Failure? ==> GetSystemStatus(logs, checks) == (MonitorCheckStatus(checks) != 0)
  {
  }

  /** A concrete case: no log files and one failing check. The intended
      status is true; as written the call throws. */
  lemma StatusAsWrittenCounterexample()
    ensures GetSystemStatusAsWritten([], [Check(2)]) == Failure(ReporterNotArray)
    ensures GetSystemStatus([], [Check(2)])
  {
    assert Failing([Check(2)][0]);
  }
}

=== FILE: log_line.dfy ===
/** The line reader of the log service: one line of a Monolog-style log
    file is turned into a record with date, channel, level and message
    (LogService.php:110-120), or skipped. The pattern used there is

      [<date>] <channel><any char><level>: <message>

    with `<channel>` and `<level>` runs of word characters and a message
    whose first character is NOT `[` or `{` and whose last character is `]`
    or `}`. The pattern is not anchored, so text may precede the `[` and
    follow the message.

    A line can match in several ways. PCRE reports the first one its
    backtracking search reaches: the leftmost `[`, then the longest date,
    the longest channel, the longest level and the longest message. This
    module computes that match. */
module LogLine {
  import opened Wrappers

  /** `\w` without Unicode mode: ASCII letters, digits and underscore. */
  predicate IsWordChar(c: char)
  {
    ('a' <= c <= 'z') || ('A' <= c <= 'Z') || ('0' <= c <= '9') || c == '_'
  }

  /** A non-empty run of word characters (`\w+`). */
  predicate IsWord(s: string)
  {
    |s| > 0 && forall i :: 0 <= i < |s| ==> IsWordChar(s[i])
  }

  /** Every character is one `.` can match. */
  predicate NoNewline(s: string)
  {
    forall i :: 0 <= i < |s| ==> s[i] != '\n'
  }

  predicate IsOpener(c: char) { c == '[' || c == '{' }

  predicate IsCloser(c: char) { c == ']' || c == '}' }

  /** The pieces of a line the pattern matched: `lead` before the opening
      bracket and `trail` after the message are what the unanchored pattern
      leaves unmatched. */
  datatype LineMatch = LineMatch(
    lead: string,
    date: string,
    channel: string,
    sep: char,
    level: string,
    message: string,
    trail: string)

  /** What follows `"] "` in a matched line. */
  datatype Tail = Tail(channel: string, sep: char, level: string, message: string, trail: string)

  function TailOf(m: LineMatch): Tail
  {
    Tail(m.channel, m.sep, m.level, m.message, m.trail)
  }

  function TailText(t: Tail): string
  {
    t.channel + ([t.sep] + (t.level + (": " + (t.message + t.trail))))
  }

  /** Puts the pieces back together. */
  function Assemble(m: LineMatch): string
  {
    m.lead + ("[" + (m.date + ("] " + TailText(TailOf(m)))))
  }

  /** `[^\[\{].*[\]\}]`: the first character is anything but an opener (a
      negated class matches a newline too), the ones after it are on one
      line, and the last is a closer. */
  predicate IsMessage(s: string)
  {
    |s| >= 2 && !IsOpener(s[0]) && IsCloser(s[|s| - 1]) && NoNewline(s[1..])
  }

  /** The constraints the pattern puts on the pieces after the date. */
  predicate TailShaped(t: Tail)
  {
    IsWord(t.channel) && t.sep != '\n' && IsWord(t.level) && IsMessage(t.message)
  }

  /** The constraints the pattern puts on all captured pieces. */
  predicate WellShaped(m: LineMatch)
  {
    NoNewline(m.date) && TailShaped(TailOf(m))
  }

  /** `m` is one of the ways the pattern matches `l`. */
  predicate Reading(l: string, m: LineMatch)
  {
    WellShaped(m) && Assemble(m) == l
  }

  /** `x` comes before `y` in the order PCRE tries matches after the date:
      longer channel first, then longer level, then longer message. */
  predicate TailBefore(x: Tail, y: Tail)
  {
    || |x.channel| > |y.channel|
    || (|x.channel| == |y.channel| && |x.level| > |y.level|)
    || (|x.channel| == |y.channel| && |x.level| == |y.level| && |x.message| > |y.message|)
  }

  /** `x` comes before `y` in the order PCRE tries matches: an earlier
      opening bracket first, then a longer date, then the rest as above. */
  predicate Before(x: LineMatch, y: LineMatch)
  {
    || |x.lead| < |y.lead|
    || (|x.lead| == |y.lead| && |x.date| > |y.date|)
    || (|x.lead| == |y.lead| && |x.date| == |y.date| && TailBefore(TailOf(x), TailOf(y)))
  }

  /** One parsed line. The date is what the date parser made of the text
      between the brackets: `None` stands for PHP's `false`. */
  datatype LogRecord = LogRecord(date: Option<int>, channel: string, level: string, message: string)

  // ---------------------------------------------------------------------
  // Splitting strings
  // ---------------------------------------------------------------------

  /** Cuts `s` into the part before `c`, the `k` characters from `c` on,
      and the rest. */
  lemma SplitAt(s: string, c: nat, k: nat)
    requires c + k <= |s|
    ensures s == s[..c] + (s[c..c + k] + s[c + k..])
  {
  }

  /** Two ways of cutting one string with equally long fronts agree. */
  lemma PrefixEq(p1: string, r1: string, p2: string, r2: string)
    requires p1 + r1 == p2 + r2 && |p1| == |p2|
    ensures p1 == p2 && r1 == r2
  {
    assert p1 == (p1 + r1)[..|p1|];
    assert p2 == (p2 + r2)[..|p2|];
    assert r1 == (p1 + r1)[|p1|..];
    assert r2 == (p2 + r2)[|p2|..];
  }

  // ---------------------------------------------------------------------
  // The pieces of the pattern, each greedy
  // ---------------------------------------------------------------------

  /** Length of the longest prefix of word characters (greedy `\w+`). */
  function WordRun(s: string): (n: nat)
    ensures n <= |s|
    ensures forall i :: 0 <= i < n ==> IsWordChar(s[i])
    ensures n < |s| ==> !IsWordChar(s[n])
  {
    WordEnd(s, 0)
  }

  /** The end of the run of word characters that starts at `i`. */
  function WordEnd(s: string, i: nat): (n: nat)
    requires i <= |s|
    ensures i <= n <= |s|
    ensures forall k :: i <= k < n ==> IsWordChar(s[k])
    ensures n < |s| ==> !IsWordChar(s[n])
    decreases |s| - i
  {
    if i == |s| || !IsWordChar(s[i]) then i else WordEnd(s, i + 1)
  }

  /** The first newline at or after `i`, or the end: how far `.*` reaches. */
  function LineEnd(s: string, i: nat): (n: nat)
    requires i <= |s|
    ensures i <= n <= |s|
    ensures forall k :: i <= k < n ==> s[k] != '\n'
    ensures n < |s| ==> s[n] == '\n'
    decreases |s| - i
  {
    if i == |s| || s[i] == '\n' then i else LineEnd(s, i + 1)
  }

  /** The last `]` or `}` at a position from `lo` below `hi` (where greedy
      `.*[\]\}]` stops). */
  function LastCloser(s: string, lo: nat, hi: nat): (r: Option<nat>)
    requires lo <= hi <= |s|
    ensures r.None? ==> forall k :: lo <= k < hi ==> !IsCloser(s[k])
    ensures r.Some? ==> lo <= r.value < hi && IsCloser(s[r.value])
    ensures r.Some? ==> forall k :: r.value < k < hi ==> !IsCloser(s[k])
    decreases hi
  {
    if hi == lo then None
    else if IsCloser(s[hi - 1]) then Some(hi - 1)
    else LastCloser(s, lo, hi - 1)
  }

  /** Reads the message and what follows it: one non-opener, then up to
      the last closer before the next newline. */
  function MatchMessage(body: string): Option<(string, string)>
  {
    if |body| < 2 || IsOpener(body[0]) then None
    else match LastCloser(body, 1, LineEnd(body, 1))
      case None => None
      case Some(k) => Some((body[..k + 1], body[k + 1..]))
  }

  /** What `MatchMessage` reads is a message, and it and the rest give the
      text back. */
  lemma MatchMessageShape(body: string)
    ensures var r := MatchMessage(body);
            r.Some? ==> IsMessage(r.value.0) && r.value.0 + r.value.1 == body
  {
    if MatchMessage(body).Some? {
      var k := LastCloser(body, 1, LineEnd(body, 1)).value;
      var msg := body[..k + 1];
      assert forall i :: 1 <= i < |msg| ==> msg[i] == body[i];
      assert NoNewline(msg[1..]) by {
        forall i | 0 <= i < |msg| - 1
          ensures msg[1..][i] != '\n'
        {
          assert msg[1..][i] == body[i + 1];
        }
      }
    }
  }

  /** Whenever `body` starts with a message, `MatchMessage` answers, with
      the longest one. */
  lemma MatchMessageLongest(body: string, msg: string, trail: string)
    requires IsMessage(msg) && msg + trail == body
    ensures MatchMessage(body).Some?
    ensures |msg| <= |MatchMessage(body).value.0|
  {
    assert body[0] == msg[0];
    assert forall i :: 1 <= i < |msg| ==> body[i] == msg[1..][i - 1];
    assert |msg| <= LineEnd(body, 1);
    assert IsCloser(body[|msg| - 1]);
  }

  /** Reads `<level>: ` and the message after it. */
  function MatchLevel(s: string): Option<(string, string, string)>
  {
    var v := WordRun(s);
    if v == 0 || |s| < v + 2 || s[v] != ':' || s[v + 1] != ' ' then None
    else match MatchMessage(s[v + 2..])
      case None => None
      case Some(mt) => Some((s[..v], mt.0, mt.1))
  }

  /** What `MatchLevel` reads is a level and a message, and with `": "`
      between them and the rest after them they give the text back. */
  lemma MatchLevelShape(s: string)
    ensures var r := MatchLevel(s);
            r.Some? ==> IsWord(r.value.0) && IsMessage(r.value.1) && s == r.value.0 + (": " + (r.value.1 + r.value.2))
  {
    if MatchLevel(s).Some? {
      var v := WordRun(s);
      var mt := MatchMessage(s[v + 2..]).value;
      LevelPieces(s, v, mt.0, mt.1);
    }
  }

  /** The pieces `MatchLevel` cuts obey the pattern and give the text back. */
  lemma LevelPieces(s: string, v: nat, msg: string, trail: string)
    requires v == WordRun(s) && 0 < v && v + 2 <= |s| && s[v] == ':' && s[v + 1] == ' '
    requires MatchMessage(s[v + 2..]) == Some((msg, trail))
    ensures IsWord(s[..v]) && IsMessage(msg) && s == s[..v] + (": " + (msg + trail))
  {
    MatchMessageShape(s[v + 2..]);
    WordPrefix(s, v);
    JoinLevel(s, v, msg, trail);
  }

  /** A non-empty prefix of word characters is a word. */
  lemma WordPrefix(s: string, v: nat)
    requires 0 < v <= |s|
    requires forall i :: 0 <= i < v ==> IsWordChar(s[i])
    ensures IsWord(s[..v])
  {
    forall i | 0 <= i < v
      ensures IsWordChar(s[..v][i])
    {
      assert s[..v][i] == s[i];
    }
  }

  /** A text cut after the level and parsed after `": "` is the level text
      of its pieces. */
  lemma JoinLevel(s: string, v: nat, message: string, trail: string)
    requires v + 2 <= |s| && s[v] == ':' && s[v + 1] == ' '
    requires s[v + 2..] == message + trail
    ensures s == s[..v] + (": " + (message + trail))
  {
    SplitAt(s, v, 2);
    assert s[v..v + 2] == ": ";
  }

  /** The level is the whole word before `": "`, so it is the only one;
      the message is the longest. */
  lemma MatchLevelLongest(s: string, level: string, msg: string, trail: string)
    requires IsWord(level) && IsMessage(msg)
    requires s == level + (": " + (msg + trail))
    ensures MatchLevel(s).Some?
    ensures MatchLevel(s).value.0 == level && |msg| <= |MatchLevel(s).value.1|
  {
    var v := |level|;
    assert s[v] == ':' && s[v + 1] == ' ';
    assert forall i :: 0 <= i < v ==> s[i] == level[i];
    assert WordRun(s) == v;
    assert s[v + 2..] == msg + trail;
    MatchMessageLongest(s[v + 2..], msg, trail);
    assert s[..v] == level;
  }

  /** Reads `<channel><sep><level>: <message>` and what follows. The
      channel first takes the whole word; when no level can follow it, the
      only shorter channel that can work leaves one character for the
      separator and one for the level, just before `": "`. */
  function MatchTail(s: string): Option<Tail>
  {
    var w := WordRun(s);
    match WholeTail(s, w)
    case Some(t) => Some(t)
    case None => BackTail(s, w)
  }

  /** The reading with the whole word run `s[..w]` as channel. */
  function WholeTail(s: string, w: nat): Option<Tail>
    requires w <= |s|
  {
    if 0 < w < |s| && s[w] != '\n' then
      match MatchLevel(s[w + 1..])
      case None => None
      case Some(lv) => Some(Tail(s[..w], s[w], lv.0, lv.1, lv.2))
    else None
  }

  /** The reading that gives up the last two characters of the word run
      `s[..w]` to the separator and the level. */
  function BackTail(s: string, w: nat): Option<Tail>
    requires w <= |s|
  {
    if 3 <= w && w + 2 <= |s| && s[w] == ':' && s[w + 1] == ' ' then
      match MatchMessage(s[w + 2..])
      case None => None
      case Some(mt) => Some(Tail(s[..w - 2], s[w - 2], s[w - 1..w], mt.0, mt.1))
    else None
  }

  /** When a level follows the whole word run, that is the reading. */
  lemma WholeChannel(s: string, w: nat, lv: (string, string, string))
    requires w == WordRun(s) && 0 < w < |s| && s[w] != '\n'
    requires MatchLevel(s[w + 1..]) == Some(lv)
    ensures MatchTail(s) == Some(Tail(s[..w], s[w], lv.0, lv.1, lv.2))
  {
  }

  /** When no level follows the whole word run but `": "` does, the
      reading gives up the last two word characters. */
  lemma ShortChannel(s: string, w: nat, msg: string, trail: string)
    requires w == WordRun(s) && 3 <= w && w + 2 <= |s| && s[w] == ':' && s[w + 1] == ' '
    requires MatchMessage(s[w + 2..]) == Some((msg, trail))
    ensures MatchTail(s) == Some(Tail(s[..w - 2], s[w - 2], s[w - 1..w], msg, trail))
  {
    assert s[w + 1..][0] == ' ';
    assert WholeTail(s, w).None? by {
      assert WordRun(s[w + 1..]) == 0;
    }
  }

  /** A line cut after the channel and parsed after the separator is the
      tail text of its pieces. */
  lemma JoinTail(s: string, c: nat, level: string, message: string, trail: string)
    requires c < |s|
    requires s[c + 1..] == level + (": " + (message + trail))
    ensures TailText(Tail(s[..c], s[c], level, message, trail)) == s
  {
    SplitAt(s, c, 1);
  }

  /** The pieces of the backtracked reading: the word before `": "` less
      its last two characters, the separator, and a one-character level. */
  lemma ShortTail(s: string, w: nat, message: string, trail: string)
    requires 3 <= w && w + 2 <= |s| && s[w] == ':' && s[w + 1] == ' '
    requires forall i :: 0 <= i < w ==> IsWordChar(s[i])
    requires s[w + 2..] == message + trail
    ensures IsWord(s[..w - 2]) && s[w - 2] != '\n' && IsWord(s[w - 1..w])
    ensures TailText(Tail(s[..w - 2], s[w - 2], s[w - 1..w], message, trail)) == s
  {
    WordPrefix(s, w - 2);
    assert s[w - 1..w][0] == s[w - 1];
    JoinLevel(s[w - 1..], 1, message, trail);
    assert s[w - 1..][..1] == s[w - 1..w];
    JoinTail(s, w - 2, s[w - 1..w], message, trail);
  }

  /** What `MatchTail` reads obeys the pattern and gives the text back. */
  lemma MatchTailShape(s: string)
    ensures MatchTail(s).Some? ==> TailShaped(MatchTail(s).value) && TailText(MatchTail(s).value) == s
  {
    var w := WordRun(s);
    if 0 < w < |s| && s[w] != '\n' && MatchLevel(s[w + 1..]).Some? {
      var lv := MatchLevel(s[w + 1..]).value;
      WholeChannel(s, w, lv);
      WholePieces(s, w, lv);
    } else if 3 <= w && w + 2 <= |s| && s[w] == ':' && s[w + 1] == ' ' && MatchMessage(s[w + 2..]).Some? {
      var mt := MatchMessage(s[w + 2..]).value;
      ShortChannel(s, w, mt.0, mt.1);
      ShortPieces(s, w, mt.0, mt.1);
    }
  }

  /** The pieces of the whole-run reading obey the pattern and give the
      text back. */
  lemma WholePieces(s: string, w: nat, lv: (string, string, string))
    requires w == WordRun(s) && 0 < w < |s| && s[w] != '\n'
    requires MatchLevel(s[w + 1..]) == Some(lv)
    ensures TailShaped(Tail(s[..w], s[w], lv.0, lv.1, lv.2))
    ensures TailText(Tail(s[..w], s[w], lv.0, lv.1, lv.2)) == s
  {
    MatchLevelShape(s[w + 1..]);
    WordPrefix(s, w);
    JoinTail(s, w, lv.0, lv.1, lv.2);
  }

  /** The pieces of the backtracked reading obey the pattern and give the
      text back. */
  lemma ShortPieces(s: string, w: nat, msg: string, trail: string)
    requires w == WordRun(s) && 3 <= w && w + 2 <= |s| && s[w] == ':' && s[w + 1] == ' '
    requires MatchMessage(s[w + 2..]) == Some((msg, trail))
    ensures TailShaped(Tail(s[..w - 2], s[w - 2], s[w - 1..w], msg, trail))
    ensures TailText(Tail(s[..w - 2], s[w - 2], s[w - 1..w], msg, trail)) == s
  {
    MatchMessageShape(s[w + 2..]);
    ShortTail(s, w, msg, trail);
  }

  /** The word run of a tail's text covers its channel, and the separator
      follows the channel. */
  lemma ChannelInRun(s: string, t: Tail)
    requires TailShaped(t) && TailText(t) == s
    ensures |t.channel| <= WordRun(s) && |t.channel| < |s| && s[|t.channel|] == t.sep
    ensures s[|t.channel| + 1..] == t.level + (": " + (t.message + t.trail))
  {
    var rest := t.level + (": " + (t.message + t.trail));
    assert s == t.channel + ([t.sep] + rest);
    assert forall i :: 0 <= i < |t.channel| ==> s[i] == t.channel[i];
  }

  /** When the separator is a word character, the word run reaches the
      `": "` after the level. */
  lemma RunPastSeparator(s: string, t: Tail)
    requires TailShaped(t) && TailText(t) == s && IsWordChar(t.sep)
    ensures var e := |t.channel| + 1 + |t.level|;
            WordRun(s) == e && e + 2 <= |s| && s[e] == ':' && s[e + 1] == ' '
    ensures s[|t.channel| + 1 + |t.level| + 2..] == t.message + t.trail
  {
    var c := |t.channel|;
    var e := c + 1 + |t.level|;
    var front := t.channel + [t.sep] + t.level;
    assert s == front + (": " + (t.message + t.trail));
    assert |front| == e;
    assert forall i :: 0 <= i < e ==> s[i] == front[i];
    assert forall i :: 0 <= i < e ==> IsWordChar(front[i]) by {
      forall i | 0 <= i < e
        ensures IsWordChar(front[i])
      {
        if c < i {
          assert front[i] == t.level[i - c - 1];
        }
      }
    }
    assert s[e] == ':' && s[e + 1] == ' ';
    assert s[e + 2..] == t.message + t.trail;
  }

  /** Whenever the text after `"] "` matches, `MatchTail` answers, and no
      match PCRE would try earlier exists. */
  lemma MatchTailFirst(s: string, t: Tail)
    requires TailShaped(t) && TailText(t) == s
    ensures MatchTail(s).Some?
    ensures !TailBefore(t, MatchTail(s).value)
  {
    ChannelInRun(s, t);
    if |t.channel| == WordRun(s) {
      WholeChannelFirst(s, t);
    } else {
      ShortChannelFirst(s, t);
    }
  }

  /** The case of `MatchTailFirst` where the channel is the whole run. */
  lemma WholeChannelFirst(s: string, t: Tail)
    requires TailShaped(t) && TailText(t) == s
    requires |t.channel| == WordRun(s)
    requires s[|t.channel| + 1..] == t.level + (": " + (t.message + t.trail)) && s[|t.channel|] == t.sep
    ensures MatchTail(s).Some?
    ensures !TailBefore(t, MatchTail(s).value)
  {
    var w := WordRun(s);
    MatchLevelLongest(s[w + 1..], t.level, t.message, t.trail);
    WholeChannel(s, w, MatchLevel(s[w + 1..]).value);
  }

  /** The case of `MatchTailFirst` where the channel is shorter than the
      run, so the separator is a word character. */
  lemma ShortChannelFirst(s: string, t: Tail)
    requires TailShaped(t) && TailText(t) == s
    requires |t.channel| < WordRun(s) && s[|t.channel|] == t.sep
    ensures MatchTail(s).Some?
    ensures !TailBefore(t, MatchTail(s).value)
  {
    var w := WordRun(s);
    assert 3 <= w && w + 2 <= |s| && s[w] == ':' && s[w + 1] == ' ' && s[w + 2..] == t.message + t.trail
           && w == |t.channel| + 1 + |t.level| by {
      assert IsWordChar(t.sep);
      RunPastSeparator(s, t);
    }
    MatchMessageLongest(s[w + 2..], t.message, t.trail);
    var mt := MatchMessage(s[w + 2..]).value;
    ShortChannel(s, w, mt.0, mt.1);
    ShortIsLater(t, MatchTail(s).value, w);
  }

  /** The backtracked reading comes no later than any other whose
      separator is a word character. */
  lemma ShortIsLater(t: Tail, r: Tail, w: nat)
    requires w == |t.channel| + 1 + |t.level| && |t.level| >= 1
    requires |r.channel| == w - 2 && |r.level| == 1 && |t.message| <= |r.message|
    ensures !TailBefore(t, r)
  {
  }

  // ---------------------------------------------------------------------
  // Searching positions
  // ---------------------------------------------------------------------

  /** The largest position at or below `d` where `f` answers (a greedy
      quantifier backtracking from the longest try). */
  function LastHit<T>(f: nat -> Option<T>, d: nat): (r: Option<(nat, T)>)
    ensures r.Some? ==> r.value.0 <= d && f(r.value.0) == Some(r.value.1)
    decreases d
  {
    match f(d)
    case Some(x) => Some((d, x))
    case None => if d == 0 then None else LastHit(f, d - 1)
  }

  /** A position where `f` answers is found, or a larger one. */
  lemma {:induction false} LastHitFinds<T>(f: nat -> Option<T>, d: nat, e: nat)
    requires e <= d && f(e).Some?
    ensures LastHit(f, d).Some? && e <= LastHit(f, d).value.0
    decreases d
  {
    if f(d).None? {
      LastHitFinds(f, d - 1, e);
    }
  }

  /** The smallest position from `o` below `n` where `f` answers (an
      unanchored pattern trying each start from the left). */
  function FirstHit<T>(f: nat -> Option<T>, o: nat, n: nat): (r: Option<(nat, T)>)
    ensures r.Some? ==> o <= r.value.0 < n && f(r.value.0) == Some(r.value.1)
    decreases n - o
  {
    if n <= o then None
    else match f(o)
      case Some(x) => Some((o, x))
      case None => FirstHit(f, o + 1, n)
  }

  /** A position where `f` answers is found, or a smaller one. */
  lemma {:induction false} FirstHitFinds<T>(f: nat -> Option<T>, o: nat, n: nat, p: nat)
    requires o <= p < n && f(p).Some?
    ensures FirstHit(f, o, n).Some? && FirstHit(f, o, n).value.0 <= p
    decreases n - o
  {
    if f(o).None? {
      FirstHitFinds(f, o + 1, n, p);
    }
  }

  // ---------------------------------------------------------------------
  // The date and the opening bracket
  // ---------------------------------------------------------------------

  /** The tail read after a date that ends at `d`: `"] "` stands there, the
      date holds no newline, and what follows matches. */
  function TryDate(a: string, d: nat): Option<Tail>
  {
    if d + 2 <= |a| && a[d] == ']' && a[d + 1] == ' ' && NoNewline(a[..d]) then MatchTail(a[d + 2..])
    else None
  }

  /** Greedy `(?P<date>.*)`: the longest date after which the rest of the
      text after `[` matches. */
  function LongestDate(a: string): Option<(nat, Tail)>
  {
    LastHit((d: nat) => TryDate(a, d), |a|)
  }

  /** A tail read after a date that ends at `d` gives the text back with
      the date and `"] "` in front. */
  lemma TryDateShape(a: string, d: nat)
    requires TryDate(a, d).Some?
    ensures d + 2 <= |a| && NoNewline(a[..d]) && TailShaped(TryDate(a, d).value)
    ensures a == a[..d] + ("] " + TailText(TryDate(a, d).value))
  {
    assert TryDate(a, d) == MatchTail(a[d + 2..]);
    MatchTailShape(a[d + 2..]);
    JoinDate(a, d, TryDate(a, d).value);
  }

  /** A text cut at `"] "` is the date before it and the tail after it. */
  lemma JoinDate(a: string, d: nat, t: Tail)
    requires d + 2 <= |a| && a[d] == ']' && a[d + 1] == ' '
    requires a[d + 2..] == TailText(t)
    ensures a == a[..d] + ("] " + TailText(t))
  {
    SplitAt(a, d, 2);
    assert a[d..d + 2] == "] ";
  }

  /** What `LongestDate` reads is a one-line date, `"] "` and a tail that
      obeys the pattern. */
  lemma LongestDateShape(a: string)
    ensures var r := LongestDate(a);
            r.Some? ==> r.value.0 + 2 <= |a| && NoNewline(a[..r.value.0]) && TailShaped(r.value.1)
                        && a == a[..r.value.0] + ("] " + TailText(r.value.1))
  {
    var r := LongestDate(a);
    if r.Some? {
      TryDateShape(a, r.value.0);
    }
  }

  /** Whenever the text after `[` matches, the longest date is found, and
      with the same date the tail is PCRE's first. */
  lemma DateFirst(a: string, date: string, t: Tail)
    requires NoNewline(date) && TailShaped(t)
    requires a == date + ("] " + TailText(t))
    ensures LongestDate(a).Some?
    ensures var r := LongestDate(a).value;
            |date| <= r.0 && (|date| == r.0 ==> !TailBefore(t, r.1))
  {
    var e := |date|;
    assert a[e] == ']' && a[e + 1] == ' ';
    assert a[..e] == date;
    assert a[e + 2..] == TailText(t);
    MatchTailFirst(a[e + 2..], t);
    var f := (d: nat) => TryDate(a, d);
    assert f(e) == MatchTail(a[e + 2..]);
    LastHitFinds(f, |a|, e);
  }

  /** The match that starts at the opening bracket at `o`, if any. */
  function TryStart(l: string, o: nat): Option<LineMatch>
  {
    if o < |l| && l[o] == '[' then
      var a := l[o + 1..];
      match LongestDate(a)
      case None => None
      case Some(dt) =>
        var t := dt.1;
        Some(LineMatch(l[..o], a[..dt.0], t.channel, t.sep, t.level, t.message, t.trail))
    else None
  }

  /** What `TryStart` reads is a match of the line with `o` characters
      before its bracket. */
  lemma TryStartShape(l: string, o: nat)
    ensures TryStart(l, o).Some? ==> Reading(l, TryStart(l, o).value) && |TryStart(l, o).value.lead| == o
  {
    if TryStart(l, o).Some? {
      var a := l[o + 1..];
      LongestDateShape(a);
      var m := TryStart(l, o).value;
      assert TailOf(m) == LongestDate(a).value.1;
      SplitAt(l, o, 1);
      assert l[o..o + 1] == "[";
    }
  }

  /** `preg_match` with the line pattern: the first match PCRE finds. */
  function MatchLine(l: string): (r: Option<LineMatch>)
    ensures r.Some? ==> Reading(l, r.value)
  {
    match FirstHit((o: nat) => TryStart(l, o), 0, |l|)
    case None => None
    case Some(h) =>
      TryStartShape(l, h.0);
      Some(h.1)
  }

  /** Whenever the pattern matches the line at all, `MatchLine` answers,
      and no match of the line comes before its answer in PCRE's order. */
  lemma MatchLineIsFirst(l: string, m: LineMatch)
    requires Reading(l, m)
    ensures MatchLine(l).Some?
    ensures !Before(m, MatchLine(l).value)
  {
    var o := |m.lead|;
    var t := TailOf(m);
    var a := l[o + 1..];
    assert l == m.lead + ("[" + (m.date + ("] " + TailText(t))));
    assert l[o] == '[';
    assert a == m.date + ("] " + TailText(t));
    DateFirst(a, m.date, t);
    var f := (p: nat) => TryStart(l, p);
    assert f(o).Some?;
    FirstHitFinds(f, 0, |l|, o);
    var h := FirstHit(f, 0, |l|).value;
    TryStartShape(l, h.0);
    assert MatchLine(l) == Some(h.1);
    if h.0 == o {
      var dt := LongestDate(a).value;
      assert h.1 == TryStart(l, o).value;
      assert |h.1.date| == dt.0 && TailOf(h.1) == dt.1;
    }
  }

  /** Two matches of one line that neither comes before are the same. */
  lemma ReadingsEqual(x: LineMatch, y: LineMatch)
    requires Assemble(x) == Assemble(y)
    requires !Before(x, y) && !Before(y, x)
    ensures x == y
  {
    var tx, ty := TailOf(x), TailOf(y);
    PrefixEq(x.lead, "[" + (x.date + ("] " + TailText(tx))), y.lead, "[" + (y.date + ("] " + TailText(ty))));
    PrefixEq("[", x.date + ("] " + TailText(tx)), "[", y.date + ("] " + TailText(ty)));
    PrefixEq(x.date, "] " + TailText(tx), y.date, "] " + TailText(ty));
    PrefixEq("] ", TailText(tx), "] ", TailText(ty));
    PrefixEq(x.channel, [x.sep] + (x.level + (": " + (x.message + x.trail))),
             y.channel, [y.sep] + (y.level + (": " + (y.message + y.trail))));
    PrefixEq([x.sep], x.level + (": " + (x.message + x.trail)), [y.sep], y.level + (": " + (y.message + y.trail)));
    assert x.sep == [x.sep][0];
    PrefixEq(x.level, ": " + (x.message + x.trail), y.level, ": " + (y.message + y.trail));
    PrefixEq(": ", x.message + x.trail, ": ", y.message + y.trail);
    PrefixEq(x.message, x.trail, y.message, y.trail);
  }

  // ---------------------------------------------------------------------
  // Lines with a single reading
  // ---------------------------------------------------------------------

  /** No `"] "` followed by a word character: no place where a longer date
      could end. */
  predicate NoDateEnd(s: string)
  {
    forall i :: 0 <= i && i + 2 < |s| ==> !(s[i] == ']' && s[i + 1] == ' ' && IsWordChar(s[i + 2]))
  }

  /** A line in the pattern's shape that PCRE reads back into its own
      pieces: no `[` before the date, no `]` inside it, a non-word
      separator, no closer after the message, and no `"] "` followed by a
      word character in the message or after it. Monolog's own lines,
      whose context and extra fields print as `[] []`, are of this kind
      when the message itself holds no such sequence. */
  predicate Canonical(m: LineMatch)
  {
    && WellShaped(m)
    && (forall i :: 0 <= i < |m.lead| ==> m.lead[i] != '[')
    && (forall i :: 0 <= i < |m.date| ==> m.date[i] != ']')
    && !IsWordChar(m.sep)
    && (forall i :: 0 <= i < |m.trail| ==> !IsCloser(m.trail[i]))
    && NoDateEnd(m.message + m.trail)
  }

  /** In a canonical line no date can end after the canonical one. */
  lemma NoLaterDateEnd(date: string, t: Tail)
    requires TailShaped(t) && !IsWordChar(t.sep) && NoDateEnd(t.message + t.trail)
    ensures var a := date + ("] " + TailText(t));
            forall p :: |date| < p && p + 2 < |a| ==> !(a[p] == ']' && a[p + 1] == ' ' && IsWordChar(a[p + 2]))
  {
    var a := date + ("] " + TailText(t));
    var rest := t.message + t.trail;
    var front := date + "] " + t.channel + [t.sep] + t.level + ": ";
    assert a == front + rest;
    var c, v := |t.channel|, |t.level|;
    var q := |front|;
    assert q == |date| + c + v + 5;
    forall p | |date| < p && p + 2 < |a|
      ensures !(a[p] == ']' && a[p + 1] == ' ' && IsWordChar(a[p + 2]))
    {
      if p == |date| + 1 {
        assert a[p] == ' ';
      } else if p < |date| + 2 + c {
        assert a[p] == t.channel[p - |date| - 2];
      } else if p == |date| + 2 + c {
        assert a[p + 1] == t.level[0];
      } else if p < |date| + 3 + c + v {
        assert a[p] == t.level[p - |date| - 3 - c];
      } else if p == |date| + 3 + c + v {
        assert a[p] == ':';
      } else if p == |date| + 4 + c + v {
        assert a[p] == ' ';
      } else {
        assert a[p] == rest[p - q] && a[p + 1] == rest[p - q + 1] && a[p + 2] == rest[p - q + 2];
      }
    }
  }

  /** After a canonical date, no tail PCRE tries earlier matches. */
  lemma TailCanonical(m: Tail, r: Tail)
    requires TailShaped(m) && TailShaped(r) && TailText(m) == TailText(r)
    requires !IsWordChar(m.sep)
    requires forall i :: 0 <= i < |m.trail| ==> !IsCloser(m.trail[i])
    ensures !TailBefore(r, m)
  {
    var s := TailText(m);
    var um := m.level + (": " + (m.message + m.trail));
    var ur := r.level + (": " + (r.message + r.trail));
    assert s == m.channel + ([m.sep] + um) == r.channel + ([r.sep] + ur);
    assert s[|m.channel|] == m.sep;
    assert forall i :: 0 <= i < |r.channel| ==> s[i] == r.channel[i];
    assert |r.channel| <= |m.channel|;
    if |r.channel| == |m.channel| {
      PrefixEq(m.channel, [m.sep] + um, r.channel, [r.sep] + ur);
      PrefixEq([m.sep], um, [r.sep], ur);
      assert um[|m.level|] == ':';
      assert forall i :: 0 <= i < |r.level| ==> um[i] == r.level[i];
      assert |r.level| <= |m.level|;
      if |r.level| == |m.level| {
        PrefixEq(m.level, ": " + (m.message + m.trail), r.level, ": " + (r.message + r.trail));
        PrefixEq(": ", m.message + m.trail, ": ", r.message + r.trail);
        var b := m.message + m.trail;
        assert b[|r.message| - 1] == r.message[|r.message| - 1];
        assert forall i :: |m.message| <= i < |b| ==> b[i] == m.trail[i - |m.message|];
        assert |r.message| <= |m.message|;
      }
    }
  }

  /** No match of a canonical line comes before its own pieces. */
  lemma CanonicalFirst(m: LineMatch, r: LineMatch)
    requires Canonical(m) && Reading(Assemble(m), r)
    ensures !Before(r, m)
  {
    var l := Assemble(m);
    var o := |m.lead|;
    var tm, tr := TailOf(m), TailOf(r);
    var am := m.date + ("] " + TailText(tm));
    var ar := r.date + ("] " + TailText(tr));
    assert l == r.lead + ("[" + ar);
    assert l[|r.lead|] == '[';
    assert forall i :: 0 <= i < o ==> l[i] == m.lead[i];
    assert o <= |r.lead|;
    if |r.lead| == o {
      PrefixEq(r.lead, "[" + ar, m.lead, "[" + am);
      PrefixEq("[", ar, "[", am);
      var d := |r.date|;
      assert TailText(tr)[0] == r.channel[0];
      assert am[d] == ']' && am[d + 1] == ' ' && IsWordChar(am[d + 2]);
      assert forall i :: 0 <= i < |m.date| ==> am[i] == m.date[i];
      assert |m.date| <= d;
      NoLaterDateEnd(m.date, tm);
      assert d <= |m.date|;
      PrefixEq(r.date, "] " + TailText(tr), m.date, "] " + TailText(tm));
      PrefixEq("] ", TailText(tr), "] ", TailText(tm));
      TailCanonical(tm, tr);
    }
  }

  /** A canonical line is read back into exactly its pieces. */
  lemma MatchLineCanonical(m: LineMatch)
    requires Canonical(m)
    ensures MatchLine(Assemble(m)) == Some(m)
  {
    var l := Assemble(m);
    MatchLineIsFirst(l, m);
    var r := MatchLine(l).value;
    CanonicalFirst(m, r);
    ReadingsEqual(r, m);
  }

  // ---------------------------------------------------------------------
  // Records
  // ---------------------------------------------------------------------

  /** PHP treats the strings `""` and `"0"` as false; the reader skips
      such lines before matching (LogService.php:106-108). */
  predicate IsFalsy(line: string)
  {
    line == "" || line == "0"
  }

  /** One line to an optional record; `parseDate` stands for
      `DateTime::createFromFormat('Y-m-d H:i:s', ...)`. */
  function ParseLine(line: string, parseDate: string -> Option<int>): (r: Option<LogRecord>)
    ensures r.Some? ==> IsWord(r.value.channel) && IsWord(r.value.level)
    ensures r.Some? ==> IsMessage(r.value.message)
    ensures IsFalsy(line) ==> r.None?
  {
    if IsFalsy(line) then None
    else match MatchLine(line)
      case None => None
      case Some(m) => Some(LogRecord(parseDate(m.date), m.channel, m.level, m.message))
  }

  /** A line gives no record exactly when it is falsy or the pattern does
      not match it. */
  lemma ParseLineSkips(line: string, parseDate: string -> Option<int>)
    ensures ParseLine(line, parseDate).None? <==> IsFalsy(line) || forall m :: !Reading(line, m)
  {
    forall m | Reading(line, m)
      ensures MatchLine(line).Some?
    {
      MatchLineIsFirst(line, m);
    }
  }

  /** A canonical line reads back as the record of its pieces. */
  lemma ParseLineCanonical(m: LineMatch, parseDate: string -> Option<int>)
    requires Canonical(m)
    ensures ParseLine(Assemble(m), parseDate) == Some(LogRecord(parseDate(m.date), m.channel, m.level, m.message))
  {
    MatchLineCanonical(m);
    AssembledNotFalsy(m);
  }

  /** A put-together line holds at least `"[] "`, so it is not falsy. */
  lemma AssembledNotFalsy(m: LineMatch)
    ensures !IsFalsy(Assemble(m))
  {
    assert |Assemble(m)| >= 3;
  }
}

=== FILE: log_service.dfy ===
/** The log engine of the bundle (LogService.php): reading a log file into
    records, counting recent warnings and errors, the level filter and
    pagination of the detail view, and the per-file summaries with their
    cached total. File contents, directory listings, the clock and the date
    parser are inputs. */
module LogService {
  import opened Wrappers
  import opened Seqs
  import opened LogLine
  import opened Sorting
  import opened PhpInt

  /** `LOG_TYPE['WARNING']` (LogService.php:18-20). */
  const WarningTypes: seq<string> := ["WARNING"]

  /** `LOG_TYPE['ERROR']`, the default type of the windowed count
      (LogService.php:21-26). */
  const ErrorTypes: seq<string> := ["ERROR", "ALERT", "CRITICAL", "EMERGENCY"]

  /** `LOG_LEVEL`, least to most severe (LogService.php:29-38). */
  const LogLevels: seq<string> := ["DEBUG", "INFO", "NOTICE", "WARNING", "ERROR", "ALERT", "CRITICAL", "EMERGENCY"]

  /** Why a log operation throws. */
  datatype LogError =
    | FileNotFound          // `FileNotFoundException` of `getLog`
    | DirectoryUnreadable   // `scandir` returned false
    | OffsetNotInt          // `array_slice` given a float offset: `TypeError`

  /** One file of the log directory as `scandir`, `filesize`, `filemtime`
      and `fgets` would see it. */
  datatype LogFileEntry = LogFileEntry(name: string, size: int, mtime: int, lines: seq<string>)

  /** The log directory: either unreadable or its entries in `scandir`
      order. */
  datatype LogDir = Unreadable | Listing(entries: seq<LogFileEntry>)

  // ---------------------------------------------------------------------
  // Reading a file (getLog, LogService.php:91-127)
  // ---------------------------------------------------------------------

  /** The line reader with the date parser fixed. */
  function LineReader(parseDate: string -> Option<int>): string -> Option<LogRecord>
  {
    (line: string) => ParseLine(line, parseDate)
  }

  /** The records of the matching lines, in file order. */
  function ParsedLines(lines: seq<string>, parseDate: string -> Option<int>): (r: seq<LogRecord>)
    ensures |r| <= |lines|
  {
    FilterMap(lines, LineReader(parseDate))
  }

  /** The records of a file's lines, newest (last line) first. */
  function ReadLog(lines: seq<string>, parseDate: string -> Option<int>): (r: seq<LogRecord>)
    ensures |r| <= |lines|
  {
    Reverse(ParsedLines(lines, parseDate))
  }

  /** Lines appended to a file come out in front, in reverse order: the
      result is in reverse file order. */
  lemma ReadLogAppend(a: seq<string>, b: seq<string>, parseDate: string -> Option<int>)
    ensures ReadLog(a + b, parseDate) == ReadLog(b, parseDate) + ReadLog(a, parseDate)
  {
    FilterMapConcat(a, b, LineReader(parseDate));
    ReverseConcat(ParsedLines(a, parseDate), ParsedLines(b, parseDate));
  }

  /** A single line yields its record when it matches and nothing
      otherwise: unmatched lines are skipped, not reported. */
  lemma ReadLogSingle(line: string, parseDate: string -> Option<int>)
    ensures ParseLine(line, parseDate).None? ==> ReadLog([line], parseDate) == []
    ensures ParseLine(line, parseDate).Some? ==> ReadLog([line], parseDate) == [ParseLine(line, parseDate).value]
  {
    FilterMapSingle(line, LineReader(parseDate));
  }

  /** A record is read from a file exactly when some line of the file
      parses to it. */
  lemma ReadLogMembership(lines: seq<string>, parseDate: string -> Option<int>, rec: LogRecord)
    ensures rec in ReadLog(lines, parseDate) <==> exists j :: 0 <= j < |lines| && ParseLine(lines[j], parseDate) == Some(rec)
  {
    var parsed := ParsedLines(lines, parseDate);
    FilterMapMembership(lines, LineReader(parseDate), rec);
    ReverseMultiset(parsed);
    assert rec in Reverse(parsed) <==> rec in multiset(Reverse(parsed));
    assert rec in parsed <==> rec in multiset(parsed);
  }

  /** The first entry of the directory with the given name. */
  function FindFile(entries: seq<LogFileEntry>, id: string): (r: Option<LogFileEntry>)
    ensures r.Some? ==> r.value in entries && r.value.name == id
    ensures r.None? ==> forall i :: 0 <= i < |entries| ==> entries[i].name != id
  {
    if entries == [] then None
    else if entries[0].name == id then Some(entries[0])
    else FindFile(entries[1..], id)
  }

  /** `getLog($id)`: a missing file is an error, not an empty list. */
  function GetLog(dir: LogDir, id: string, parseDate: string -> Option<int>): (r: Result<seq<LogRecord>, LogError>)
    ensures r.Failure? ==> r.error == FileNotFound
    ensures r.Failure? <==> (dir.Unreadable? || forall i :: 0 <= i < |dir.entries| ==> dir.entries[i].name != id)
    ensures r.Success? ==> exists e :: e in dir.entries && e.name == id && r.value == ReadLog(e.lines, parseDate)
  {
    match dir
    case Unreadable => Failure(FileNotFound)
    case Listing(entries) =>
      match FindFile(entries, id)
      case None => Failure(FileNotFound)
      case Some(e) => Success(ReadLog(e.lines, parseDate))
  }

  // ---------------------------------------------------------------------
  // Windowed counting (countLogTypeByPeriod, LogService.php:188-200)
  // ---------------------------------------------------------------------

  /** A record is inside the window starting at `since` unless its date is
      strictly earlier. An unparsed date (`false`) is always earlier, since
      PHP orders `false` below any object. */
  predicate InWindow(rec: LogRecord, since: int)
  {
    rec.date.Some? && rec.date.value >= since
  }

  /** The scan of `countLogTypeByPeriod`: walk from the newest record,
      stop at the first record outside the window, count the records whose
      level is one of `types`. */
  function CountLogTypeByPeriod(logs: seq<LogRecord>, types: seq<string>, since: int): (n: nat)
    ensures n <= |logs|
  {
    if logs == [] || !InWindow(logs[0], since) then 0
    else (if logs[0].level in types then 1 else 0) + CountLogTypeByPeriod(logs[1..], types, since)
  }

  /** The length of the leading run of in-window records. */
  function WindowEnd(logs: seq<LogRecord>, since: int): (k: nat)
    ensures k <= |logs|
    ensures forall i :: 0 <= i < k ==> InWindow(logs[i], since)
    ensures k < |logs| ==> !InWindow(logs[k], since)
  {
    if logs == [] || !InWindow(logs[0], since) then 0 else 1 + WindowEnd(logs[1..], since)
  }

  /** The level test of the count as a predicate on records. */
  function LevelIn(types: seq<string>): LogRecord -> bool
  {
    (rec: LogRecord) => rec.level in types
  }

  /** The count is the number of records of the wanted levels in the
      leading in-window run; in particular it is at most that run's
      length, and 0 when the newest record is already out of the window. */
  lemma {:induction false} CountIsLeadingRun(logs: seq<LogRecord>, types: seq<string>, since: int)
    ensures CountLogTypeByPeriod(logs, types, since) == |Filter(logs[..WindowEnd(logs, since)], LevelIn(types))|
    ensures CountLogTypeByPeriod(logs, types, since) <= WindowEnd(logs, since)
    ensures logs != [] && !InWindow(logs[0], since) ==> CountLogTypeByPeriod(logs, types, since) == 0
  {
    if logs != [] && InWindow(logs[0], since) {
      CountIsLeadingRun(logs[1..], types, since);
      var k := WindowEnd(logs, since);
      assert logs[..k] == [logs[0]] + logs[1..][..k - 1];
      FilterConcat([logs[0]], logs[1..][..k - 1], LevelIn(types));
      FilterSingle(logs[0], LevelIn(types));
    }
  }

  /** Nothing after the first out-of-window record is ever counted,
      whatever follows it. */
  lemma {:induction false} CountStopsAtOldRecord(a: seq<LogRecord>, stale: LogRecord, b: seq<LogRecord>, types: seq<string>, since: int)
    requires !InWindow(stale, since)
    ensures CountLogTypeByPeriod(a + [stale] + b, types, since) == CountLogTypeByPeriod(a, types, since)
  {
    if a == [] {
      assert (a + [stale] + b)[0] == stale;
    } else {
      assert (a + [stale] + b)[1..] == a[1..] + [stale] + b;
      CountStopsAtOldRecord(a[1..], stale, b, types, since);
    }
  }

  /** A record dated exactly at the window start is still counted: the
      stop test is a strict `<`. */
  lemma CountAtBoundary(rec: LogRecord, rest: seq<LogRecord>, types: seq<string>, since: int)
    requires rec.date == Some(since) && rec.level in types
    ensures CountLogTypeByPeriod([rec] + rest, types, since) == 1 + CountLogTypeByPeriod(rest, types, since)
  {
    assert ([rec] + rest)[1..] == rest;
  }

  /** Moving the window start earlier never lowers the count. */
  lemma {:induction false} CountMonotone(logs: seq<LogRecord>, types: seq<string>, since: int, earlier: int)
    requires earlier <= since
    ensures CountLogTypeByPeriod(logs, types, earlier) >= CountLogTypeByPeriod(logs, types, since)
  {
    if logs != [] && InWindow(logs[0], since) {
      CountMonotone(logs[1..], types, since, earlier);
    }
  }

  /** `a` is at least as new as `b`; an unparsed date is older than any
      date. */
  predicate NotOlder(a: LogRecord, b: LogRecord)
  {
    b.date.None? || (a.date.Some? && a.date.value >= b.date.value)
  }

  /** Newest first, the order `getLog` produces for a file written in
      time order. */
  predicate NewestFirst(logs: seq<LogRecord>)
  {
    forall i, j :: 0 <= i < j < |logs| ==> NotOlder(logs[i], logs[j])
  }

  /** The wanted records of the window, wherever they are in the list. */
  function RecentOfLevel(types: seq<string>, since: int): LogRecord -> bool
  {
    (rec: LogRecord) => InWindow(rec, since) && rec.level in types
  }

  /** On a newest-first list the early exit loses nothing: the count is the
      number of in-window records of the wanted levels in the whole list. */
  lemma {:induction false} CountSortedIsExact(logs: seq<LogRecord>, types: seq<string>, since: int)
    requires NewestFirst(logs)
    ensures CountLogTypeByPeriod(logs, types, since) == |Filter(logs, RecentOfLevel(types, since))|
  {
    if logs != [] {
      assert NewestFirst(logs[1..]) by {
        forall i, j | 0 <= i < j < |logs[1..]|
          ensures NotOlder(logs[1..][i], logs[1..][j])
        {
          assert logs[1..][i] == logs[i + 1] && logs[1..][j] == logs[j + 1];
        }
      }
      if InWindow(logs[0], since) {
        CountSortedIsExact(logs[1..], types, since);
      } else {
        forall i | 0 <= i < |logs[1..]|
          ensures !RecentOfLevel(types, since)(logs[1..][i])
        {
          assert logs[1..][i] == logs[i + 1];
          assert NotOlder(logs[0], logs[i + 1]);
        }
        FilterNone(logs[1..], RecentOfLevel(types, since));
      }
    }
  }

  // ---------------------------------------------------------------------
  // Level filter and pagination (filterLogEntryList, LogService.php:136-154)
  // ---------------------------------------------------------------------

  function Min(a: int, b: int): int { if a <= b then a else b }

  function Max(a: int, b: int): int { if a >= b then a else b }

  /** `array_search($level, LOG_LEVEL)`: the position of a level name, or
      `false` (`None`) for a name that is not a level. */
  function LevelIndex(level: string): (r: Option<nat>)
    ensures r.Some? ==> r.value < |LogLevels| && LogLevels[r.value] == level
    ensures r.None? <==> level !in LogLevels
  {
    IndexOf(LogLevels, level)
  }

  /** PHP's `>=` between two results of `array_search` (`int|false`). A
      comparison with `false` compares booleans, so a known level is always
      `>= false`, and `false >= n` holds only for `n == 0`. */
  predicate PhpAtLeast(a: Option<nat>, b: Option<nat>)
  {
    match (a, b)
    case (Some(x), Some(y)) => x >= y
    case (Some(_), None) => true
    case (None, Some(y)) => y == 0
    case (None, None) => true
  }

  /** PHP's truth value of the optional level parameter. */
  predicate IsTruthy(level: Option<string>)
  {
    level.Some? && level.value != "" && level.value != "0"
  }

  /** The test of the level filter, `true` for every record when no level
      is asked for. */
  function MeetsLevel(level: Option<string>): LogRecord -> bool
  {
    (rec: LogRecord) => !IsTruthy(level) || PhpAtLeast(LevelIndex(rec.level), LevelIndex(level.value))
  }

  /** Where `array_slice` starts: a negative offset counts from the end
      and is clamped at the front. */
  function SliceStart(n: nat, offset: int): (start: nat)
    requires offset <= n
    ensures start <= n
  {
    if offset < 0 then Max(0, n + offset) else offset
  }

  /** `array_slice($s, $offset, $length)` with PHP's treatment of negative
      offsets (counted from the end) and negative lengths (stop that many
      before the end). */
  function ArraySlice<T>(s: seq<T>, offset: int, length: int): (r: seq<T>)
    ensures |r| <= |s|
    ensures offset > |s| ==> r == []
    ensures offset <= |s| && length >= 0 ==> |r| == Min(length, |s| - SliceStart(|s|, offset))
    ensures offset <= |s| && length >= 0 ==> forall i :: 0 <= i < |r| ==> r[i] == s[SliceStart(|s|, offset) + i]
    ensures offset <= |s| && length < 0 ==> r == s[SliceStart(|s|, offset)..Max(SliceStart(|s|, offset), |s| + length)]
    ensures 0 <= offset && 0 <= length ==> |r| == Min(length, Max(0, |s| - offset))
    ensures 0 <= offset && 0 <= length ==> forall i :: 0 <= i < |r| ==> r[i] == s[offset + i]
  {
    var n := |s|;
    if offset > n then []
    else
      var start := SliceStart(n, offset);
      var len := if length < 0 then n - start + length else Min(length, n - start);
      if len <= 0 then [] else s[start..start + len]
  }

  /** The offset of a page: `($page - 1) * $limit`. */
  function PageOffset(page: int, limit: int): int
  {
    (page - 1) * limit
  }

  lemma PageOffsetBounds(page: int, limit: int)
    requires page >= 1 && limit >= 0
    ensures 0 <= PageOffset(page, limit)
    ensures PageOffset(page + 1, limit) == PageOffset(page, limit) + limit
  {
  }

  /** The slice `filterLogEntryList` takes for a page. */
  function PageSlice<T>(kept: seq<T>, limit: int, page: int): (r: seq<T>)
    ensures page >= 1 && limit >= 0 ==> |r| == Min(limit, Max(0, |kept| - PageOffset(page, limit)))
    ensures page >= 1 && limit >= 0 ==> forall i :: 0 <= i < |r| ==> r[i] == kept[PageOffset(page, limit) + i]
  {
    var offset := PageOffset(page, limit);
    assert page >= 1 && limit >= 0 ==> offset >= 0 by {
      if page >= 1 && limit >= 0 {
        PageOffsetBounds(page, limit);
      }
    }
    ArraySlice(kept, offset, limit)
  }

  /** The detail view's page: the records of the page and how many records
      passed the filter. */
  datatype LogPage = LogPage(result: seq<LogRecord>, count: nat)

  /** `filterLogEntryList($logs, $limit, $page, $level)`. Only the level
      narrows the list, and only when it is truthy; the count is taken
      before slicing and the page is cut from the filtered list. When
      `$page - 1` or `($page - 1) * $limit` leaves PHP's 64-bit integers,
      the offset is a float, and `array_slice` refuses it under
      `strict_types` with a `TypeError`. */
  function FilterLogEntryList(logs: seq<LogRecord>, limit: int, page: int, level: Option<string>): (r: Result<LogPage, LogError>)
    ensures r.Failure? <==> !IsPhpInt(page - 1) || !IsPhpInt(PageOffset(page, limit))
    ensures r.Failure? ==> r.error == OffsetNotInt
    ensures r.Success? ==> r.value.count == |Filter(logs, MeetsLevel(level))|
    ensures r.Success? ==> r.value.result == PageSlice(Filter(logs, MeetsLevel(level)), limit, page)
  {
    var kept := if IsTruthy(level) then Filter(logs, MeetsLevel(level)) else logs;
    assert kept == Filter(logs, MeetsLevel(level)) by {
      if !IsTruthy(level) {
        FilterAll(logs, MeetsLevel(level));
      }
    }
    var start := page - 1;
    if !IsPhpInt(start) || !IsPhpInt(start * limit) then Failure(OffsetNotInt)
    else Success(LogPage(PageSlice(kept, limit, page), |kept|))
  }

  /** A request for the page `PHP_INT_MIN`, or for the page
      `PHP_INT_MAX` with two records a page, raises; the page
      `PHP_INT_MAX` with one record a page does not. */
  lemma OverflowingPageRaises(logs: seq<LogRecord>, level: Option<string>)
    ensures FilterLogEntryList(logs, 100, PhpIntMin, level) == Failure(OffsetNotInt)
    ensures FilterLogEntryList(logs, 2, PhpIntMax, level) == Failure(OffsetNotInt)
    ensures FilterLogEntryList(logs, 1, PhpIntMax, level).Success?
  {
  }

  /** For a level name of `LOG_LEVEL` and records whose levels are level
      names, a record is kept exactly when it is at least as severe. */
  lemma MeetsKnownLevel(level: string, rec: LogRecord)
    requires level in LogLevels && rec.level in LogLevels
    ensures MeetsLevel(Some(level))(rec) <==> LevelIndex(rec.level).value >= LevelIndex(level).value
  {
    assert |LogLevels[LevelIndex(level).value]| >= 4;
    assert IsTruthy(Some(level));
  }

  /** An unknown level name filters nothing out; a record with an unknown
      level survives only the `DEBUG` filter. */
  lemma MeetsUnknownLevel(level: string, rec: LogRecord)
    ensures IsTruthy(Some(level)) && level !in LogLevels ==> MeetsLevel(Some(level))(rec)
    ensures level in LogLevels && rec.level !in LogLevels ==> (MeetsLevel(Some(level))(rec) <==> level == "DEBUG")
  {
  }

  /** Without a level every record is counted and pages cut the list as
      it is. */
  lemma NoLevelKeepsAll(logs: seq<LogRecord>, level: Option<string>)
    requires !IsTruthy(level)
    ensures Filter(logs, MeetsLevel(level)) == logs
  {
    FilterAll(logs, MeetsLevel(level));
  }

  /** Pages 1 to `n` of a list, read one after another. */
  function PageRun<T>(kept: seq<T>, limit: int, n: nat): seq<T>
  {
    if n == 0 then [] else PageRun(kept, limit, n - 1) + PageSlice(kept, limit, n)
  }

  /** Pages 1 to `n` of the detail view, read one after another, or the
      failure of the first page that raises. */
  function PagesUpTo(logs: seq<LogRecord>, limit: int, level: Option<string>, n: nat): Result<seq<LogRecord>, LogError>
  {
    if n == 0 then Success([])
    else
      match (PagesUpTo(logs, limit, level, n - 1), FilterLogEntryList(logs, limit, n, level))
      case (Failure(e), _) => Failure(e)
      case (_, Failure(e)) => Failure(e)
      case (Success(before), Success(page)) => Success(before + page.result)
  }

  /** Consecutive pages of a list join into a prefix of it. */
  lemma {:induction false} PageRunPrefix<T>(kept: seq<T>, limit: int, n: nat)
    requires limit > 0
    ensures PageOffset(n + 1, limit) >= 0
    ensures PageRun(kept, limit, n) == kept[..Min(PageOffset(n + 1, limit), |kept|)]
  {
    if n == 0 {
      assert PageOffset(1, limit) == 0;
    } else {
      PageRunPrefix(kept, limit, n - 1);
      PageOffsetBounds(n, limit);
      var page := PageSlice(kept, limit, n);
      var a := Min(PageOffset(n, limit), |kept|);
      var b := Min(PageOffset(n + 1, limit), |kept|);
      assert |page| == b - a;
      forall i | 0 <= i < |page|
        ensures page[i] == kept[a..b][i]
      {
      }
      assert page == kept[a..b];
      assert kept[..b] == kept[..a] + kept[a..b];
    }
  }

  /** `PagesUpTo` reads the pages of the filtered list, and fails
      exactly when the offset of its last page leaves 64 bits. */
  lemma {:induction false} PagesUpToIsRun(logs: seq<LogRecord>, limit: int, level: Option<string>, n: nat)
    requires limit >= 0
    ensures n > 0 ==> (PagesUpTo(logs, limit, level, n).Success? <==> IsPhpInt(n - 1) && IsPhpInt(PageOffset(n, limit)))
    ensures PagesUpTo(logs, limit, level, n).Success? ==>
      PagesUpTo(logs, limit, level, n).value == PageRun(Filter(logs, MeetsLevel(level)), limit, n)
  {
    if n > 0 {
      var kept := Filter(logs, MeetsLevel(level));
      PagesUpToIsRun(logs, limit, level, n - 1);
      if n > 1 {
        PageOffsetBounds(n - 1, limit);
      }
      PageOffsetBounds(n, limit);
      assert PageRun(kept, limit, n) == PageRun(kept, limit, n - 1) + PageSlice(kept, limit, n);
    }
  }

  /** Reading pages 1 to `n` gives the filtered records before page
      `n + 1`'s offset `n * limit`, in order. */
  lemma PagesArePrefixes(logs: seq<LogRecord>, limit: int, level: Option<string>, n: nat)
    requires limit > 0
    ensures PageOffset(n + 1, limit) >= 0
    ensures PagesUpTo(logs, limit, level, n).Success? <==> n == 0 || IsPhpInt(PageOffset(n, limit))
    ensures var kept := Filter(logs, MeetsLevel(level));
      PagesUpTo(logs, limit, level, n).Success? ==>
      PagesUpTo(logs, limit, level, n).value == kept[..Min(PageOffset(n + 1, limit), |kept|)]
  {
    PageOffsetBounds(n + 1, limit);
    PagesUpToIsRun(logs, limit, level, n);
    PageRunPrefix(Filter(logs, MeetsLevel(level)), limit, n);
    if n > 0 {
      OffsetPastPage(n, limit);
    }
  }

  /** With at least one record a page, the offset of page `n` is at
      least `n - 1`. */
  lemma OffsetPastPage(n: int, limit: int)
    requires n >= 1 && limit >= 1
    ensures n - 1 <= PageOffset(n, limit)
  {
    assert (n - 1) * limit == (n - 1) * (limit - 1) + (n - 1);
  }

  /** The number of pages needed for `count` records, ceil(count / limit);
      the offset after the last page reaches past the last record. */
  function PageCount(count: nat, limit: int): (n: nat)
    requires limit > 0
    ensures PageOffset(n + 1, limit) >= count
    ensures n > 0 ==> PageOffset(n, limit) < count
  {
    var n := (count + limit - 1) / limit;
    var m := (count + limit - 1) % limit;
    assert count + limit - 1 == n * limit + m && 0 <= m < limit;
    assert PageOffset(n + 1, limit) == n * limit;
    assert n > 0 ==> PageOffset(n, limit) == n * limit - limit;
    n
  }

  /** Pages 1 to `PageCount` together are exactly the filtered list. A
      PHP array holds at most `PHP_INT_MAX` elements, so no page offset
      up to the last page leaves 64 bits. */
  lemma PagesCoverAll(logs: seq<LogRecord>, limit: int, level: Option<string>)
    requires limit > 0 && |logs| <= PhpIntMax
    ensures var count := FilterLogEntryList(logs, limit, 1, level).value.count;
      PagesUpTo(logs, limit, level, PageCount(count, limit)) == Success(Filter(logs, MeetsLevel(level)))
  {
    var kept := Filter(logs, MeetsLevel(level));
    assert PageOffset(1, limit) == 0;
    assert FilterLogEntryList(logs, limit, 1, level).value.count == |kept|;
    var n := PageCount(|kept|, limit);
    PagesArePrefixes(logs, limit, level, n);
    if n > 0 {
      PageOffsetBounds(n, limit);
      assert IsPhpInt(PageOffset(n, limit));
    }
    assert PageOffset(n + 1, limit) >= |kept|;
    assert kept[..|kept|] == kept;
  }

  lemma PageSliceZero<T>(kept: seq<T>, limit: int)
    requires 0 < limit <= |kept|
    ensures PageSlice(kept, limit, 0) == kept[|kept| - limit..]
  {
    var r := PageSlice(kept, limit, 0);
    assert r == ArraySlice(kept, -limit, limit);
    assert SliceStart(|kept|, -limit) == |kept| - limit;
    assert |r| == limit;
    forall i | 0 <= i < limit
      ensures r[i] == kept[|kept| - limit..][i]
    {
      assert r[i] == kept[|kept| - limit + i];
    }
  }

  /** Page 0 is not rejected: its offset is `-limit`, which `array_slice`
      counts from the end, so it shows the last `limit` filtered records. */
  lemma PageZeroShowsTail(logs: seq<LogRecord>, limit: int, level: Option<string>)
    requires 0 < limit <= |Filter(logs, MeetsLevel(level))| && IsPhpInt(limit)
    ensures FilterLogEntryList(logs, limit, 0, level).Success?
    ensures var kept := Filter(logs, MeetsLevel(level));
      FilterLogEntryList(logs, limit, 0, level).value == LogPage(kept[|kept| - limit..], |kept|)
  {
    var kept := Filter(logs, MeetsLevel(level));
    var r := FilterLogEntryList(logs, limit, 0, level);
    assert r.Success? by {
      PageZeroOffset(limit);
    }
    var tail := kept[|kept| - limit..];
    assert r.value.result == tail by {
      PageSliceZero(kept, limit);
    }
    assert r.value == LogPage(tail, |kept|);
  }

  /** Page 0 starts `limit` records before the end. */
  lemma PageZeroOffset(limit: int)
    ensures PageOffset(0, limit) == -limit
  {
  }

  // ---------------------------------------------------------------------
  // Per-file summaries and the total (getLogs, getErrorCount,
  // LogService.php:65-85, 161-179)
  // ---------------------------------------------------------------------

  /** Names `getLogs` drops from the listing. */
  predicate IsSpecialName(name: string)
  {
    name == "." || name == ".." || name == ".DS_Store"
  }

  function NotSpecial(): LogFileEntry -> bool
  {
    (e: LogFileEntry) => !IsSpecialName(e.name)
  }

  /** `str_ends_with`. */
  predicate EndsWith(s: string, suffix: string)
  {
    |suffix| <= |s| && s[|s| - |suffix|..] == suffix
  }

  /** One row of the log overview. `fileSize` is the raw byte count (its
      formatting is not modelled). */
  datatype LogFileSummary = LogFileSummary(
    fileName: string,
    fileSize: int,
    changeDate: int,
    readable: bool,
    warningCountByPeriod: nat,
    errorCountByPeriod: nat)

  /** The row `getLogs` builds for one file. Files changed at or before the
      window start are not read; compressed files are flagged unreadable but
      still read. */
  function Summarize(e: LogFileEntry, since: int, parseDate: string -> Option<int>): (f: LogFileSummary)
    ensures f.fileName == e.name && f.changeDate == e.mtime
    ensures !f.readable <==> EndsWith(e.name, ".gz")
    ensures e.mtime <= since ==> f.warningCountByPeriod == 0 && f.errorCountByPeriod == 0
    ensures f.warningCountByPeriod + f.errorCountByPeriod <= 2 * |e.lines|
  {
    var recent := e.mtime > since;
    var logs := ReadLog(e.lines, parseDate);
    LogFileSummary(
      e.name, e.size, e.mtime, !EndsWith(e.name, ".gz"),
      if recent then CountLogTypeByPeriod(logs, WarningTypes, since) else 0,
      if recent then CountLogTypeByPeriod(logs, ErrorTypes, since) else 0)
  }

  /** The rows of a sequence of files, in the same order. */
  function Summaries(es: seq<LogFileEntry>, since: int, parseDate: string -> Option<int>): (fs: seq<LogFileSummary>)
    ensures |fs| == |es|
    ensures forall i :: 0 <= i < |es| ==> fs[i] == Summarize(es[i], since, parseDate)
  {
    if es == [] then [] else [Summarize(es[0], since, parseDate)] + Summaries(es[1..], since, parseDate)
  }

  /** The sort key of the overview. */
  function ChangeDate(f: LogFileSummary): int
  {
    f.changeDate
  }

  /** Newest change first. */
  predicate SortedByChangeDate(fs: seq<LogFileSummary>)
  {
    forall i, j :: 0 <= i < j < |fs| ==> fs[j].changeDate <= fs[i].changeDate
  }

  /** The `usort` of `getLogs`: the boolean comparator "is `a` older than
      `b`" under PHP 8's stable sort orders by change date, newest first,
      and keeps the listing order among rows of the same change date. */
  function SortByChangeDate(fs: seq<LogFileSummary>): (r: seq<LogFileSummary>)
    ensures SortedByChangeDate(r)
    ensures multiset(r) == multiset(fs)
  {
    var r := SortDesc(fs, ChangeDate);
    assert forall i, j :: 0 <= i < j < |r| ==> ChangeDate(r[j]) <= ChangeDate(r[i]);
    r
  }

  /** Stability: the rows of any one change date keep their listing order. */
  lemma SortIsStable(fs: seq<LogFileSummary>, date: int)
    ensures Filter(SortByChangeDate(fs), KeyIs(ChangeDate, date)) == Filter(fs, KeyIs(ChangeDate, date))
  {
    SortStable(fs, ChangeDate, date);
  }

  /** `getLogs()`: one row per file except `.`, `..` and `.DS_Store`, newest
      change first. */
  function GetLogs(dir: LogDir, since: int, parseDate: string -> Option<int>): (r: Result<seq<LogFileSummary>, LogError>)
    ensures r.Failure? <==> dir.Unreadable?
    ensures r.Failure? ==> r.error == DirectoryUnreadable
    ensures r.Success? ==> SortedByChangeDate(r.value)
    ensures r.Success? ==> multiset(r.value) == multiset(Summaries(Filter(dir.entries, NotSpecial()), since, parseDate))
  {
    match dir
    case Unreadable => Failure(DirectoryUnreadable)
    case Listing(entries) => Success(SortByChangeDate(Summaries(Filter(entries, NotSpecial()), since, parseDate)))
  }

  /** Every row of the overview names a listed file that is not special. */
  lemma GetLogsRows(dir: LogDir, since: int, parseDate: string -> Option<int>, f: LogFileSummary)
    requires dir.Listing?
    requires f in GetLogs(dir, since, parseDate).value
    ensures !IsSpecialName(f.fileName)
    ensures exists e :: e in dir.entries && f == Summarize(e, since, parseDate)
  {
    var kept := Filter(dir.entries, NotSpecial());
    assert f in multiset(GetLogs(dir, since, parseDate).value);
    var fs := Summaries(kept, since, parseDate);
    assert f in multiset(fs);
    var i :| 0 <= i < |fs| && fs[i] == f;
    FilterIn(dir.entries, NotSpecial(), kept[i]);
  }

  /** The warnings plus errors of all rows. */
  function TotalCount(fs: seq<LogFileSummary>): nat
  {
    Sum(fs, (f: LogFileSummary) => f.warningCountByPeriod + f.errorCountByPeriod)
  }

  /** The total does not depend on the order of the rows. */
  lemma TotalCountPermutation(a: seq<LogFileSummary>, b: seq<LogFileSummary>)
    requires multiset(a) == multiset(b)
    ensures TotalCount(a) == TotalCount(b)
  {
    SumPermutation(a, b, (f: LogFileSummary) => f.warningCountByPeriod + f.errorCountByPeriod);
  }

  /** The uncached total of `getErrorCount`'s callback. */
  function ErrorCount(dir: LogDir, since: int, parseDate: string -> Option<int>): (r: Result<nat, LogError>)
    ensures r.Failure? <==> dir.Unreadable?
  {
    match GetLogs(dir, since, parseDate)
    case Failure(e) => Failure(e)
    case Success(fs) => Success(TotalCount(fs))
  }

  /** The total is the sum over the listing in directory order: sorting
      does not change it. */
  lemma ErrorCountInListingOrder(entries: seq<LogFileEntry>, since: int, parseDate: string -> Option<int>)
    ensures ErrorCount(Listing(entries), since, parseDate)
      == Success(TotalCount(Summaries(Filter(entries, NotSpecial()), since, parseDate)))
  {
    var fs := Summaries(Filter(entries, NotSpecial()), since, parseDate);
    TotalCountPermutation(GetLogs(Listing(entries), since, parseDate).value, fs);
  }

  /** When no file changed after the window start, nothing is read and the
      total is 0. */
  lemma {:induction false} StaleFilesCountNothing(fs: seq<LogFileEntry>, since: int, parseDate: string -> Option<int>)
    requires forall i :: 0 <= i < |fs| ==> fs[i].mtime <= since
    ensures TotalCount(Summaries(fs, since, parseDate)) == 0
  {
    if fs != [] {
      StaleFilesCountNothing(fs[1..], since, parseDate);
      assert Summaries(fs, since, parseDate)[1..] == Summaries(fs[1..], since, parseDate);
    }
  }

  /** What `getErrorCount` returns and the cache pool it leaves behind. The
      pool's expiry is not modelled: an expired entry is an absent key. */
  datatype CachedCount = CachedCount(value: Result<nat, LogError>, cache: map<string, nat>)

  /** `getErrorCount($forceUpdate)`: a forced call deletes the cached entry
      first; the total is then served from the pool when present and
      computed and stored otherwise. A failed computation stores nothing. */
  function GetErrorCount(cache: map<string, nat>, key: string, forceUpdate: bool, dir: LogDir, since: int, parseDate: string -> Option<int>): (r: CachedCount)
    ensures forceUpdate || key !in cache ==> r.value == ErrorCount(dir, since, parseDate)
    ensures !forceUpdate && key in cache ==> r.value == Success(cache[key]) && r.cache == cache
    ensures r.value.Success? ==> key in r.cache && r.cache[key] == r.value.value
    ensures r.value.Failure? ==> key !in r.cache
    ensures forall k :: k != key ==> (k in r.cache <==> k in cache)
    ensures forall k :: k != key && k in cache ==> r.cache[k] == cache[k]
  {
    var pool := if forceUpdate then cache - {key} else cache;
    if key in pool then CachedCount(Success(pool[key]), pool)
    else match ErrorCount(dir, since, parseDate)
      case Failure(e) => CachedCount(Failure(e), pool)
      case Success(n) => CachedCount(Success(n), pool[key := n])
  }

  /** Once a total is in the pool, a later unforced call answers with it,
      whatever the log directory holds by then, and leaves the pool as it
      is. */
  lemma CachedCountIsServed(cache: map<string, nat>, key: string, forceUpdate: bool, dir: LogDir, since: int,
                            parseDate: string -> Option<int>, later: LogDir, laterSince: int)
    requires GetErrorCount(cache, key, forceUpdate, dir, since, parseDate).value.Success?
    ensures var first := GetErrorCount(cache, key, forceUpdate, dir, since, parseDate);
            var second := GetErrorCount(first.cache, key, false, later, laterSince, parseDate);
            second.value == first.value && second.cache == first.cache
  {
  }
}

=== FILE: php_array.dfy ===
/** PHP's ordered array as an association list: entries keep insertion
    order, assigning to an existing key overwrites it in place, assigning to
    a new key appends, and `unset` removes the key. */
module PhpArray {
  import opened Wrappers
  import opened Seqs

  /** PHP array keys are integers or strings. */
  datatype Key = IntKey(i: int) | StrKey(s: string)

  datatype Entry<V> = Entry(key: Key, value: V)

  /** True when `k` is one of the keys of `a` (`array_key_exists`). */
  predicate HasKey<V>(a: seq<Entry<V>>, k: Key)
  {
    exists i :: 0 <= i < |a| && a[i].key == k
  }

  /** Every key occurs once, as in any array PHP builds. */
  predicate DistinctKeys<V>(a: seq<Entry<V>>)
  {
    forall i, j :: 0 <= i < j < |a| ==> a[i].key != a[j].key
  }

  /** `$a[k]` for a key that may be missing. */
  function Get<V>(a: seq<Entry<V>>, k: Key): (r: Option<V>)
    ensures r.None? <==> !HasKey(a, k)
    ensures r.Some? ==> exists i :: 0 <= i < |a| && a[i] == Entry(k, r.value)
  {
    if a == [] then None
    else if a[0].key == k then Some(a[0].value)
    else
      assert HasKey(a, k) ==> HasKey(a[1..], k) by {
        if HasKey(a, k) {
          var i :| 0 <= i < |a| && a[i].key == k;
          assert a[1..][i - 1].key == k;
        }
      }
      Get(a[1..], k)
  }

  /** In an array with distinct keys, the entry at position `i` is what
      `Get` finds for its key. */
  lemma {:induction false} GetAt<V>(a: seq<Entry<V>>, i: nat)
    requires DistinctKeys(a)
    requires i < |a|
    ensures Get(a, a[i].key) == Some(a[i].value)
  {
    if i > 0 {
      assert a[0].key != a[i].key;
      assert a[1..][i - 1] == a[i];
      GetAt(a[1..], i - 1);
    }
  }

  /** True when `k` is absent from the keys of `a` from position 1 on. */
  lemma HasKeyTail<V>(a: seq<Entry<V>>, k: Key)
    requires a != [] && a[0].key != k
    ensures HasKey(a, k) <==> HasKey(a[1..], k)
  {
    if HasKey(a, k) {
      var i :| 0 <= i < |a| && a[i].key == k;
      assert a[1..][i - 1].key == k;
    }
    if HasKey(a[1..], k) {
      var i :| 0 <= i < |a[1..]| && a[1..][i].key == k;
      assert a[i + 1].key == k;
    }
  }

  /** `$a[k] = v`: the key now maps to `v` and every other key is
      untouched. */
  function Set<V>(a: seq<Entry<V>>, k: Key, v: V): seq<Entry<V>>
  {
    if a == [] then [Entry(k, v)]
    else if a[0].key == k then [Entry(k, v)] + a[1..]
    else [a[0]] + Set(a[1..], k, v)
  }

  /** After `$a[k] = v` the key maps to `v` and every other key is
      untouched. */
  lemma {:induction false} SetGet<V>(a: seq<Entry<V>>, k: Key, v: V)
    ensures Get(Set(a, k, v), k) == Some(v)
    ensures forall k' :: k' != k ==> Get(Set(a, k, v), k') == Get(a, k')
  {
    if a != [] && a[0].key != k {
      SetGet(a[1..], k, v);
    }
  }

  /** Assigning to a key the array already has overwrites it in place:
      nothing moves and no entry is added. */
  lemma {:induction false} SetExisting<V>(a: seq<Entry<V>>, k: Key, v: V)
    requires HasKey(a, k)
    ensures |Set(a, k, v)| == |a|
    ensures forall i :: 0 <= i < |a| ==> Set(a, k, v)[i].key == a[i].key
    ensures forall i :: 0 <= i < |a| && a[i].key != k ==> Set(a, k, v)[i] == a[i]
  {
    if a[0].key != k {
      HasKeyTail(a, k);
      SetExisting(a[1..], k, v);
    }
  }

  /** Assigning to a new key appends one entry at the end. */
  lemma {:induction false} SetNew<V>(a: seq<Entry<V>>, k: Key, v: V)
    requires !HasKey(a, k)
    ensures Set(a, k, v) == a + [Entry(k, v)]
  {
    if a != [] {
      HasKeyTail(a, k);
      SetNew(a[1..], k, v);
    }
  }

  /** Assigning again to the key just appended overwrites that last entry. */
  lemma {:induction false} SetLast<V>(a: seq<Entry<V>>, k: Key, v: V, w: V)
    requires !HasKey(a, k)
    ensures Set(a + [Entry(k, v)], k, w) == a + [Entry(k, w)]
  {
    if a != [] {
      HasKeyTail(a, k);
      assert (a + [Entry(k, v)])[1..] == a[1..] + [Entry(k, v)];
      SetLast(a[1..], k, v, w);
    }
  }

  /** A key of a joined array is a key of one of its parts. */
  lemma HasKeyConcat<V>(a: seq<Entry<V>>, b: seq<Entry<V>>, k: Key)
    ensures HasKey(a + b, k) <==> HasKey(a, k) || HasKey(b, k)
  {
    if HasKey(a + b, k) {
      var i :| 0 <= i < |a + b| && (a + b)[i].key == k;
      if i >= |a| {
        assert b[i - |a|].key == k;
      }
    }
    if HasKey(a, k) {
      var i :| 0 <= i < |a| && a[i].key == k;
      assert (a + b)[i].key == k;
    }
    if HasKey(b, k) {
      var i :| 0 <= i < |b| && b[i].key == k;
      assert (a + b)[|a| + i].key == k;
    }
  }

  /** A key none of the pieces has is not in their join. */
  lemma {:induction false} JoinMissing<V>(f: nat -> seq<Entry<V>>, lo: nat, hi: nat, k: Key)
    requires forall n :: lo <= n < hi ==> !HasKey(f(n), k)
    ensures !HasKey(Join(f, lo, hi), k)
    decreases hi - lo
  {
    if lo < hi {
      JoinMissing(f, lo + 1, hi, k);
      HasKeyConcat(f(lo), Join(f, lo + 1, hi), k);
    }
  }

  /** Looking a key up in a joined array finds it in the first part that
      has it. */
  lemma {:induction false} GetConcat<V>(a: seq<Entry<V>>, b: seq<Entry<V>>, k: Key)
    ensures Get(a + b, k) == if HasKey(a, k) then Get(a, k) else Get(b, k)
  {
    if a == [] {
      assert a + b == b;
    } else {
      assert (a + b)[1..] == a[1..] + b;
      if a[0].key != k {
        HasKeyTail(a, k);
        GetConcat(a[1..], b, k);
      }
    }
  }

  /** Assignment keeps keys distinct. */
  lemma SetDistinct<V>(a: seq<Entry<V>>, k: Key, v: V)
    requires DistinctKeys(a)
    ensures DistinctKeys(Set(a, k, v))
  {
    var r := Set(a, k, v);
    if HasKey(a, k) {
      SetExisting(a, k, v);
      forall i, j | 0 <= i < j < |r|
        ensures r[i].key != r[j].key
      {
        assert r[i].key == a[i].key && r[j].key == a[j].key;
      }
    } else {
      SetNew(a, k, v);
      forall i, j | 0 <= i < j < |r|
        ensures r[i].key != r[j].key
      {
        if j == |a| {
          assert r[i] == a[i];
        } else {
          assert r[i] == a[i] && r[j] == a[j];
        }
      }
    }
  }

  /** Keeping some entries of an array keeps its keys distinct from the key
      of an entry that follows them. */
  lemma FilterFreshKey<V>(a: seq<Entry<V>>, e: Entry<V>, p: Entry<V> -> bool)
    requires DistinctKeys(a + [e])
    ensures !HasKey(Filter(a, p), e.key)
  {
    var f := Filter(a, p);
    forall i | 0 <= i < |f|
      ensures f[i].key != e.key
    {
      FilterIn(a, p, f[i]);
      var j :| 0 <= j < |a| && a[j] == f[i];
      assert (a + [e])[j] == f[i] && (a + [e])[|a|] == e;
    }
  }

  /** The loop `foreach ($s as $k => $v) if (p) $r[$k] = $v;` starting
      from an empty `$r`. */
  function AssignWhere<V>(s: seq<Entry<V>>, p: Entry<V> -> bool): seq<Entry<V>>
  {
    if s == [] then []
    else
      var acc := AssignWhere(s[..|s| - 1], p);
      var e := s[|s| - 1];
      if p(e) then Set(acc, e.key, e.value) else acc
  }

  /** Since the keys of an array are distinct, each assignment appends, so
      the loop keeps exactly the entries satisfying `p`, in order, with
      their keys and values. */
  lemma {:induction false} AssignWhereIsFilter<V>(s: seq<Entry<V>>, p: Entry<V> -> bool)
    requires DistinctKeys(s)
    ensures AssignWhere(s, p) == Filter(s, p)
  {
    if s != [] {
      var init := s[..|s| - 1];
      var e := s[|s| - 1];
      assert s == init + [e];
      assert DistinctKeys(init) by {
        assert forall i :: 0 <= i < |init| ==> init[i] == s[i];
      }
      AssignWhereIsFilter(init, p);
      if p(e) {
        FilterFreshKey(init, e, p);
        SetNew(Filter(init, p), e.key, e.value);
      }
      FilterConcat(init, [e], p);
      FilterSingle(e, p);
    }
  }

  /** `foreach ($a as &$v) { $v = f($v); }` where a step may raise: the
      first failure ends the loop; otherwise every value is replaced by its
      image, keys and order unchanged. */
  function MapValues<V, E>(a: seq<Entry<V>>, f: V -> Result<V, E>): (r: Result<seq<Entry<V>>, E>)
    ensures r.Success? <==> forall i :: 0 <= i < |a| ==> f(a[i].value).Success?
    ensures r.Success? ==> |r.value| == |a|
    ensures r.Success? ==> forall i :: 0 <= i < |a| ==> r.value[i].key == a[i].key && f(a[i].value) == Success(r.value[i].value)
  {
    if a == [] then Success([])
    else
      match f(a[0].value)
      case Failure(e) => Failure(e)
      case Success(v) =>
        match MapValues(a[1..], f)
        case Failure(e) =>
          assert exists i :: 1 <= i < |a| && f(a[i].value).Failure? by {
            var j :| 0 <= j < |a[1..]| && f(a[1..][j].value).Failure?;
            assert a[1..][j] == a[j + 1];
          }
          Failure(e)
        case Success(rest) =>
          var r := [Entry(a[0].key, v)] + rest;
          assert forall i :: 1 <= i < |a| ==> r[i] == rest[i - 1] && a[i] == a[1..][i - 1];
          Success(r)
  }

  /** The number of integer-keyed entries: the next index `$a[] = v` uses
      in an array whose integer keys were all appended. */
  function NextIndex<V>(a: seq<Entry<V>>): nat
  {
    if a == [] then 0 else (if a[0].key.IntKey? then 1 else 0) + NextIndex(a[1..])
  }

  /** The loop inside `array_merge`: entries of `s` are added in order; an
      integer key is renumbered to the next index, a string key is assigned
      and so overrides an earlier entry with that key. */
  function MergeInto<V>(acc: seq<Entry<V>>, s: seq<Entry<V>>): seq<Entry<V>>
    decreases |s|
  {
    if s == [] then acc
    else
      var k := if s[0].key.IntKey? then IntKey(NextIndex(acc)) else s[0].key;
      MergeInto(Set(acc, k, s[0].value), s[1..])
  }

  /** `array_merge($a, $b)`. */
  function ArrayMerge<V>(a: seq<Entry<V>>, b: seq<Entry<V>>): seq<Entry<V>>
  {
    MergeInto(MergeInto([], a), b)
  }

  /** Adding entries with distinct keys: a string key ends up with the value
      the added entries give it, or keeps its old value when they do not
      mention it. */
  lemma {:induction false} MergeIntoStrKey<V>(acc: seq<Entry<V>>, s: seq<Entry<V>>, name: string)
    requires DistinctKeys(s)
    ensures Get(MergeInto(acc, s), StrKey(name)) == if HasKey(s, StrKey(name)) then Get(s, StrKey(name)) else Get(acc, StrKey(name))
    decreases |s|
  {
    if s != [] {
      var k := if s[0].key.IntKey? then IntKey(NextIndex(acc)) else s[0].key;
      var acc' := Set(acc, k, s[0].value);
      SetGet(acc, k, s[0].value);
      assert DistinctKeys(s[1..]) by {
        assert forall i :: 0 <= i < |s[1..]| ==> s[1..][i] == s[i + 1];
      }
      MergeIntoStrKey(acc', s[1..], name);
      if s[0].key == StrKey(name) {
        assert !HasKey(s[1..], StrKey(name)) by {
          forall i | 0 <= i < |s[1..]|
            ensures s[1..][i].key != StrKey(name)
          {
            assert s[1..][i] == s[i + 1];
          }
        }
      } else {
        HasKeyTail(s, StrKey(name));
      }
    }
  }

  /** `array_merge` on arrays: a string key takes its value from the second
      array when it has the key, and from the first otherwise. */
  lemma ArrayMergeStrKey<V>(a: seq<Entry<V>>, b: seq<Entry<V>>, name: string)
    requires DistinctKeys(a) && DistinctKeys(b)
    ensures Get(ArrayMerge(a, b), StrKey(name)) == if HasKey(b, StrKey(name)) then Get(b, StrKey(name)) else Get(a, StrKey(name))
  {
    MergeIntoStrKey([], a, name);
    MergeIntoStrKey(MergeInto([], a), b, name);
  }

  /** `unset($a[k])`: the key is gone and every other key is untouched. */
  function Unset<V>(a: seq<Entry<V>>, k: Key): (r: seq<Entry<V>>)
    ensures Get(r, k) == None
    ensures forall k' :: k' != k ==> Get(r, k') == Get(a, k')
    ensures |r| <= |a|
    ensures DistinctKeys(a) ==> DistinctKeys(r)
    ensures forall i :: 0 <= i < |r| ==> r[i] in a
  {
    if a == [] then []
    else if a[0].key == k then Unset(a[1..], k)
    else
      var tail := Unset(a[1..], k);
      var r := [a[0]] + tail;
      assert forall i :: 0 < i < |r| ==> r[i] == tail[i - 1];
      r
  }

  /** The values of `a` in order (`array_values`, or iterating `as $v`). */
  function Values<V>(a: seq<Entry<V>>): (r: seq<V>)
    ensures |r| == |a|
    ensures forall i :: 0 <= i < |a| ==> r[i] == a[i].value
  {
    if a == [] then [] else [a[0].value] + Values(a[1..])
  }
}

=== FILE: php_int.dfy ===
/** PHP's integers: signed 64-bit values. An integer `+`, `-` or `*` whose
    exact result leaves that range gives a float instead, and a digit
    string outside it is not read as an integer array key. */
module PhpInt {

  /** `PHP_INT_MIN`. */
  const PhpIntMin: int := -0x8000_0000_0000_0000

  /** `PHP_INT_MAX`. */
  const PhpIntMax: int := 0x7FFF_FFFF_FFFF_FFFF

  /** `n` is a value of PHP's `int` type. */
  predicate IsPhpInt(n: int)
  {
    PhpIntMin <= n <= PhpIntMax
  }
}

=== FILE: php_strings.dfy ===
/** The PHP string functions the services rely on, on single-byte strings:
    `explode`/`implode`, loose `==` between strings, `ltrim` with one
    character, `strpos`/`mb_strpos`, ASCII `strtolower`/`mb_strtolower`, and
    the integer reading PHP applies to string array keys. */
module PhpStrings {
  import opened Wrappers
  import opened Seqs
  import opened PhpInt

  // ---------------------------------------------------------------------
  // explode / implode
  // ---------------------------------------------------------------------

  /** `implode(d, parts)`. */
  function Implode(parts: seq<string>, d: char): string
  {
    if parts == [] then []
    else if |parts| == 1 then parts[0]
    else parts[0] + ([d] + Implode(parts[1..], d))
  }

  /** `explode(d, s)`: the pieces between the delimiters. There is always
      at least one piece, no piece holds the delimiter, and joining the
      pieces again gives back `s`. */
  function Explode(s: string, d: char): (r: seq<string>)
    ensures |r| >= 1
    ensures forall i :: 0 <= i < |r| ==> d !in r[i]
    ensures Implode(r, d) == s
    decreases |s|
  {
    match IndexOf(s, d)
    case None => [s]
    case Some(k) =>
      var rest := Explode(s[k + 1..], d);
      assert d !in s[..k] by {
        forall i | 0 <= i < k
          ensures s[..k][i] != d
        {
          assert s[..k][i] == s[i];
        }
      }
      assert Implode([s[..k]] + rest, d) == s by {
        ImplodeCons(s[..k], rest, d);
        assert s == s[..k] + ([d] + s[k + 1..]);
      }
      [s[..k]] + rest
  }

  /** Joining a first piece to at least one more. */
  lemma ImplodeCons(p: string, rest: seq<string>, d: char)
    requires rest != []
    ensures Implode([p] + rest, d) == p + ([d] + Implode(rest, d))
  {
    assert ([p] + rest)[1..] == rest;
  }

  /** Splitting joined pieces gives the pieces back when none of them holds
      the delimiter. */
  lemma {:induction false} ExplodeImplode(parts: seq<string>, d: char)
    requires parts != []
    requires forall i :: 0 <= i < |parts| ==> d !in parts[i]
    ensures Explode(Implode(parts, d), d) == parts
  {
    if |parts| == 1 {
      assert d !in parts[0];
      assert IndexOf(parts[0], d) == None;
    } else {
      var p, tail := parts[0], parts[1..];
      var rest := Implode(tail, d);
      assert Implode(parts, d) == p + ([d] + rest);
      assert Explode(rest, d) == tail by {
        ExplodeImplode(tail, d);
      }
      assert Explode(p + ([d] + rest), d) == [p] + tail by {
        assert d !in p;
        ExplodeCons(p, rest, d);
      }
      assert parts == [p] + tail;
    }
  }

  /** The first delimiter of `p + d + rest` is the one after `p`, when
      `p` holds none. */
  lemma FirstDelimiter(p: string, rest: string, d: char)
    requires d !in p
    ensures var s := p + ([d] + rest);
      IndexOf(s, d) == Some(|p|) && s[..|p|] == p && s[|p| + 1..] == rest
  {
    var s := p + ([d] + rest);
    assert s[|p|] == d;
    assert forall i :: 0 <= i < |p| ==> s[i] == p[i];
    assert s[..|p|] == p;
    assert s[|p| + 1..] == rest;
  }

  /** Splitting `p + d + rest` gives `p`, then the pieces of `rest`. */
  lemma ExplodeCons(p: string, rest: string, d: char)
    requires d !in p
    ensures Explode(p + ([d] + rest), d) == [p] + Explode(rest, d)
  {
    FirstDelimiter(p, rest, d);
  }

  // ---------------------------------------------------------------------
  // Numbers in strings
  // ---------------------------------------------------------------------

  predicate IsDigit(c: char)
  {
    '0' <= c <= '9'
  }

  /** A non-empty run of decimal digits. */
  predicate IsDigits(s: string)
  {
    |s| > 0 && forall i :: 0 <= i < |s| ==> IsDigit(s[i])
  }

  /** The number a run of digits spells. */
  function DigitsValue(s: string): nat
    requires forall i :: 0 <= i < |s| ==> IsDigit(s[i])
  {
    if s == [] then 0
    else
      assert IsDigit(s[|s| - 1]);
      DigitsValue(s[..|s| - 1]) * 10 + (s[|s| - 1] as int - '0' as int)
  }

  /** Leading zeros do not change the value. */
  lemma {:induction false} LeadingZeroValue(s: string)
    requires forall i :: 0 <= i < |s| ==> IsDigit(s[i])
    ensures DigitsValue("0" + s) == DigitsValue(s)
  {
    if s != [] {
      assert ("0" + s)[..|"0" + s| - 1] == "0" + s[..|s| - 1];
      LeadingZeroValue(s[..|s| - 1]);
    }
  }

  /** PHP's `==` between two strings: two numeric strings compare as
      numbers, any other pair byte by byte. Only runs of decimal digits are
      taken as numeric here. */
  predicate LooseEq(a: string, b: string)
  {
    if IsDigits(a) && IsDigits(b) then DigitsValue(a) == DigitsValue(b) else a == b
  }

  lemma LooseEqIsEquivalence(a: string, b: string, c: string)
    ensures LooseEq(a, a)
    ensures LooseEq(a, b) ==> LooseEq(b, a)
    ensures LooseEq(a, b) && LooseEq(b, c) ==> LooseEq(a, c)
  {
  }

  /** A string PHP turns into an integer when it is used as an array key:
      `"0"`, or an optional `-` and digits without a leading zero, whose
      value is a PHP `int`. A longer digit string stays a string key. */
  function IntegerKey(s: string): (r: Option<int>)
    ensures r.Some? ==> IsDigits(s) || (|s| > 1 && s[0] == '-' && IsDigits(s[1..]))
    ensures r.Some? ==> IsPhpInt(r.value)
    ensures IsDigits(s) && (s[0] != '0' || |s| == 1) ==>
      (r.Some? <==> DigitsValue(s) <= PhpIntMax) && (r.Some? ==> r.value == DigitsValue(s))
    ensures |s| > 1 && s[0] == '-' && IsDigits(s[1..]) && s[1] != '0' ==>
      (r.Some? <==> 0 - DigitsValue(s[1..]) as int >= PhpIntMin) && (r.Some? ==> r.value == 0 - DigitsValue(s[1..]) as int)
  {
    if IsDigits(s) && (s[0] != '0' || |s| == 1) then
      if DigitsValue(s) <= PhpIntMax then Some(DigitsValue(s)) else None
    else if |s| > 1 && s[0] == '-' && IsDigits(s[1..]) && s[1] != '0' then
      var n := 0 - DigitsValue(s[1..]) as int;
      if PhpIntMin <= n then Some(n) else None
    else None
  }

  /** The values of the first six, twelve and eighteen digits of
      `PHP_INT_MAX`, read digit by digit. */
  lemma LimitPrefix6()
    ensures DigitsValue("922337") == 922337
  {
    assert DigitsValue("9") == 9;
    assert "92"[..1] == "9";
    assert DigitsValue("92") == 92;
    assert "922"[..2] == "92";
    assert DigitsValue("922") == 922;
    assert "9223"[..3] == "922";
    assert DigitsValue("9223") == 9223;
    assert "92233"[..4] == "9223";
    assert DigitsValue("92233") == 92233;
    assert "922337"[..5] == "92233";
  }

  lemma LimitPrefix12()
    ensures DigitsValue("922337203685") == 922337203685
  {
    LimitPrefix6();
    assert "9223372"[..6] == "922337";
    assert DigitsValue("9223372") == 9223372;
    assert "92233720"[..7] == "9223372";
    assert DigitsValue("92233720") == 92233720;
    assert "922337203"[..8] == "92233720";
    assert DigitsValue("922337203") == 922337203;
    assert "9223372036"[..9] == "922337203";
    assert DigitsValue("9223372036") == 9223372036;
    assert "92233720368"[..10] == "9223372036";
    assert DigitsValue("92233720368") == 92233720368;
    assert "922337203685"[..11] == "92233720368";
  }

  lemma LimitPrefixValue()
    ensures DigitsValue("922337203685477580") == 922337203685477580
  {
    LimitPrefix12();
    assert "9223372036854"[..12] == "922337203685";
    assert DigitsValue("9223372036854") == 9223372036854;
    assert "92233720368547"[..13] == "9223372036854";
    assert DigitsValue("92233720368547") == 92233720368547;
    assert "922337203685477"[..14] == "92233720368547";
    assert DigitsValue("922337203685477") == 922337203685477;
    assert "9223372036854775"[..15] == "922337203685477";
    assert DigitsValue("9223372036854775") == 9223372036854775;
    assert "92233720368547758"[..16] == "9223372036854775";
    assert DigitsValue("92233720368547758") == 92233720368547758;
    assert "922337203685477580"[..17] == "92233720368547758";
  }

  /** The first digit string past `PHP_INT_MAX` stays a string key, while
      `PHP_INT_MIN` written out is still an integer key. */
  lemma IntegerKeyLimits()
    ensures IntegerKey("9223372036854775807") == Some(PhpIntMax)
    ensures IntegerKey("9223372036854775808").None?
    ensures IntegerKey("-9223372036854775808") == Some(PhpIntMin)
  {
    LimitValues();
    assert "-9223372036854775808"[1..] == "9223372036854775808";
  }

  /** `PHP_INT_MAX` and the number after it, read from their digits. */
  lemma LimitValues()
    ensures DigitsValue("9223372036854775807") == PhpIntMax
    ensures DigitsValue("9223372036854775808") == PhpIntMax + 1
  {
    LimitPrefixValue();
    assert "9223372036854775807"[..18] == "922337203685477580";
    assert "9223372036854775808"[..18] == "922337203685477580";
  }

  // ---------------------------------------------------------------------
  // ltrim with a single character
  // ---------------------------------------------------------------------

  /** `ltrim(s, c)`: drops every leading `c`. */
  function TrimLeft(s: string, c: char): (r: string)
    ensures |r| <= |s|
    ensures r == s[|s| - |r|..]
    ensures r == [] || r[0] != c
    ensures forall i :: 0 <= i < |s| - |r| ==> s[i] == c
  {
    if s == [] || s[0] != c then s
    else
      var r := TrimLeft(s[1..], c);
      assert r == s[|s| - |r|..] by {
        assert s[1..][|s[1..]| - |r|..] == s[|s| - |r|..];
      }
      assert forall i :: 1 <= i < |s| - |r| ==> s[i] == s[1..][i - 1];
      r
  }

  /** Trimming twice trims nothing more. */
  lemma TrimLeftIdempotent(s: string, c: char)
    ensures TrimLeft(TrimLeft(s, c), c) == TrimLeft(s, c)
  {
  }

  // ---------------------------------------------------------------------
  // strpos
  // ---------------------------------------------------------------------

  /** `needle` occurs in `hay` at position `i`. */
  predicate OccursAt(hay: string, needle: string, i: int)
  {
    0 <= i && i + |needle| <= |hay| && hay[i..i + |needle|] == needle
  }

  /** The first occurrence at or after `from`. */
  function FindFrom(hay: string, needle: string, from: nat): (r: Option<nat>)
    ensures r.Some? ==> from <= r.value && OccursAt(hay, needle, r.value)
    ensures r.Some? ==> forall i :: from <= i < r.value ==> !OccursAt(hay, needle, i)
    ensures r.None? ==> forall i :: from <= i ==> !OccursAt(hay, needle, i)
    decreases |hay| - from
  {
    if from + |needle| > |hay| then None
    else if hay[from..from + |needle|] == needle then Some(from)
    else FindFrom(hay, needle, from + 1)
  }

  /** `strpos(hay, needle)`, and `mb_strpos` on single-byte text: the
      position of the first occurrence, or `false` (`None`). */
  function StrPos(hay: string, needle: string): (r: Option<nat>)
    ensures r.Some? ==> OccursAt(hay, needle, r.value)
    ensures r.Some? ==> forall i :: 0 <= i < r.value ==> !OccursAt(hay, needle, i)
    ensures r.None? <==> forall i :: !OccursAt(hay, needle, i)
  {
    FindFrom(hay, needle, 0)
  }

  /** `hay` holds `needle` somewhere. */
  ghost predicate Contains(hay: string, needle: string)
  {
    exists i :: OccursAt(hay, needle, i)
  }

  lemma StrPosContains(hay: string, needle: string)
    ensures StrPos(hay, needle).Some? <==> Contains(hay, needle)
  {
    if StrPos(hay, needle).Some? {
      assert OccursAt(hay, needle, StrPos(hay, needle).value);
    }
  }

  // ---------------------------------------------------------------------
  // strtolower
  // ---------------------------------------------------------------------

  function LowerChar(c: char): char
  {
    if 'A' <= c <= 'Z' then (c as int - 'A' as int + 'a' as int) as char else c
  }

  /** `strtolower`/`mb_strtolower` on ASCII text. */
  function Lower(s: string): (r: string)
    ensures |r| == |s|
    ensures forall i :: 0 <= i < |s| ==> r[i] == LowerChar(s[i])
  {
    if s == [] then [] else [LowerChar(s[0])] + Lower(s[1..])
  }

  /** Lower-casing twice changes nothing more. */
  lemma LowerIdempotent(s: string)
    ensures Lower(Lower(s)) == Lower(s)
  {
    assert forall i :: 0 <= i < |s| ==> LowerChar(LowerChar(s[i])) == LowerChar(s[i]);
  }
}

=== FILE: seqs.dfy ===
/** Sequence helpers standing in for PHP's `array_filter`, `array_reverse`
    and `count`, with the facts the services rely on. */
module Seqs {
  import opened Wrappers

  /** The elements of `s` satisfying `p`, in their original order
      (`array_filter` followed by positional access). */
  function Filter<T>(s: seq<T>, p: T -> bool): (r: seq<T>)
    ensures |r| <= |s|
  {
    if s == [] then [] else (if p(s[0]) then [s[0]] else []) + Filter(s[1..], p)
  }

  /** Filtering a sequence with a known first element. */
  lemma FilterCons<T>(h: T, t: seq<T>, p: T -> bool)
    ensures Filter([h] + t, p) == (if p(h) then [h] else []) + Filter(t, p)
  {
    assert ([h] + t)[1..] == t;
  }

  /** An element is kept exactly when it occurs and satisfies `p`. */
  lemma {:induction false} FilterIn<T>(s: seq<T>, p: T -> bool, x: T)
    ensures x in Filter(s, p) <==> x in s && p(x)
  {
    if s != [] {
      FilterIn(s[1..], p, x);
      assert s == [s[0]] + s[1..];
    }
  }

  /** Filtering distributes over concatenation, so it keeps relative order. */
  lemma {:induction false} FilterConcat<T>(a: seq<T>, b: seq<T>, p: T -> bool)
    ensures Filter(a + b, p) == Filter(a, p) + Filter(b, p)
  {
    if a == [] {
      assert a + b == b;
    } else {
      var h := if p(a[0]) then [a[0]] else [];
      assert (a + b)[0] == a[0] && (a + b)[1..] == a[1..] + b;
      FilterConcat(a[1..], b, p);
      assert Filter(a + b, p) == h + Filter(a[1..] + b, p);
      assert Filter(a, p) == h + Filter(a[1..], p);
    }
  }

  /** Some element satisfies `p`. */
  predicate Any<T>(s: seq<T>, p: T -> bool)
  {
    exists i :: 0 <= i < |s| && p(s[i])
  }

  /** An element satisfying `p` is the first one or one of the rest. */
  lemma AnySplit<T>(s: seq<T>, p: T -> bool)
    requires s != []
    ensures Any(s, p) <==> p(s[0]) || Any(s[1..], p)
  {
    var tail := s[1..];
    if Any(tail, p) {
      var j :| 0 <= j < |tail| && p(tail[j]);
      assert s[j + 1] == tail[j];
    }
    if Any(s, p) {
      var j :| 0 <= j < |s| && p(s[j]);
      if j > 0 {
        assert tail[j - 1] == s[j];
      }
    }
  }

  /** Filtering with a predicate that holds nowhere leaves nothing. */
  lemma {:induction false} FilterNone<T>(s: seq<T>, p: T -> bool)
    requires forall i :: 0 <= i < |s| ==> !p(s[i])
    ensures Filter(s, p) == []
  {
    if s != [] {
      FilterNone(s[1..], p);
    }
  }

  /** A filter keeps something exactly when some element satisfies `p`. */
  lemma {:induction false} FilterNonEmpty<T>(s: seq<T>, p: T -> bool)
    ensures Filter(s, p) != [] <==> Any(s, p)
  {
    if s != [] {
      FilterNonEmpty(s[1..], p);
      AnySplit(s, p);
    }
  }

  /** A one-element sequence is kept or dropped whole. */
  lemma FilterSingle<T>(x: T, p: T -> bool)
    ensures Filter([x], p) == if p(x) then [x] else []
  {
    assert [x][1..] == [];
  }

  /** Filtering with a predicate that holds everywhere changes nothing. */
  lemma {:induction false} FilterAll<T>(s: seq<T>, p: T -> bool)
    requires forall i :: 0 <= i < |s| ==> p(s[i])
    ensures Filter(s, p) == s
  {
    if s != [] {
      FilterAll(s[1..], p);
    }
  }

  /** Two predicates that agree on every element filter alike. */
  lemma {:induction false} FilterCongruent<T>(s: seq<T>, p: T -> bool, q: T -> bool)
    requires forall i :: 0 <= i < |s| ==> p(s[i]) == q(s[i])
    ensures Filter(s, p) == Filter(s, q)
  {
    if s != [] {
      FilterCongruent(s[1..], p, q);
    }
  }

  /** Taking out the element at `j` takes one copy of it out of the
      multiset. */
  lemma RemoveAt<T>(s: seq<T>, j: nat)
    requires j < |s|
    ensures s == s[..j] + [s[j]] + s[j + 1..]
    ensures multiset(s[..j] + s[j + 1..]) == multiset(s) - multiset{s[j]}
  {
    assert s == s[..j] + [s[j]] + s[j + 1..];
    assert multiset(s) == multiset(s[..j]) + multiset{s[j]} + multiset(s[j + 1..]);
  }

  /** A permutation of a non-empty sequence holds its first element
      somewhere; without it the rest are a permutation of each other. */
  lemma MatchFirst<T>(a: seq<T>, b: seq<T>) returns (j: nat)
    requires a != [] && multiset(a) == multiset(b)
    ensures j < |b| && b[j] == a[0]
    ensures b == b[..j] + [b[j]] + b[j + 1..]
    ensures multiset(a[1..]) == multiset(b[..j] + b[j + 1..])
  {
    assert a[0] in multiset(b);
    j :| 0 <= j < |b| && b[j] == a[0];
    assert a == [a[0]] + a[1..];
    RemoveAt(b, j);
  }

  /** Permuting a sequence keeps the number of elements a filter keeps. */
  lemma {:induction false} FilterCountPermutation<T>(a: seq<T>, b: seq<T>, p: T -> bool)
    requires multiset(a) == multiset(b)
    ensures |Filter(a, p)| == |Filter(b, p)|
  {
    if a == [] {
      assert |b| == |multiset(b)| == 0;
    } else {
      var j := MatchFirst(a, b);
      FilterCountPermutation(a[1..], b[..j] + b[j + 1..], p);
      FilterConcat(b[..j] + [b[j]], b[j + 1..], p);
      FilterConcat(b[..j], [b[j]], p);
      FilterConcat(b[..j], b[j + 1..], p);
      FilterSingle(b[j], p);
    }
  }

  /** The sum of the weights of the elements. */
  function Sum<T>(s: seq<T>, w: T -> nat): nat
  {
    if s == [] then 0 else w(s[0]) + Sum(s[1..], w)
  }

  lemma {:induction false} SumConcat<T>(a: seq<T>, b: seq<T>, w: T -> nat)
    ensures Sum(a + b, w) == Sum(a, w) + Sum(b, w)
  {
    if a == [] {
      assert a + b == b;
    } else {
      assert (a + b)[1..] == a[1..] + b;
      SumConcat(a[1..], b, w);
    }
  }

  /** `f(lo) + f(lo + 1) + ... + f(hi - 1)`. */
  function Join<T>(f: nat -> seq<T>, lo: nat, hi: nat): seq<T>
    decreases hi - lo
  {
    if hi <= lo then [] else f(lo) + Join(f, lo + 1, hi)
  }

  lemma {:induction false} JoinSplit<T>(f: nat -> seq<T>, lo: nat, mid: nat, hi: nat)
    requires lo <= mid <= hi
    ensures Join(f, lo, hi) == Join(f, lo, mid) + Join(f, mid, hi)
    decreases mid - lo
  {
    if lo < mid {
      JoinSplit(f, lo + 1, mid, hi);
      assert Join(f, lo, hi) == f(lo) + (Join(f, lo + 1, mid) + Join(f, mid, hi));
    }
  }

  /** A join split around one of its pieces. */
  lemma JoinAround<T>(f: nat -> seq<T>, lo: nat, n: nat, hi: nat)
    requires lo <= n < hi
    ensures Join(f, lo, hi) == Join(f, lo, n) + f(n) + Join(f, n + 1, hi)
  {
    JoinSplit(f, lo, n, hi);
    assert Join(f, n, hi) == f(n) + Join(f, n + 1, hi);
  }

  /** Pieces of at most one element each join to at most one element per
      piece. */
  lemma {:induction false} JoinLength<T>(f: nat -> seq<T>, lo: nat, hi: nat)
    requires forall n :: lo <= n < hi ==> |f(n)| <= 1
    ensures |Join(f, lo, hi)| <= if hi <= lo then 0 else hi - lo
    decreases hi - lo
  {
    if lo < hi {
      JoinLength(f, lo + 1, hi);
    }
  }

  /** A sum of naturals is 0 exactly when every term is. */
  lemma {:induction false} SumZero<T>(s: seq<T>, w: T -> nat)
    ensures Sum(s, w) == 0 <==> forall i :: 0 <= i < |s| ==> w(s[i]) == 0
  {
    if s != [] {
      SumZero(s[1..], w);
      assert forall i :: 1 <= i < |s| ==> s[i] == s[1..][i - 1];
    }
  }

  /** The sum does not depend on the order of the elements. */
  lemma {:induction false} SumPermutation<T>(a: seq<T>, b: seq<T>, w: T -> nat)
    requires multiset(a) == multiset(b)
    ensures Sum(a, w) == Sum(b, w)
  {
    if a == [] {
      assert |b| == |multiset(b)| == 0;
    } else {
      var j := MatchFirst(a, b);
      assert Sum(a, w) == w(a[0]) + Sum(a[1..], w);
      SumPermutation(a[1..], b[..j] + b[j + 1..], w);
      SumConcat(b[..j] + [b[j]], b[j + 1..], w);
      SumConcat(b[..j], [b[j]], w);
      SumConcat(b[..j], b[j + 1..], w);
      assert Sum([b[j]], w) == w(b[j]) + Sum([b[j]][1..], w);
      assert [b[j]][1..] == [];
    }
  }

  /** The results of `f` that are present, in order: a map that skips the
      elements `f` rejects. */
  function FilterMap<A, B>(s: seq<A>, f: A -> Option<B>): (r: seq<B>)
    ensures |r| <= |s|
  {
    if s == [] then []
    else
      var head := match f(s[0]) case Some(b) => [b] case None => [];
      head + FilterMap(s[1..], f)
  }

  lemma FilterMapSingle<A, B>(x: A, f: A -> Option<B>)
    ensures FilterMap([x], f) == match f(x) case Some(b) => [b] case None => []
  {
    assert [x][1..] == [];
  }

  lemma {:induction false} FilterMapConcat<A, B>(a: seq<A>, b: seq<A>, f: A -> Option<B>)
    ensures FilterMap(a + b, f) == FilterMap(a, f) + FilterMap(b, f)
  {
    if a == [] {
      assert a + b == b;
    } else {
      assert (a + b)[1..] == a[1..] + b;
      FilterMapConcat(a[1..], b, f);
    }
  }

  /** `y` is produced exactly when some element is mapped to it. */
  lemma {:induction false} FilterMapMembership<A, B>(s: seq<A>, f: A -> Option<B>, y: B)
    ensures y in FilterMap(s, f) <==> exists j :: 0 <= j < |s| && f(s[j]) == Some(y)
  {
    var p := (a: A) => f(a) == Some(y);
    assert Any(s, p) <==> exists j :: 0 <= j < |s| && f(s[j]) == Some(y);
    if s != [] {
      FilterMapMembership(s[1..], f, y);
      AnySplit(s, p);
      assert Any(s[1..], p) <==> exists j :: 0 <= j < |s[1..]| && f(s[1..][j]) == Some(y);
    }
  }

  /** `array_reverse`: position `i` of the result holds position
      `|s| - 1 - i` of the input. */
  function Reverse<T>(s: seq<T>): (r: seq<T>)
    ensures |r| == |s|
    ensures forall i :: 0 <= i < |s| ==> r[i] == s[|s| - 1 - i]
  {
    if s == [] then [] else Reverse(s[1..]) + [s[0]]
  }

  /** Reversal turns a concatenation around. */
  lemma ReverseConcat<T>(a: seq<T>, b: seq<T>)
    ensures Reverse(a + b) == Reverse(b) + Reverse(a)
  {
  }

  /** Reversal keeps every element, so it keeps the multiset. */
  lemma {:induction false} ReverseMultiset<T>(s: seq<T>)
    ensures multiset(Reverse(s)) == multiset(s)
  {
    if s != [] {
      assert s == [s[0]] + s[1..];
      ReverseMultiset(s[1..]);
    }
  }

  /** `array_search` with loose comparison on values that compare by
      identity: the first position of `x`, or `None`. */
  function IndexOf<T(==)>(s: seq<T>, x: T): (r: Option<nat>)
    ensures r.Some? ==> r.value < |s| && s[r.value] == x
    ensures r.Some? ==> forall i :: 0 <= i < r.value ==> s[i] != x
    ensures r.None? <==> x !in s
  {
    if s == [] then None
    else if s[0] == x then Some(0)
    else match IndexOf(s[1..], x)
      case None => None
      case Some(i) => Some(i + 1)
  }
}

=== FILE: sorting.dfy ===
/** A stable sort by an integer key, largest key first: what PHP 8's
    `usort` does with a comparator that answers "is `a` smaller than `b`"
    as a boolean. PHP's sort is stable, and a `false` answer makes it ask
    again with the arguments swapped, so equal keys keep their input
    order. */
module Sorting {
  import opened Seqs

  /** Largest key first. */
  predicate SortedDesc<T>(s: seq<T>, key: T -> int)
  {
    forall i, j :: 0 <= i < j < |s| ==> key(s[j]) <= key(s[i])
  }

  /** Inserts `x` in front of the first element with a strictly smaller
      key, so behind every element whose key is at least as large when
      `s` is sorted. */
  function InsertDesc<T>(x: T, s: seq<T>, key: T -> int): (r: seq<T>)
    ensures multiset(r) == multiset(s) + multiset{x}
  {
    if s == [] || key(s[0]) < key(x) then [x] + s
    else
      assert s == [s[0]] + s[1..];
      [s[0]] + InsertDesc(x, s[1..], key)
  }

  /** Every element of the insertion is `x` or an old one, so a bound on
      all of them bounds the result. */
  lemma {:induction false} InsertBounded<T>(x: T, s: seq<T>, key: T -> int, bound: int)
    requires key(x) <= bound
    requires forall i :: 0 <= i < |s| ==> key(s[i]) <= bound
    ensures forall i :: 0 <= i < |InsertDesc(x, s, key)| ==> key(InsertDesc(x, s, key)[i]) <= bound
  {
    if s != [] && key(x) <= key(s[0]) {
      InsertBounded(x, s[1..], key, bound);
    }
  }

  /** Inserting into a sorted sequence keeps it sorted. */
  lemma {:induction false} InsertSorted<T>(x: T, s: seq<T>, key: T -> int)
    requires SortedDesc(s, key)
    ensures SortedDesc(InsertDesc(x, s, key), key)
  {
    if s != [] && key(x) <= key(s[0]) {
      InsertSorted(x, s[1..], key);
      InsertBounded(x, s[1..], key, key(s[0]));
    }
  }

  /** The elements whose key is `k`. */
  function KeyIs<T>(key: T -> int, k: int): T -> bool
  {
    (x: T) => key(x) == k
  }

  /** An element with a larger key than all others goes first and is the
      last of its key. */
  lemma InsertInFront<T>(x: T, s: seq<T>, key: T -> int, k: int)
    requires SortedDesc(s, key)
    requires s == [] || key(s[0]) < key(x)
    ensures Filter([x] + s, KeyIs(key, k)) == Filter(s, KeyIs(key, k)) + (if key(x) == k then [x] else [])
  {
    var p := KeyIs(key, k);
    FilterConcat([x], s, p);
    FilterSingle(x, p);
    if key(x) == k {
      forall i | 0 <= i < |s|
        ensures !p(s[i])
      {
        assert key(s[i]) <= key(s[0]);
      }
      FilterNone(s, p);
    }
  }

  /** The inserted element lands behind every element of its own key. */
  lemma {:induction false} InsertStable<T>(x: T, s: seq<T>, key: T -> int, k: int)
    requires SortedDesc(s, key)
    ensures Filter(InsertDesc(x, s, key), KeyIs(key, k)) == Filter(s, KeyIs(key, k)) + (if key(x) == k then [x] else [])
  {
    if s == [] || key(s[0]) < key(x) {
      InsertInFront(x, s, key, k);
    } else {
      var p := KeyIs(key, k);
      var tail := InsertDesc(x, s[1..], key);
      var head := if p(s[0]) then [s[0]] else [];
      var last := if key(x) == k then [x] else [];
      calc {
        Filter(InsertDesc(x, s, key), p);
        Filter([s[0]] + tail, p);
        { FilterCons(s[0], tail, p); }
        head + Filter(tail, p);
        { InsertStable(x, s[1..], key, k); }
        head + (Filter(s[1..], p) + last);
        (head + Filter(s[1..], p)) + last;
        Filter(s, p) + last;
      }
    }
  }

  /** Insertion sort, inserting each element into the sorted sequence of
      the ones before it. */
  function SortDesc<T>(s: seq<T>, key: T -> int): (r: seq<T>)
    ensures SortedDesc(r, key)
    ensures multiset(r) == multiset(s)
  {
    if s == [] then []
    else
      var init := SortDesc(s[..|s| - 1], key);
      assert s == s[..|s| - 1] + [s[|s| - 1]];
      InsertSorted(s[|s| - 1], init, key);
      InsertDesc(s[|s| - 1], init, key)
  }

  /** Stability: the elements of any one key keep their input order. */
  lemma {:induction false} SortStable<T>(s: seq<T>, key: T -> int, k: int)
    ensures Filter(SortDesc(s, key), KeyIs(key, k)) == Filter(s, KeyIs(key, k))
  {
    if s != [] {
      var init := s[..|s| - 1];
      var last := s[|s| - 1];
      SortStable(init, key, k);
      InsertStable(last, SortDesc(init, key), key, k);
      assert s == init + [last];
      FilterConcat(init, [last], KeyIs(key, k));
      FilterSingle(last, KeyIs(key, k));
    }
  }
}

=== FILE: wrappers.dfy ===
/** Failure-carrying values shared by every module of the model. */
module Wrappers {

  /** A value that may be absent: PHP's `null` / `false` sentinels. */
  datatype Option<+T> = None | Some(value: T)

  /** The outcome of an operation that PHP ends by throwing. */
  datatype Result<+T, +E> = Success(value: T) | Failure(error: E)
}
